=== FILE: README.md ===
# Astro-Theme-Reay core, modelled in Dafny

A Dafny model of the logic of the Astro-Theme-Reay site template. It has no
rendering, no I/O and no browser. What it covers:

- **GitHub layer** (`github_cache.dfy`, `github.dfy`, `github_types.dfy`,
  `base64.dfy`):
  - the two-tier response cache: an in-memory map plus JSON files on disk, a
    lazy time-to-live, and sanitised file names;
  - the three fetchers `getGitHubRepo`, `getUserRepos` and `getRepoReadme`,
    which share an in-flight registry, send conditional requests with ETags,
    paginate, and decode base64 READMEs;
  - the formatting helpers `formatDate`, `formatNumber` and `getLanguageColor`.
- **Blog queries** (`blog.dfy`, `seqs.dfy`):
  - slugs, the draft filter, sorting by date, tag counts, related posts, reading
    time and series.
  - The stable sort and the group-by they rely on are generic and live in
    `seqs.dfy`, each with an independent specification.
- **Theme** (`theme.dfy`, `css_vars.dfy`):
  - `createTheme`, which merges user overrides over the defaults;
  - the CSS custom properties emitted for the light and dark palettes;
  - the cascade that decides which palette is in force.
- **Internationalisation** (`i18n.dfy`):
  - the label lookup with its fallbacks;
  - the two `getCurrentLanguage` readers;
  - the client-side page updater.
- **Two UI state machines** (`theme_toggle.dfy`, `fullpage_scroll.dfy`):
  - the light/dark/system theme toggle;
  - the full-page section scroller, with its animation lock and cooldown.

Anything the code takes from outside is a parameter:

- the clock (`now`), the filesystem (a map of file names, plus a flag for whether
  writes succeed), `fetch` results (a `Response` value or `NetworkError`),
  `localStorage` (an optional string), the OS colour-scheme preference (a
  boolean), and `import.meta.env.DEV` (a boolean);
- the Material palette generator, UTF-8 decoding, and `Buffer`'s lenient base64
  decoding, which are functions passed in.

JavaScript truthiness is explicit. An optional string is truthy when present and
non-empty (`TruthyString`). The cache payload is a `Value` whose falsy members
are null, `false`, `0` and `''`.

Two behaviours of the code are easy to miss, and the model keeps both:

- A cache file that fails to parse stays on disk. The read returns null and
  leaves the file in place; only an expired entry is deleted
  (`GitHubCache.GetFromDisk`, `GitHubCache.CorruptFileSurvivesRead`).
- The `response.status === 304 && cached` branch of the fetchers is dead
  code. A request is only ever sent after the cache read returned something
  falsy, and that falsy value is what the branch tests, so a `304 Not
  Modified` answer yields null rather than a cached value
  (`GitHub.NotModifiedYieldsNull`, `GitHub.StepsKeepPendingFalsy`).

## Model

| member | source | states |
|---|---|---|
| GitHubCache.SafeKey | src/utils/github-cache.ts:39-42 | every character outside `[a-z0-9_-]` (case-insensitive) is replaced by `_`, position by position, and the length is kept |
| GitHubCache.SafeKeyIdempotent | src/utils/github-cache.ts:39-42 | sanitising an already sanitised key changes nothing |
| GitHubCache.SafeKeyOfSafe | src/utils/github-cache.ts:39-42 | a key made only of safe characters is its own file name |
| GitHubCache.SameFileIff | src/utils/github-cache.ts:39-42 | two keys share a cache file exactly when they have the same length and agree character by character once sanitised |
| GitHubCache.CollidingKeys | src/utils/github-cache.ts:39-42 | the distinct keys `repo:a/b` and `repo_a_b` map to the same file |
| GitHubCache.CollisionLeaksData | src/utils/github-cache.ts:39-42 | after a restart that empties memory, a value written under one key is read back under a colliding key |
| GitHubCache.Open | src/utils/github-cache.ts:27-31 | a new cache starts with empty memory over the existing files; a missing or zero ttl option means ten minutes |
| GitHubCache.CacheFor | src/utils/github-cache.ts:184-198 | development gets a fresh five-minute cache over the same directory; production gets the shared ten-minute instance unchanged |
| GitHubCache.GetFromMemory | src/utils/github-cache.ts:47-58 | returns the in-memory data only when the entry is fresh; an expired entry is deleted and nothing else in memory changes |
| GitHubCache.GetFromDisk | src/utils/github-cache.ts:63-83 | a missing or corrupt file reads as null and changes nothing; a stored entry that is fresh is returned and copied into memory; an expired one is deleted from disk |
| GitHubCache.Get | src/utils/github-cache.ts:88-95 | a fresh truthy in-memory value answers with nothing changed; otherwise the read falls back to the key's file: a missing or corrupt file gives null, a fresh stored entry is returned and copied into memory, an expired one is deleted; an expired memory entry is dropped on the way; other keys and other files are untouched |
| GitHubCache.Set | src/utils/github-cache.ts:100-117 | the entry, stamped with the current time and ETag, goes to memory and, when the write succeeds, to the key's file |
| GitHubCache.GetETag | src/utils/github-cache.ts:122-136 | the ETag of a truthy in-memory entry first, else that of the stored file; the expiry of the entry is not checked; no ETag when neither the memory entry's is truthy nor a readable file exists |
| GitHubCache.Clear | src/utils/github-cache.ts:141-165 | a truthy key removes that entry from memory and its file; no key empties both tiers |
| GitHubCache.GetAfterSet | src/utils/github-cache.ts:88-117 | a value set within the ttl is read back unchanged, through memory if it is truthy, otherwise from disk |
| GitHubCache.GetAfterExpiry | src/utils/github-cache.ts:47-83 | once the ttl has passed the read is null and the entry is gone from memory and from disk |
| GitHubCache.ETagOutlivesFreshness | src/utils/github-cache.ts:122-136 | the ETag just set is returned whatever the time |
| GitHubCache.ExpiredReadDropsETag | src/utils/github-cache.ts:47-136 | after an expired read the key has no ETag left |
| GitHubCache.GetAfterClear | src/utils/github-cache.ts:88-152 | after a key is cleared, reading it, or any key that shares its file and has no memory entry, gives null, and the file is gone |
| GitHubCache.StatsAfterSet | src/utils/github-cache.ts:100-180 | a `set` adds one memory entry when the key is new, and one file when the write succeeds and the file is new; otherwise the counts stay |
| GitHubCache.StatsAfterClear | src/utils/github-cache.ts:141-180 | clearing a key lowers each count by one exactly when that tier held the key |
| GitHubCache.ClearAllEmpties | src/utils/github-cache.ts:88-180 | after clearing everything every read is null and both counts are zero |
| GitHubCache.SurvivesRestart | src/utils/github-cache.ts:27-117 | a cache reopened over the files written by `set` reads the value back while it is fresh |
| GitHubCache.CorruptFileSurvivesRead | src/utils/github-cache.ts:79-82 | reading a corrupt file yields null and leaves memory and files exactly as they were |
| GitHubCache.FalsyMemoryEntryFallsThrough | src/utils/github-cache.ts:88-95 | a fresh but falsy in-memory value does not stop the read, which returns the file's data instead |
| GitHub.Headers | src/utils/github.ts:42-53 | `Accept` always comes first; `Authorization: Bearer <token>` is present exactly when the token is non-empty; `If-None-Match` is present exactly when the ETag is truthy, and carries it unchanged |
| GitHub.Normalize | src/utils/github.ts:93-109 | every field is copied across (name, description, homepage, language, counts, dates, archived and fork flags), `topics` defaults to the empty list, and the licence is the SPDX id exactly when that id is truthy |
| GitHub.ReadmeText | src/utils/github.ts:267-275 | base64 content has its newlines removed and is decoded: strictly when it is valid base64, otherwise as the lenient decoder's bytes read as UTF-8; any other encoding is returned verbatim |
| GitHub.ReadmeRoundTrip | src/utils/github.ts:267-275 | encoding bytes as base64, wrapping at any width and passing the result through the README path gives back the UTF-8 decoding of exactly those bytes |
| GitHub.NewETag | src/utils/github.ts:91 | the stored ETag is the response's `etag` header whenever that header is non-empty, and nothing otherwise; a network error has no ETag |
| GitHub.Begin | src/utils/github.ts:59-77 | a truthy cache read answers at once; otherwise a key already in flight is joined with its promise; otherwise the key is registered under a fresh promise with the falsy value it read and the ETag stored at that moment, which the request will carry |
| GitHub.CompleteRepo | src/utils/github.ts:72-122 | exactly one request, to the repository URL with the ETag captured when the call began; a failed, non-ok or bodiless answer gives null and leaves the cache alone; an ok answer caches and returns the normalised record with the response ETag; the key leaves the registry and its promise settles to the returned value |
| GitHub.GetGitHubRepo | src/utils/github.ts:58-126 | the registry loses at most the call's key; a call that joins returns the promise already registered and leaves the registry as it was; an answer given without a request is the cache's value; a call that sends a request settles a fresh promise to its answer |
| GitHub.GetUserRepos | src/utils/github.ts:138-216 | the registry loses at most the user's key; a joining call returns the registered promise; an answer without a request is the cache's value; a call that sends requests settles a fresh promise, and its first request asks for page 1 with the etag stored under the page-1 key, read when the request began |
| GitHub.GetRepoReadme | src/utils/github.ts:229-292 | the registry loses at most the README key; a joining call returns the registered promise; an answer without a request is the cache's value; a call that sends a request settles a fresh promise, and the request is the single README request carrying the etag stored under that same key |
| GitHub.CompleteReadme | src/utils/github.ts:242-288 | exactly one request, to the README URL with the ETag captured when the call began; failures give null and leave the cache alone; an ok answer caches and returns the decoded README text; the key leaves the registry and its promise settles to the returned value |
| GitHub.Paginate | src/utils/github.ts:157-199 | the page loop collects the records of every ok non-empty page, in order, and stops at the first empty, non-ok or failed page |
| GitHub.FirstStop | src/utils/github.ts:157-199 | the index of the first page that ends the loop is at or after the start and no earlier page ends it |
| GitHub.PaginateFromStart | src/utils/github.ts:157-199 | the loop fetches pages 1 to k+1, where page k+1 is the first that ends it, and returns exactly the records of pages 1 to k |
| GitHub.CompleteUserRepos | src/utils/github.ts:155-211 | a thrown error returns the empty list and caches nothing; otherwise the records collected before the loop stopped are cached without an ETag and returned; the key leaves the registry |
| GitHub.PaginationCompleteness | src/utils/github.ts:157-202 | pages of 100, 100 and 37 records followed by an empty page yield all 237 records after four requests |
| GitHub.StepsKeepPendingFalsy | src/utils/github.ts:58-126 | every begin and completion step keeps each in-flight key's captured value falsy |
| GitHub.JoinersShareResult | src/utils/github.ts:58-126 | a second call for a key in flight joins the first call's promise without a request, and when the first call completes that promise settles to exactly the value the first call returns, after which the key is free |
| GitHub.NotModifiedYieldsNull | src/utils/github.ts:80-88 | a 304 answer yields null and leaves the cache unchanged, because the captured value is always falsy |
| GitHub.MissLeavesOnlyFreshFalsy | src/utils/github-cache.ts:47-95 | after a read that missed, whatever is still stored under the key is fresh and falsy |
| GitHub.ConditionalRequestOnlyForFreshFalsy | src/utils/github.ts:74-77 | an `If-None-Match` header is sent only for an entry that is fresh and holds falsy data |
| GitHub.FormatDate | src/utils/github.ts:329-351 | 今天 for 0, 昨天 for 1, and otherwise the day count in the coarsest unit reached (days, weeks of 7, months of 30, years of 365), rounded down |
| GitHub.FormatDateReadsBack | src/utils/github.ts:329-351 | the rendering can be parsed back into its unit and count, so it loses only the rounding |
| GitHub.FormatNumber | src/utils/github.ts:307-312 | counts below 1000 are their decimal digits; 1000 and above end in `k` |
| GitHub.LanguageColor | src/utils/github.ts:363-384 | a listed language gets its colour; null, empty or unlisted languages get `#8b949e` |
| Base64.Encode | src/utils/github.ts:271-272 | an encoding's length is a multiple of four and it holds no newline |
| Base64.DecodeEncode | src/utils/github.ts:271-272 | decoding an encoding gives back the bytes (section 4 of RFC 4648) |
| Base64.DecodeWrapped | src/utils/github.ts:271-272 | removing the newlines of an encoding wrapped at any width and decoding it gives back the bytes |
| Strings.StripNewlines | src/utils/github.ts:271 | the result has no newline |
| Strings.StripNewlinesIsFilter | src/utils/github.ts:271 | removing newlines is filtering by "not a newline": every other character is kept, in order |
| Strings.Utf16Length | src/utils/blog.ts:168 | JavaScript's `length`: each character counts one UTF-16 unit, or two above U+FFFF, so the count lies between the number of characters and twice it, and equals it exactly when no character is above U+FFFF |
| Blog.Slug | src/utils/blog.ts:15-19 | the slug is a prefix of the id, shorter by 0, 3, 4, 6, 9 or 10 characters (an extension and/or `/index`) |
| Blog.SlugOfIndexEntry | src/utils/blog.ts:15-19 | the slug of `d/index`, with or without `.md`/`.mdx` in any case, is `d` |
| Blog.SlugOfFileEntry | src/utils/blog.ts:15-19 | the slug of `name.md` or `name.mdx` is `name` when the name does not end in `/index` |
| Blog.SlugFixedPoint | src/utils/blog.ts:15-19 | an id is its own slug exactly when it ends in none of `.md`, `.mdx` and `/index`, in any ASCII letter case |
| Blog.AllPosts | src/utils/blog.ts:31-39 | a post is listed exactly when in development, or when it is not a draft and not marked unpublished; development lists everything in order |
| Blog.SortPostsByDate | src/utils/blog.ts:44-50 | newest first, a permutation of the input, and posts with equal dates keep their order |
| Blog.TagOccurrences | src/utils/blog.ts:94-98 | a tag occurs exactly when some post carries it |
| Blog.AllTags | src/utils/blog.ts:90-103 | one entry per distinct tag of the listed posts, counting its occurrences; sorted by count, most used first; a permutation of the counts in order of first appearance in which equal counts keep that order, as a stable sort leaves them |
| Blog.TagCountsSpec | src/utils/blog.ts:90-103 | the grouped and sorted counts name every tag exactly once, with its multiplicity |
| Blog.PostsByTag | src/utils/blog.ts:110-117 | exactly the listed posts carrying the tag up to ASCII letter case, each as often as in the listing, newest first, posts of equal date in listing order |
| Blog.PostsByTagIgnoresCase | src/utils/blog.ts:110-117 | tags differing only in ASCII letter case select the same posts in the same order |
| Blog.Score | src/utils/blog.ts:133-138 | the score is the number of positions in the candidate's tag list whose tag the current post carries, so a repeated shared tag counts each time; it is zero exactly when none is shared |
| Blog.Ranked | src/utils/blog.ts:130-142 | a permutation of the eligible posts (listed, not the current one, sharing a tag) paired with their scores, sorted best first, with equal scores in listing order as a stable sort leaves them; every qualifying post appears |
| Blog.RelatedPosts | src/utils/blog.ts:125-145 | the first `slice(0, limit)` entries of the ranking, a negative limit counted from the end: at most `limit` qualifying posts, best first, none more often than among the eligible posts; a qualifying post left out scores no higher than any chosen one; nothing is left out when fewer than `limit` are returned |
| Blog.RelatedPostsDefault | src/utils/blog.ts:125 | without a limit, the first three entries of the ranking, or all of them when there are fewer |
| Blog.ReadingTime | src/utils/blog.ts:166-170 | the smallest whole number of minutes covering the content's UTF-16 length at 200 units a minute; zero exactly for empty content |
| Blog.SortBySeriesOrder | src/utils/blog.ts:212-216 | ascending by `seriesOrder ?? 999`, a permutation of the input, and stable |
| Blog.PostsBySeries | src/utils/blog.ts:208-218 | exactly the listed posts of that series, each as often as in the listing, by ascending order, posts of equal order in listing order |
| Blog.AllSeries | src/utils/blog.ts:175-203 | one entry per non-empty series name of the listed posts; its posts are that series' page and its count is their number, never zero; largest first; every series appears once; series of equal count in order of first appearance |
| Blog.SeriesKeysAgree | src/utils/blog.ts:180-211 | for a non-empty name, grouping by truthy series and filtering by `===` pick the same posts |
| Blog.SummariesAreSeriesPages | src/utils/blog.ts:179-201 | every group built by the loop, once sorted, is the series page of its name |
| Blog.EverySeriesListed | src/utils/blog.ts:179-189 | every listed post with a non-empty series has an entry for that series |
| Blog.SummaryNamesDistinct | src/utils/blog.ts:200-202 | no series name appears twice |
| Seqs.Filter | src/utils/blog.ts:113-115 | an element is kept exactly when it satisfies the predicate, in the original order |
| Seqs.SortDesc | src/utils/blog.ts:100-102 | a stable sort by a key, largest first: sorted, a permutation, and equal keys in input order |
| Seqs.StableSortUnique | src/utils/blog.ts:100-102 | the stable-sort specification determines the result: two sequences meeting it for the same input are equal |
| Seqs.GroupByIsReference | src/utils/blog.ts:177-189 | the insertion-ordered map built by the loop has one group per key in order of first appearance, holding the elements with that key in order |
| Theme.CreateTheme | src/theme/config.ts:6-24 | both palettes come from one generator call on the given primary, or `#5B8CFF` when none is given; the mode defaults to `system`; without overrides typography and shape are the defaults |
| Theme.DefaultTheme | src/theme/config.ts:6-24 | with no overrides the theme is the default typography and shape, system mode, and the palettes of the default primary |
| Theme.PartialScaleOverride | src/theme/config.ts:10-14 | overriding one step of the type scale changes that step only, not the rest of the scale |
| Theme.MergeKeyByKey | src/theme/config.ts:6-24 | for every override, each typography, scale and shape value is the override's when it gives that key and the default otherwise; a missing section gives no key |
| Theme.FullOverridesWin | src/theme/config.ts:6-24 | a theme fed back as complete overrides, with its primary, reproduces itself: given keys always win over defaults |
| CssVars.HexToRgb | src/theme/css-vars.ts:7-11 | anything other than an optional `#` and six hex digits gives `0, 0, 0` |
| CssVars.HexToRgbRoundTrip | src/theme/css-vars.ts:7-11 | three bytes written as six hex digits, each digit in either case independently and with or without `#`, parse back to those bytes in decimal |
| CssVars.HexToRgbRejects | src/theme/css-vars.ts:8 | shorthand, eight-digit, functional and non-hex inputs are rejected |
| CssVars.PaletteDecls | src/theme/css-vars.ts:13-97 | 64 declarations, each of the 32 colour roles followed by its `-rgb` companion computed from the same value after fallback |
| CssVars.ColourDeclsComplete | src/theme/css-vars.ts:13-97 | every colour declaration is a `--md-` custom property, and none is empty once the required roles are set, because each optional role falls back to a required one |
| CssVars.FallbacksWithoutOptionalRoles | src/theme/css-vars.ts:61-80 | without the optional roles, the extended surface levels and outline variant repeat `surface`, `surfaceVariant` and `outline`, values and `-rgb` alike |
| CssVars.ThemeToCssVars | src/theme/css-vars.ts:99-127 | five blocks: the base tokens; the light palette on `:root`; the dark palette on `:root` under `prefers-color-scheme: dark`; the light and the dark palette on the forced `[data-theme]` roots |
| CssVars.CascadeChoosesPalette | src/theme/css-vars.ts:119-126 | the palette in force is the dark one for `data-theme="dark"`, the light one for `data-theme="light"`, and otherwise the dark one exactly when the OS prefers dark |
| I18n.Translate | src/data/i18n.config.ts:359-363 | the language's entry when non-empty, else the English entry when non-empty, else the key |
| I18n.TranslateNonEmpty | src/data/i18n.config.ts:361 | a non-empty key always yields a non-empty label |
| I18n.TranslateEnglish | src/data/i18n.config.ts:361 | for English the label is the English entry or the key, whatever the Chinese table holds |
| I18n.TranslateChineseFallsBack | src/data/i18n.config.ts:361 | a Chinese label is the Chinese entry when present, else the English label |
| I18n.UseTranslation | src/data/i18n.config.ts:359-363 | no language argument means English |
| I18n.CurrentLanguage | src/utils/i18n.ts:12-19 | Chinese exactly when there is a window and the stored value is exactly `zh`; English otherwise |
| I18n.ParseLang | src/utils/i18n.ts:18 | a stored name is Chinese exactly when it is `zh`, and English otherwise, as the validating reader decides |
| I18n.CurrentLanguageReadsBack | src/utils/i18n.ts:17-18 | a stored language name reads back as that language |
| I18n.Translator | src/utils/i18n.ts:24-30 | an explicit language wins; otherwise the validated current language is used, with the same fallbacks |
| I18n.UseI18n | src/utils/i18n.ts:36-43 | `lang` and `currentLang` are English and `t` translates into English |
| I18n.UseI18nIgnoresStorage | src/utils/i18n.ts:36-43 | the hook gives the same result whatever is stored |
| I18n.StoredLanguage | src/scripts/i18n-content-updater.ts:14-17 | any non-empty stored string is returned unchecked; no window or no value gives `en` |
| I18n.StoredLanguageAgrees | src/scripts/i18n-content-updater.ts:14-17 | the two readers agree for a missing, empty, `en` or `zh` stored value |
| I18n.TAsWritten | src/scripts/i18n-content-updater.ts:22-25 | throws exactly for a language name other than `en` and `zh`; otherwise it is the shared lookup |
| I18n.T | src/scripts/i18n-content-updater.ts:22-25 | never throws, and a non-empty key gives a non-empty label |
| I18n.TAgreesWhereDefined | src/scripts/i18n-content-updater.ts:22-25 | wherever the written `t` returns, the corrected one returns the same label |
| I18n.UnknownStoredLanguageThrows | src/scripts/i18n-content-updater.ts:14-25 | a stored `fr` makes the written `t` throw for every key, while the corrected one answers in English |
| I18n.TargetOf | src/scripts/i18n-content-updater.ts:40-46 | a truthy `data-i18n-attr` names the attribute written; else `data-text` if present; else the text content |
| I18n.UpdateElement | src/scripts/i18n-content-updater.ts:33-48 | an element without a truthy key is untouched; otherwise its translation goes to its target |
| I18n.UpdateElementFrame | src/scripts/i18n-content-updater.ts:40-46 | only the target changes: all other attributes keep their values, and the text changes only when it is the target |
| I18n.UpdateElementIdempotent | src/scripts/i18n-content-updater.ts:33-48 | updating an element twice in the same language is the same as once, unless the target is the key attribute itself |
| I18n.TitleKeySpec | src/scripts/i18n-content-updater.ts:57-78 | a title is set exactly for `/` and paths under `/home`, `/blog`, `/archives`, `/projects`, `/links` or `/about`, and the chosen key names a route that prefixes the path |
| I18n.DocLang | src/scripts/i18n-content-updater.ts:51 | the document language is `en` exactly for `en`, and `zh-CN` for every other name |
| I18n.UpdateAll | src/scripts/i18n-content-updater.ts:33-48 | every element is updated independently, in place |
| I18n.UpdatePageContent | src/scripts/i18n-content-updater.ts:30-52 | elements are updated, the title is translated when the route has a key and kept otherwise, and the document language is set |
| I18n.UpdatePageContentIdempotent | src/scripts/i18n-content-updater.ts:30-52 | running the update twice in the same language leaves the page as after one run |
| I18n.UpdateAllAgrees | src/scripts/i18n-content-updater.ts:33-48 | for a real language the written loop never throws and matches the corrected one |
| I18n.UpdatePageContentAgrees | src/scripts/i18n-content-updater.ts:30-78 | for `en` and `zh` the written and the corrected page updates produce the same page |
| I18n.UpdatePageContentAsWritten | src/scripts/i18n-content-updater.ts:22-78 | each lookup uses `lang || getCurrentLanguage()`: when that name is `en` or `zh` the page is the corrected update in it, with the document language taken from the name passed in; for any other looked-up name it completes only on a route without a title, leaving the elements and title as they were |
| I18n.EmptyNameFallsBackToStored | src/scripts/i18n-content-updater.ts:22-51 | an empty name with nothing stored translates elements and title in English yet sets the document language to `zh-CN` |
| I18n.InitI18n | src/scripts/i18n-content-updater.ts:83-85 | the page is updated in the validated current language, so the document language is `zh-CN` exactly when there is a window and `zh` is stored |
| I18n.InitI18nAsWritten | src/scripts/i18n-content-updater.ts:83-85 | with `en`, `zh`, nothing or an empty string stored it is the corrected start-up; with any other stored name on a titled route it throws |
| I18n.InitI18nAgrees | src/scripts/i18n-content-updater.ts:83-85 | for a missing, empty, `en` or `zh` stored value the fix changes nothing |
| I18n.StoredFrenchBreaksPageLoad | src/scripts/i18n-content-updater.ts:14-85 | with `fr` stored, the page load on `/blog` throws, while the corrected one sets the English blog title |
| ThemeToggle.Read | src/scripts/ui/theme-toggle.ts:71-74 | no stored value reads as `system` |
| ThemeToggle.ReadModeName | src/scripts/ui/theme-toggle.ts:71-74 | a stored mode reads back as itself |
| ThemeToggle.ReadRejectsOthers | src/scripts/ui/theme-toggle.ts:73 | any other stored value reads as `system` |
| ThemeToggle.Next | src/scripts/ui/theme-toggle.ts:48-50 | a click always changes the mode |
| ThemeToggle.NextCycles | src/scripts/ui/theme-toggle.ts:25-52 | clicks go light, dark, system, light: three clicks return to the start after visiting every mode |
| ThemeToggle.LabelText | src/scripts/ui/theme-toggle.ts:97-135 | the label is `切换主题（当前：`, the mode's name, and `）`, and the name can be read back from between the two |
| ThemeToggle.IconClass | src/scripts/ui/theme-toggle.ts:79-90 | the icon class starts with the carbon icon of the mode (`moon`, `sun` or `laptop`), so the mode can be read back from it |
| ThemeToggle.LabelTextInjective | src/scripts/ui/theme-toggle.ts:97-137 | distinct modes get distinct accessible labels |
| ThemeToggle.Apply | src/scripts/ui/theme-toggle.ts:112-138 | a no-op without the button or icon; otherwise the stored mode reads back as the mode, the button label and title are the same text naming it, the icon class names the mode, and `data-theme` is the resolved theme, never `system` |
| ThemeToggle.Click | src/scripts/ui/theme-toggle.ts:47-52 | a click stores the next mode of the cycle |
| ThemeToggle.Init | src/scripts/ui/theme-toggle.ts:27-45 | without the button or icon nothing changes; otherwise the stored mode is kept, rewritten in its normal form, and `data-theme` is what it resolves to |
| ThemeToggle.SystemChanged | src/scripts/ui/theme-toggle.ts:54-59 | a preference change does nothing unless the stored mode is `system` |
| ThemeToggle.InitConsistent | src/scripts/ui/theme-toggle.ts:44-45 | after start-up `data-theme` and the label agree with the stored mode |
| ThemeToggle.StepsKeepConsistent | src/scripts/ui/theme-toggle.ts:47-59 | clicks keep the page consistent, and after a preference change it is consistent with the new preference |
| ThemeToggle.ThreeClicks | src/scripts/ui/theme-toggle.ts:47-52 | three clicks leave the page as applying the stored mode would |
| ThemeToggle.ApplyChoosesPalette | src/scripts/ui/theme-toggle.ts:116-122 | once applied, the palette in force is the dark one exactly for dark mode, or for system mode with a dark OS preference |
| FullPageScroll.ScrollTo | src/scripts/navigation/fullpage-scroll.ts:190-208 | the state changes exactly when the index is in range, differs from the current one and no animation runs; then it becomes current and the lock is taken |
| FullPageScroll.ScrollDown | src/scripts/navigation/fullpage-scroll.ts:171-175 | moves at most one section forward and never past the last |
| FullPageScroll.ScrollUp | src/scripts/navigation/fullpage-scroll.ts:180-184 | moves at most one section back and never before the first |
| FullPageScroll.Initial | src/scripts/navigation/fullpage-scroll.ts:10-14 | the pager starts at the first section, unlocked, with its index in range |
| FullPageScroll.HandleWheel | src/scripts/navigation/fullpage-scroll.ts:82-101 | nothing changes while animating, within 1000 ms of the last scroll, or for a movement of at most 10; otherwise a downward movement scrolls down and an upward one up, and either restarts the cooldown; the index only moves in the direction of the movement |
| FullPageScroll.HandleTouchMove | src/scripts/navigation/fullpage-scroll.ts:115-137 | the same rule for the swipe distance from the touch start, with a threshold of 50: swiping up scrolls down and swiping down scrolls up |
| FullPageScroll.HandleKey | src/scripts/navigation/fullpage-scroll.ts:143-166 | with the lock free, ArrowDown and PageDown scroll down and ArrowUp and PageUp scroll up; any key other than those and Home and End changes nothing; keys never touch the cooldown |
| FullPageScroll.Step | src/scripts/navigation/fullpage-scroll.ts:53-207 | every event keeps the index in range and the section count fixed |
| FullPageScroll.RunKeepsValid | src/scripts/navigation/fullpage-scroll.ts:191 | any sequence of events keeps the index in range |
| FullPageScroll.StepMovesOne | src/scripts/navigation/fullpage-scroll.ts:82-166 | wheel, swipe and arrow or page keys move the index by at most one |
| FullPageScroll.LockedIgnoresInput | src/scripts/navigation/fullpage-scroll.ts:82-193 | while the animation lock is held only the timer changes anything, apart from recording a touch start |
| FullPageScroll.CooldownRespected | src/scripts/navigation/fullpage-scroll.ts:82-137 | a wheel or swipe that changes anything comes at least 1000 ms after the last scroll and becomes the new last scroll |
| FullPageScroll.WheelAtLastSectionRestartsCooldown | src/scripts/navigation/fullpage-scroll.ts:93-100 | a wheel past the threshold at the last section scrolls nothing but still restarts the cooldown |
| FullPageScroll.KeysIgnoreCooldown | src/scripts/navigation/fullpage-scroll.ts:143-166 | the last scroll time has no bearing on a key press |
| FullPageScroll.HomeAndEnd | src/scripts/navigation/fullpage-scroll.ts:157-164 | with the lock free, End reaches the last section and Home the first |
| FullPageScroll.DownThenUp | src/scripts/navigation/fullpage-scroll.ts:171-184 | scrolling down and back up, with the timer in between, returns to the same section |
| FullPageScroll.Sections | src/scripts/navigation/fullpage-scroll.ts:68-76 | one view per section: a section is at offset 0 exactly when active, visible exactly when active, above the viewport exactly when before the current one, and neighbours are 100% apart |
| FullPageScroll.Dots | src/scripts/navigation/fullpage-scroll.ts:213-221 | at most one dot is active, the current section's dot when it exists, and none is active exactly when the index has no dot |
| FullPageScroll.OneSectionShown | src/scripts/navigation/fullpage-scroll.ts:68-76 | exactly the current section is visible and active, it sits at offset 0, and neighbours are 100% apart |
| FullPageScroll.DotsMatchSections | src/scripts/navigation/fullpage-scroll.ts:213-221 | the active dot is the current section's |

## Left out

- Network, filesystem and console I/O, `async`/`await` and real concurrency. The
  in-flight registry is modelled as a state threaded through `Begin`/`Complete`
  steps; interleavings are sequences of those steps.
- The on-disk JSON format and `ensureCacheDir`. A file is either a stored entry
  or corrupt; a failing write is a flag on `Set` and `Clear`.
- The Material palette generator (`generate.ts`), UTF-8 decoding and `Buffer`'s
  lenient base64 decoding. These are opaque parameters.
- GitHub.CompleteUserRepos: takes as given that some page ends the loop (an empty,
  non-ok or failed page); the source's `while (hasMore)` has no page cap and would
  not end if every page came back ok and non-empty. GitHub.GetUserRepos carries the
  same requirement.
- Blog.RelatedPosts: takes an integer limit; `slice(0, limit)` truncates a fractional
  limit toward zero and reads `NaN` as 0, which the model does not represent.
- GitHub.FormatDate: takes the day count rather than parsing a date string and
  reading the clock, since both are outside the model.
- GitHub.FormatNumber: the `toFixed(1)` rendering of thousands is a parameter,
  because it is floating point.
- Blog.SortPostsByDate: compares integer timestamps; an unparseable date, whose
  `valueOf()` is NaN, is not modelled.
- Blog.PostsByTag: compares tags with ASCII letter case folded, while
  `toLowerCase()` folds every Unicode letter (`É` and `é` match in the code, not
  in the model).
- GitHubCache.SafeKey: replaces one character per Unicode scalar value, while the
  regular expression replaces one UTF-16 code unit, so a key character above
  U+FFFF (such as an emoji) becomes `__` in the code and `_` in the model.
- I18n.TAsWritten: takes the translation tables to hold only `en` and `zh`. In
  the code a name inherited from `Object.prototype`, such as `toString`,
  `constructor` or `__proto__`, finds a non-table value rather than throwing, so
  the iff with the two language names does not hold for those names.
- FullPageScroll.ScrollTo: takes an integer index, as does the `GoTo` event of
  `FullPageScroll.Step`. `goToSection` accepts any number,
  and a fractional index such as 1.5, or NaN, passes the range check and is
  stored as the current section.
- Strings are sequences of Unicode scalar values, so the model cannot hold the
  lone surrogates a JavaScript string may contain; `Strings.Utf16Length` counts
  the UTF-16 units of well-formed text.
- The blog's remaining exports (`getPostUrl`, `getSortedPosts`,
  `getFeaturedPosts`, `getLatestPosts`, `getPostBySlug`, `formatDate`,
  `getPostsByYear`, `getPostsByMonth`, `getArchiveStats`). They are thin
  compositions of the modelled queries or locale formatting, outside the core.
- Theme.CreateTheme: an override key present with the value `undefined` is
  treated as absent. JavaScript spread would copy the `undefined`.
- CssVars.ThemeToCssVars: the blocks are kept as structured declarations. The
  final string join, indentation and `trim()` are not modelled.
- CssVars.CascadeChoosesPalette: the cascade is "last applicable rule wins".
  For these five blocks that agrees with selector specificity.
- Typography and shape tokens in the base block are carried as values; their
  CSS rendering is not modelled.
- The dictionaries of `i18n.config.ts` are data, passed as two maps, and not
  transcribed.
- The `languagechange` event listener and the `DOMContentLoaded` wiring of the
  scripts. Their effect is a call of the modelled update with the event's
  language.
- ThemeToggle.Apply: the 150 ms icon animation is collapsed into the step.
- FullPageScroll.Step: the 800 ms unlock timer is the separate `TimerFired`
  event, not a clock comparison. Browser event plumbing (`preventDefault`,
  passive listeners) and the initial `data-ready` frame are not modelled.
- The typewriter, links animation, mobile menu and navigation i18n scripts are
  not part of this model: they hold no state logic.

## Findings

| source | as written | input that shows it | evidently intended | confidence | as-written member | corrected member |
|---|---|---|---|---|---|---|
| src/scripts/i18n-content-updater.ts:16, 24 | `getCurrentLanguage` returns any stored string unchecked, and `t` then evaluates `translations[lang][key]`, which throws a `TypeError` for a name other than `en` or `zh` | `localStorage.language = "fr"` on any page with a `data-i18n` element or a titled route such as `/blog` | validate the stored value as `src/utils/i18n.ts:18` does, reading anything unknown as the default `en` | not executed | I18n.InitI18nAsWritten, shown by I18n.StoredFrenchBreaksPageLoad | I18n.InitI18n, proved by I18n.InitI18nAgrees and I18n.T |

=== FILE: base64.dfy ===
/**
 * The base64 alphabet and padding of section 4 of RFC 4648: every three bytes
 * become four characters of a 64-letter alphabet, and a final group of one or
 * two bytes is padded with '='. The README payload of the GitHub API is sent
 * in this form, wrapped by newlines.
 */
module Base64 {
  import opened Wrappers
  import opened Strings

  type Byte = x: int | 0 <= x < 256
  type Sextet = x: int | 0 <= x < 64

  /** The character for a 6-bit value: A-Z, a-z, 0-9, '+', '/'. */
  function SextetChar(v: Sextet): (c: char)
    ensures IsAlphabetChar(c)
  {
    if v < 26 then ('A' as int + v) as char
    else if v < 52 then ('a' as int + (v - 26)) as char
    else if v < 62 then ('0' as int + (v - 52)) as char
    else if v == 62 then '+'
    else '/'
  }

  predicate IsAlphabetChar(c: char) {
    ('A' <= c <= 'Z') || ('a' <= c <= 'z') || ('0' <= c <= '9') || c == '+' || c == '/'
  }

  function CharSextet(c: char): (v: Sextet)
    requires IsAlphabetChar(c)
    ensures SextetChar(v) == c
  {
    if 'A' <= c <= 'Z' then c as int - 'A' as int
    else if 'a' <= c <= 'z' then c as int - 'a' as int + 26
    else if '0' <= c <= '9' then c as int - '0' as int + 52
    else if c == '+' then 62
    else 63
  }

  lemma SextetCharRoundTrip(v: Sextet)
    ensures IsAlphabetChar(SextetChar(v))
    ensures CharSextet(SextetChar(v)) == v
  {
  }

  /** The four 6-bit values of three bytes, high bits first. */
  function High6(a: Byte): Sextet { a / 4 }
  function Low2High4(a: Byte, b: Byte): Sextet { (a % 4) * 16 + b / 16 }
  function Low4High2(b: Byte, c: Byte): Sextet { (b % 16) * 4 + c / 64 }
  function Low6(c: Byte): Sextet { c % 64 }

  /** Four characters for three bytes (no padding). */
  function EncodeGroup(a: Byte, b: Byte, c: Byte): (s: string)
    ensures |s| == 4 && '\n' !in s
  {
    [SextetChar(High6(a)), SextetChar(Low2High4(a, b)),
     SextetChar(Low4High2(b, c)), SextetChar(Low6(c))]
  }

  function Encode(bytes: seq<Byte>): (s: string)
    ensures |s| % 4 == 0
    ensures '\n' !in s
    decreases |bytes|
  {
    if |bytes| == 0 then ""
    else if |bytes| == 1 then
      var w, x := SextetChar(High6(bytes[0])), SextetChar(Low2High4(bytes[0], 0));
      [w, x, '=', '=']
    else if |bytes| == 2 then
      var w, x, y := SextetChar(High6(bytes[0])), SextetChar(Low2High4(bytes[0], bytes[1])),
        SextetChar(Low4High2(bytes[1], 0));
      [w, x, y, '=']
    else
      var head, tail := EncodeGroup(bytes[0], bytes[1], bytes[2]), Encode(bytes[3..]);
      head + tail
  }

  function DecodeGroup(w: Sextet, x: Sextet, y: Sextet, z: Sextet): seq<Byte> {
    [w * 4 + x / 16, (x % 16) * 16 + y / 4, (y % 4) * 64 + z]
  }

  predicate AllAlphabet(s: string) {
    forall i :: 0 <= i < |s| ==> IsAlphabetChar(s[i])
  }

  /**
   * The last group of four characters: four alphabet characters, or three and
   * one '=', or two and two '='.
   */
  function DecodeLast(q: string): Option<seq<Byte>>
    requires |q| == 4
  {
    if AllAlphabet(q) then
      Some(DecodeGroup(CharSextet(q[0]), CharSextet(q[1]), CharSextet(q[2]), CharSextet(q[3])))
    else if IsAlphabetChar(q[0]) && IsAlphabetChar(q[1]) && IsAlphabetChar(q[2]) && q[3] == '=' then
      Some(DecodeGroup(CharSextet(q[0]), CharSextet(q[1]), CharSextet(q[2]), 0)[..2])
    else if IsAlphabetChar(q[0]) && IsAlphabetChar(q[1]) && q[2] == '=' && q[3] == '=' then
      Some(DecodeGroup(CharSextet(q[0]), CharSextet(q[1]), 0, 0)[..1])
    else None
  }

  /**
   * Strict decoding: the length is a multiple of four, every character is in
   * the alphabet, and '=' appears only as one or two padding characters at
   * the very end. Anything else is rejected.
   */
  function Decode(s: string): Option<seq<Byte>>
    decreases |s|
  {
    if |s| == 0 then Some([])
    else if |s| < 4 then None
    else if |s| == 4 then DecodeLast(s)
    else if AllAlphabet(s[..4]) then
      match Decode(s[4..])
      case Some(rest) =>
        Some(DecodeGroup(CharSextet(s[0]), CharSextet(s[1]), CharSextet(s[2]), CharSextet(s[3])) + rest)
      case None => None
    else None
  }

  /** The bit arithmetic of one group is undone by decoding. */
  lemma GroupArithmetic(a: Byte, b: Byte, c: Byte)
    ensures DecodeGroup(a / 4, (a % 4) * 16 + b / 16, (b % 16) * 4 + c / 64, c % 64) == [a, b, c]
  {
    var x := (a % 4) * 16 + b / 16;
    var y := (b % 16) * 4 + c / 64;
    assert x / 16 == a % 4 && x % 16 == b / 16;
    assert y / 4 == b % 16 && y % 4 == c / 64;
  }

  lemma DecodeEncodeOne(a: Byte)
    ensures Decode(Encode([a])) == Some([a])
  {
    var s := Encode([a]);
    var w, x := a / 4, (a % 4) * 16;
    assert s == [SextetChar(w), SextetChar(x), '=', '='];
    SextetCharRoundTrip(w);
    SextetCharRoundTrip(x);
    GroupArithmetic(a, 0, 0);
    assert !IsAlphabetChar(s[3]);
    assert !IsAlphabetChar(s[2]);
    assert IsAlphabetChar(s[0]) && IsAlphabetChar(s[1]);
    assert !AllAlphabet(s);
    assert CharSextet(s[0]) == w;
    assert CharSextet(s[1]) == x;
    assert DecodeLast(s) == Some(DecodeGroup(CharSextet(s[0]), CharSextet(s[1]), 0, 0)[..1]);
    assert DecodeLast(s) == Some(DecodeGroup(w, x, 0, 0)[..1]);
    assert DecodeGroup(w, x, 0, 0) == [a, 0, 0];
    assert Decode(s) == DecodeLast(s);
    assert [a, 0, 0][..1] == [a];
  }

  lemma DecodeEncodeTwo(a: Byte, b: Byte)
    ensures Decode(Encode([a, b])) == Some([a, b])
  {
    var s := Encode([a, b]);
    var w, x, y := a / 4, (a % 4) * 16 + b / 16, (b % 16) * 4;
    assert s == [SextetChar(w), SextetChar(x), SextetChar(y), '='];
    SextetCharRoundTrip(w);
    SextetCharRoundTrip(x);
    SextetCharRoundTrip(y);
    GroupArithmetic(a, b, 0);
    assert !IsAlphabetChar(s[3]);
    assert IsAlphabetChar(s[0]) && IsAlphabetChar(s[1]) && IsAlphabetChar(s[2]);
    assert !AllAlphabet(s);
    assert CharSextet(s[0]) == w && CharSextet(s[1]) == x && CharSextet(s[2]) == y;
    assert DecodeLast(s) == Some(DecodeGroup(w, x, y, 0)[..2]);
    assert DecodeGroup(w, x, y, 0) == [a, b, 0];
    assert Decode(s) == DecodeLast(s);
    assert [a, b, 0][..2] == [a, b];
  }

  /** The four characters of one full group and their values. */
  lemma EncodeGroupSextets(a: Byte, b: Byte, c: Byte)
    ensures AllAlphabet(EncodeGroup(a, b, c))
    ensures CharSextet(EncodeGroup(a, b, c)[0]) == a / 4
    ensures CharSextet(EncodeGroup(a, b, c)[1]) == (a % 4) * 16 + b / 16
    ensures CharSextet(EncodeGroup(a, b, c)[2]) == (b % 16) * 4 + c / 64
    ensures CharSextet(EncodeGroup(a, b, c)[3]) == c % 64
  {
    SextetCharRoundTrip(a / 4);
    SextetCharRoundTrip((a % 4) * 16 + b / 16);
    SextetCharRoundTrip((b % 16) * 4 + c / 64);
    SextetCharRoundTrip(c % 64);
  }

  /** One full group decodes back to its three bytes. */
  lemma DecodeGroupOfEncodeGroup(a: Byte, b: Byte, c: Byte)
    ensures AllAlphabet(EncodeGroup(a, b, c))
    ensures var g := EncodeGroup(a, b, c);
      DecodeGroup(CharSextet(g[0]), CharSextet(g[1]), CharSextet(g[2]), CharSextet(g[3])) == [a, b, c]
  {
    EncodeGroupSextets(a, b, c);
    GroupArithmetic(a, b, c);
  }

  /** One full group in front of an encoding that already decodes. */
  lemma DecodeEncodeGroup(a: Byte, b: Byte, c: Byte, rest: seq<Byte>)
    requires Decode(Encode(rest)) == Some(rest)
    ensures Decode(Encode([a, b, c] + rest)) == Some([a, b, c] + rest)
  {
    var bytes := [a, b, c] + rest;
    assert bytes[3..] == rest;
    var g := EncodeGroup(a, b, c);
    var s := Encode(bytes);
    assert s == g + Encode(rest);
    DecodeGroupOfEncodeGroup(a, b, c);
    if |rest| == 0 {
      assert s == g;
      assert Decode(s) == DecodeLast(g);
      assert bytes == [a, b, c];
    } else {
      assert s[..4] == g && s[4..] == Encode(rest);
    }
  }

  /** Decoding inverts encoding, for every byte string (section 4 of RFC 4648). */
  lemma {:induction false} DecodeEncode(bytes: seq<Byte>)
    ensures Decode(Encode(bytes)) == Some(bytes)
    decreases |bytes|
  {
    if |bytes| == 1 {
      assert bytes == [bytes[0]];
      DecodeEncodeOne(bytes[0]);
    } else if |bytes| == 2 {
      assert bytes == [bytes[0], bytes[1]];
      DecodeEncodeTwo(bytes[0], bytes[1]);
    } else if |bytes| > 2 {
      DecodeEncode(bytes[3..]);
      DecodeEncodeFirstGroup(bytes);
    }
  }

  /** `DecodeEncodeGroup` for a byte string split after its first three bytes. */
  lemma DecodeEncodeFirstGroup(bytes: seq<Byte>)
    requires |bytes| > 2 && Decode(Encode(bytes[3..])) == Some(bytes[3..])
    ensures Decode(Encode(bytes)) == Some(bytes)
  {
    SplitAfterThree(bytes);
    DecodeEncodeGroup(bytes[0], bytes[1], bytes[2], bytes[3..]);
  }

  lemma SplitAfterThree(bytes: seq<Byte>)
    requires |bytes| > 2
    ensures bytes == [bytes[0], bytes[1], bytes[2]] + bytes[3..]
  {
  }

  /**
   * `s` with a newline after every `width` characters and at the end, the way
   * the GitHub API wraps base64 content.
   */
  function Wrap(s: string, width: nat): string
    requires 0 < width
    decreases |s|
  {
    if |s| <= width then s + "\n" else s[..width] + "\n" + Wrap(s[width..], width)
  }

  lemma {:induction false} StripWrap(s: string, width: nat)
    requires 0 < width
    ensures StripNewlines(Wrap(s, width)) == StripNewlines(s)
    decreases |s|
  {
    if |s| <= width {
      StripNewlinesAppend(s, "\n");
      assert StripNewlines("\n") == "";
    } else {
      StripNewlinesAppend(s[..width] + "\n", Wrap(s[width..], width));
      StripNewlinesAppend(s[..width], "\n");
      assert StripNewlines("\n") == "";
      StripWrap(s[width..], width);
      StripNewlinesAppend(s[..width], s[width..]);
      assert s[..width] + s[width..] == s;
    }
  }

  /** Wrapped base64 text decodes to the original bytes once its newlines are stripped. */
  lemma DecodeWrapped(bytes: seq<Byte>, width: nat)
    requires 0 < width
    ensures Decode(StripNewlines(Wrap(Encode(bytes), width))) == Some(bytes)
  {
    StripWrap(Encode(bytes), width);
    StripNewlinesNoop(Encode(bytes));
    DecodeEncode(bytes);
  }
}

=== FILE: blog.dfy ===
/**
 * The blog collection queries of `blog.ts`, as pure functions over the post
 * list the content collection yields. `dev` says whether the site runs in
 * development mode, where drafts are listed too.
 */
module Blog {
  import opened Wrappers
  import opened Strings
  import opened Seqs

  /** The front-matter fields the queries read. `publishDate` is in milliseconds. */
  datatype Post = Post(
    id: string,
    tags: seq<string>,
    series: Option<string>,
    seriesOrder: Option<int>,
    publishDate: int,
    draft: bool,
    published: Option<bool>)

  // ---------------------------------------------------------------------------
  // Slugs
  // ---------------------------------------------------------------------------

  /** `s` without `suffix` when it ends with it, compared ASCII case-insensitively. */
  function StripSuffixIgnoreCase(s: string, suffix: string): (r: string)
    ensures EndsWithIgnoreCase(s, suffix) ==> |r| == |s| - |suffix| && r == s[..|r|]
    ensures !EndsWithIgnoreCase(s, suffix) ==> r == s
  {
    if EndsWithIgnoreCase(s, suffix) then s[..|s| - |suffix|] else s
  }

  /**
   * `getSlugFromPostId`: one trailing `.md` or `.mdx` is removed, then one
   * trailing `/index`, both ignoring case. The slug is always a prefix of the id.
   */
  function Slug(id: string): (r: string)
    ensures StartsWith(id, r)
    ensures |id| - |r| in {0, 3, 4, 6, 9, 10}
  {
    var noExt :=
      if EndsWithIgnoreCase(id, ".md") then id[..|id| - 3]
      else if EndsWithIgnoreCase(id, ".mdx") then id[..|id| - 4]
      else id;
    var r := StripSuffixIgnoreCase(noExt, "/index");
    assert id[..|r|] == r;
    r
  }

  /** The two extensions a post file may have, in any case. */
  predicate IsMarkdownExt(ext: string) {
    Lower(ext) == ".md" || Lower(ext) == ".mdx"
  }

  /** The id of `d/index`, with or without extension, has slug `d`. */
  lemma SlugOfIndexEntry(d: string, ext: string)
    requires ext == "" || IsMarkdownExt(ext)
    ensures Slug(d + "/index" + ext) == d
  {
    var id := d + "/index" + ext;
    var base := d + "/index";
    assert id[..|base|] == base;
    assert base[|base| - 6..] == "/index";
    assert Lower("/index") == "/index";
    assert Lower(".md") == ".md" && Lower(".mdx") == ".mdx";
    if ext == "" {
      assert id == base;
      assert base[|base| - 3..] == "dex" && Lower("dex")[0] == 'd';
      assert base[|base| - 4..] == "ndex" && Lower("ndex")[0] != ".mdx"[0];
    } else if Lower(ext) == ".md" {
      assert id[|id| - 3..] == ext;
    } else {
      assert |ext| == 4;
      assert id[|id| - 4..] == ext;
      assert id[|id| - 3..] == ext[1..];
      assert Lower(ext[1..])[0] == Lower(ext)[1] == 'm';
    }
  }

  /** A file directly under the collection has its name, without extension, as slug. */
  lemma SlugOfFileEntry(name: string, ext: string)
    requires IsMarkdownExt(ext)
    requires !EndsWithIgnoreCase(name, "/index")
    ensures Slug(name + ext) == name
  {
    var id := name + ext;
    assert id[..|name|] == name;
    assert Lower(".md") == ".md" && Lower(".mdx") == ".mdx";
    if Lower(ext) == ".md" {
      assert id[|id| - 3..] == ext;
    } else {
      assert id[|id| - 4..] == ext;
      assert id[|id| - 3..] == ext[1..];
      assert Lower(ext[1..])[0] == Lower(ext)[1] == 'm';
    }
  }

  /**
   * An id is its own slug exactly when it ends in none of `.md`, `.mdx` and
   * `/index` (in any case): every other id loses a suffix.
   */
  lemma SlugFixedPoint(id: string)
    ensures Slug(id) == id <==>
      !EndsWithIgnoreCase(id, ".md") && !EndsWithIgnoreCase(id, ".mdx") && !EndsWithIgnoreCase(id, "/index")
  {
    var noExt :=
      if EndsWithIgnoreCase(id, ".md") then id[..|id| - 3]
      else if EndsWithIgnoreCase(id, ".mdx") then id[..|id| - 4]
      else id;
    assert |StripSuffixIgnoreCase(noExt, "/index")| <= |noExt|;
  }

  // ---------------------------------------------------------------------------
  // Listing and sorting
  // ---------------------------------------------------------------------------

  /** The `getAllPosts` filter: everything in development, otherwise no drafts and nothing unpublished. */
  predicate Listed(p: Post, dev: bool) {
    dev || (!p.draft && p.published != Some(false))
  }

  function ListedIn(dev: bool): Post -> bool {
    (p: Post) => Listed(p, dev)
  }

  function AllPosts(posts: seq<Post>, dev: bool): (r: seq<Post>)
    ensures forall p :: p in r <==> p in posts && (dev || (!p.draft && p.published != Some(false)))
    ensures dev ==> r == posts
  {
    var r := Filter(posts, ListedIn(dev));
    if dev then FilterAll(posts, ListedIn(dev)); r else r
  }

  lemma {:induction false} FilterAll<T(!new)>(s: seq<T>, f: T -> bool)
    requires forall x :: f(x)
    ensures Filter(s, f) == s
    decreases |s|
  {
    if |s| > 0 {
      FilterAll(s[1..], f);
    }
  }

  function DateKey(p: Post): int { p.publishDate }

  /**
   * `sortPostsByDate`: newest first; posts with equal dates keep their order.
   * The result is a permutation of the input.
   */
  function SortPostsByDate(posts: seq<Post>): (r: seq<Post>)
    ensures forall i, j :: 0 <= i < j < |r| ==> r[i].publishDate >= r[j].publishDate
    ensures multiset(r) == multiset(posts)
    ensures SameKeyClasses(r, posts, DateKey)
  {
    SortDesc(posts, DateKey)
  }

  // ---------------------------------------------------------------------------
  // Tags
  // ---------------------------------------------------------------------------

  /** Every tag of every post, in post order and then tag order. */
  function TagOccurrences(posts: seq<Post>): (occ: seq<string>)
    ensures forall t :: t in occ <==> exists p :: p in posts && t in p.tags
    decreases |posts|
  {
    if |posts| == 0 then []
    else
      var rest := TagOccurrences(posts[1..]);
      assert forall p :: p in posts <==> p == posts[0] || p in posts[1..];
      posts[0].tags + rest
  }

  datatype TagCount = TagCount(tag: string, count: nat)

  function TagKey(t: string): Option<string> { Some(t) }
  function CountKey(c: TagCount): int { c.count }

  /** The number of members of a group of equal keys is the multiplicity of the key. */
  lemma {:induction false} WithKeyCount(occ: seq<string>, t: string)
    ensures |WithKey(occ, TagKey, t)| == multiset(occ)[t]
    decreases |occ|
  {
    if |occ| > 0 {
      var occ' := occ[..|occ| - 1];
      WithKeyCount(occ', t);
      assert occ == occ' + [occ[|occ| - 1]];
    }
  }

  lemma {:induction false} DistinctMultiplicity<T>(s: seq<T>, x: T)
    requires forall i, j :: 0 <= i < j < |s| ==> s[i] != s[j]
    ensures multiset(s)[x] <= 1
    decreases |s|
  {
    if |s| > 0 {
      DistinctMultiplicity(s[1..], x);
      assert s == [s[0]] + s[1..];
      if s[0] == x {
        assert x !in s[1..];
      }
    }
  }

  /** A permutation of a sequence without repeats has no repeats. */
  lemma PermutationKeepsDistinct<T>(r: seq<T>, s: seq<T>)
    requires multiset(r) == multiset(s)
    requires forall i, j :: 0 <= i < j < |s| ==> s[i] != s[j]
    ensures forall i, j :: 0 <= i < j < |r| ==> r[i] != r[j]
  {
    forall i, j | 0 <= i < j < |r| ensures r[i] != r[j] {
      if r[i] == r[j] {
        assert r == r[..j] + r[j..];
        assert r[i] in r[..j] && r[j] in r[j..];
        assert multiset(r)[r[i]] == multiset(r[..j])[r[i]] + multiset(r[j..])[r[i]];
        DistinctMultiplicity(s, r[i]);
        assert false;
      }
    }
  }

  /** Each distinct tag with its number of occurrences, in order of first appearance. */
  function FirstSeenCounts(occ: seq<string>): (cs: seq<TagCount>)
    ensures |cs| == |KeysInOrder(occ, TagKey)|
  {
    var ks := KeysInOrder(occ, TagKey);
    seq(|ks|, i requires 0 <= i < |ks| => TagCount(ks[i], multiset(occ)[ks[i]]))
  }

  /**
   * `getAllTags`: one entry per distinct tag of the listed posts, counting its
   * occurrences across all their tag lists, most used first; tags with equal
   * counts stay in order of first appearance.
   */
  function AllTags(posts: seq<Post>, dev: bool): (r: seq<TagCount>)
    ensures var occ := TagOccurrences(AllPosts(posts, dev));
      && SortedDesc(r, CountKey)
      && multiset(r) == multiset(FirstSeenCounts(occ))
      && SameKeyClasses(r, FirstSeenCounts(occ), CountKey)
      && (forall i :: 0 <= i < |r| ==> r[i].tag in occ && r[i].count == multiset(occ)[r[i].tag])
      && (forall t :: t in occ ==> exists i :: 0 <= i < |r| && r[i].tag == t)
      && (forall i, j :: 0 <= i < j < |r| ==> r[i].tag != r[j].tag)
  {
    var occ := TagOccurrences(AllPosts(posts, dev));
    var groups := GroupBy(occ, TagKey);
    var counts := seq(|groups|, i requires 0 <= i < |groups| => TagCount(groups[i].key, groups[i].count));
    var r := SortDesc(counts, CountKey);
    TagCountsSpec(occ, groups, counts, r);
    CountsAreFirstSeen(occ, groups, counts);
    r
  }

  lemma TagCountsSpec(occ: seq<string>, groups: seq<Group<string, string>>, counts: seq<TagCount>, r: seq<TagCount>)
    requires groups == GroupBy(occ, TagKey)
    requires counts == seq(|groups|, i requires 0 <= i < |groups| => TagCount(groups[i].key, groups[i].count))
    requires multiset(r) == multiset(counts)
    ensures forall i :: 0 <= i < |r| ==> r[i].tag in occ && r[i].count == multiset(occ)[r[i].tag]
    ensures forall t :: t in occ ==> exists i :: 0 <= i < |r| && r[i].tag == t
    ensures forall i, j :: 0 <= i < j < |r| ==> r[i].tag != r[j].tag
  {
    CountsOfGroups(occ, groups, counts);
    forall i | 0 <= i < |r| ensures r[i].tag in occ && r[i].count == multiset(occ)[r[i].tag] {
      assert r[i] in multiset(counts);
    }
    forall t | t in occ ensures exists i :: 0 <= i < |r| && r[i].tag == t {
      var k :| 0 <= k < |counts| && counts[k].tag == t;
      assert counts[k] in multiset(r);
    }
    assert forall i, j :: 0 <= i < j < |counts| ==> counts[i] != counts[j];
    PermutationKeepsDistinct(r, counts);
    forall i, j | 0 <= i < j < |r| ensures r[i].tag != r[j].tag {
      assert r[i] in multiset(counts) && r[j] in multiset(counts);
    }
  }

  /** The per-tag counts in first-seen order, before sorting: faithful, complete and one per tag. */
  lemma CountsOfGroups(occ: seq<string>, groups: seq<Group<string, string>>, counts: seq<TagCount>)
    requires groups == GroupBy(occ, TagKey)
    requires counts == seq(|groups|, i requires 0 <= i < |groups| => TagCount(groups[i].key, groups[i].count))
    ensures forall i :: 0 <= i < |counts| ==> counts[i].tag in occ && counts[i].count == multiset(occ)[counts[i].tag]
    ensures forall t :: t in occ ==> exists i :: 0 <= i < |counts| && counts[i].tag == t
    ensures forall i, j :: 0 <= i < j < |counts| ==> counts[i].tag != counts[j].tag
  {
    GroupByIsReference(occ, TagKey);
    KeysInOrderDistinct(occ, TagKey);
    var ks := KeysInOrder(occ, TagKey);
    assert forall i :: 0 <= i < |counts| ==> counts[i].tag == ks[i];
    forall i | 0 <= i < |counts| ensures counts[i].tag in occ && counts[i].count == multiset(occ)[counts[i].tag] {
      WithKeyCount(occ, ks[i]);
      assert ks[i] in ks;
      var j :| 0 <= j < |occ| && TagKey(occ[j]) == Some(ks[i]);
    }
    forall t | t in occ ensures exists i :: 0 <= i < |counts| && counts[i].tag == t {
      var j :| 0 <= j < |occ| && occ[j] == t;
      assert TagKey(occ[j]) == Some(t);
      assert t in ks;
      var i :| 0 <= i < |ks| && ks[i] == t;
      assert counts[i].tag == t;
    }
  }

  /** The loop's counts, before sorting, are the first-seen counts. */
  lemma CountsAreFirstSeen(occ: seq<string>, groups: seq<Group<string, string>>, counts: seq<TagCount>)
    requires groups == GroupBy(occ, TagKey)
    requires counts == seq(|groups|, i requires 0 <= i < |groups| => TagCount(groups[i].key, groups[i].count))
    ensures counts == FirstSeenCounts(occ)
  {
    GroupByIsReference(occ, TagKey);
    var ks := KeysInOrder(occ, TagKey);
    forall i | 0 <= i < |counts| ensures counts[i] == FirstSeenCounts(occ)[i] {
      WithKeyCount(occ, ks[i]);
    }
  }

  /** ASCII case-insensitive tag match, as `toLowerCase()` on both sides. */
  predicate HasTagIgnoreCase(p: Post, tag: string) {
    exists i :: 0 <= i < |p.tags| && Lower(p.tags[i]) == Lower(tag)
  }

  function TaggedWith(tag: string): Post -> bool {
    (p: Post) => HasTagIgnoreCase(p, tag)
  }

  /**
   * `getPostsByTag`: exactly the listed posts carrying the tag in any case,
   * newest first; each listed once, and posts of the same date in listing order.
   */
  function PostsByTag(posts: seq<Post>, dev: bool, tag: string): (r: seq<Post>)
    ensures forall p :: p in r <==> p in posts && Listed(p, dev) && HasTagIgnoreCase(p, tag)
    ensures forall i, j :: 0 <= i < j < |r| ==> r[i].publishDate >= r[j].publishDate
    ensures multiset(r) == multiset(Filter(AllPosts(posts, dev), TaggedWith(tag)))
    ensures SameKeyClasses(r, Filter(AllPosts(posts, dev), TaggedWith(tag)), DateKey)
  {
    var r := SortPostsByDate(Filter(AllPosts(posts, dev), TaggedWith(tag)));
    TaggedMembers(posts, dev, tag, r);
    r
  }

  /** Any rearrangement of the tagged listing holds exactly the listed posts carrying the tag. */
  lemma TaggedMembers(posts: seq<Post>, dev: bool, tag: string, r: seq<Post>)
    requires multiset(r) == multiset(Filter(AllPosts(posts, dev), TaggedWith(tag)))
    ensures forall p :: p in r <==> p in posts && Listed(p, dev) && HasTagIgnoreCase(p, tag)
  {
    assert forall p :: p in r <==> p in multiset(r);
  }

  /** Tags that differ only in letter case select the same posts, in the same order. */
  lemma PostsByTagIgnoresCase(posts: seq<Post>, dev: bool, a: string, b: string)
    requires Lower(a) == Lower(b)
    ensures PostsByTag(posts, dev, a) == PostsByTag(posts, dev, b)
  {
    forall p ensures TaggedWith(a)(p) == TaggedWith(b)(p) {
      assert HasTagIgnoreCase(p, a) == HasTagIgnoreCase(p, b);
    }
    FilterExt(AllPosts(posts, dev), TaggedWith(a), TaggedWith(b));
  }

  // ---------------------------------------------------------------------------
  // Related posts
  // ---------------------------------------------------------------------------

  /**
   * The number of the candidate's tag entries that the current post also has
   * (case-sensitive); a tag listed twice on the candidate counts twice.
   */
  function Score(p: Post, current: Post): (n: nat)
    ensures n == |set i: nat | i < |p.tags| && p.tags[i] in current.tags|
    ensures n <= |p.tags|
    ensures n == 0 <==> forall i :: 0 <= i < |p.tags| ==> p.tags[i] !in current.tags
  {
    var shared := (t: string) => t in current.tags;
    SharedTags(p.tags, current.tags, shared);
    |Filter(p.tags, shared)|
  }

  /** Filtering the tags by membership keeps one entry per matching position, and none when no tag matches. */
  lemma SharedTags(tags: seq<string>, other: seq<string>, shared: string -> bool)
    requires forall t :: shared(t) == (t in other)
    ensures |Filter(tags, shared)| == |set i: nat | i < |tags| && tags[i] in other|
    ensures |Filter(tags, shared)| == 0 <==> forall i :: 0 <= i < |tags| ==> tags[i] !in other
  {
    var matching := Filter(tags, shared);
    FilterCount(tags, shared);
    assert Positions(tags, shared) == set i: nat | i < |tags| && tags[i] in other;
    assert |matching| > 0 ==> matching[0] in matching;
    if |matching| == 0 {
      forall i | 0 <= i < |tags| ensures tags[i] !in other {
        assert tags[i] in tags;
      }
    }
  }

  datatype Scored = Scored(post: Post, score: nat)

  function ScoreKey(x: Scored): int { x.score }

  /** A post that may be recommended: listed, not the current post, sharing a tag. */
  predicate Qualifies(p: Post, current: Post, posts: seq<Post>, dev: bool) {
    p in posts && Listed(p, dev) && p.id != current.id && Score(p, current) > 0
  }

  function ScoreAll(ps: seq<Post>, current: Post): (r: seq<Scored>)
    ensures |r| == |ps|
    ensures forall i :: 0 <= i < |ps| ==> r[i] == Scored(ps[i], Score(ps[i], current))
  {
    seq(|ps|, i requires 0 <= i < |ps| => Scored(ps[i], Score(ps[i], current)))
  }

  /** A post that may be recommended, wherever it sits in the collection. */
  predicate Candidate(p: Post, current: Post, dev: bool) {
    Listed(p, dev) && p.id != current.id && Score(p, current) > 0
  }

  function CandidateIn(current: Post, dev: bool): Post -> bool {
    (p: Post) => Candidate(p, current, dev)
  }

  /** The posts that may be recommended, in collection order, repeats kept. */
  function Eligible(current: Post, posts: seq<Post>, dev: bool): seq<Post> {
    Filter(posts, CandidateIn(current, dev))
  }

  /**
   * Candidates with a positive score, best first. It holds each eligible
   * post, with its score, exactly as often as the collection does, and posts
   * with equal scores stay in collection order.
   */
  function Ranked(current: Post, posts: seq<Post>, dev: bool): (r: seq<Scored>)
    ensures SortedDesc(r, ScoreKey)
    ensures multiset(r) == multiset(ScoreAll(Eligible(current, posts, dev), current))
    ensures SameKeyClasses(r, ScoreAll(Eligible(current, posts, dev), current), ScoreKey)
    ensures forall i :: 0 <= i < |r| ==> r[i].score == Score(r[i].post, current) && Qualifies(r[i].post, current, posts, dev)
    ensures forall p :: Qualifies(p, current, posts, dev) ==> exists i :: 0 <= i < |r| && r[i].post == p
  {
    var notCurrent := (p: Post) => p.id != current.id;
    var candidates := Filter(AllPosts(posts, dev), notCurrent);
    var positive := Filter(ScoreAll(candidates, current), (x: Scored) => x.score > 0);
    CandidatesInOrder(current, posts, dev, notCurrent, candidates, positive);
    var r := SortDesc(positive, ScoreKey);
    RankedMembers(current, posts, dev, candidates, positive, r);
    r
  }

  /** The filters of `getRelatedPosts`, applied one after the other, keep exactly the eligible posts. */
  lemma CandidatesInOrder(current: Post, posts: seq<Post>, dev: bool, notCurrent: Post -> bool,
                          candidates: seq<Post>, positive: seq<Scored>)
    requires forall p :: notCurrent(p) == (p.id != current.id)
    requires candidates == Filter(AllPosts(posts, dev), notCurrent)
    requires positive == Filter(ScoreAll(candidates, current), (x: Scored) => x.score > 0)
    ensures positive == ScoreAll(Eligible(current, posts, dev), current)
  {
    var both := (p: Post) => Listed(p, dev) && p.id != current.id;
    var scoring := (p: Post) => Score(p, current) > 0;
    FilterFilter(posts, ListedIn(dev), notCurrent, both);
    FilterFilter(posts, both, scoring, CandidateIn(current, dev));
    ScoreAllFilter(candidates, current, (x: Scored) => x.score > 0, scoring);
  }

  lemma {:induction false} ScoreAllFilter(c: seq<Post>, current: Post, positive: Scored -> bool, scoring: Post -> bool)
    requires forall x :: positive(x) == (x.score > 0)
    requires forall p :: scoring(p) == (Score(p, current) > 0)
    ensures Filter(ScoreAll(c, current), positive) == ScoreAll(Filter(c, scoring), current)
    decreases |c|
  {
    if |c| > 0 {
      var head := if scoring(c[0]) then [c[0]] else [];
      var rest := Filter(c[1..], scoring);
      ScoreAllFilter(c[1..], current, positive, scoring);
      ScoreAllAppend([c[0]], c[1..], current);
      assert c == [c[0]] + c[1..];
      FilterAppend(ScoreAll([c[0]], current), ScoreAll(c[1..], current), positive);
      assert Filter(ScoreAll([c[0]], current), positive) == ScoreAll(head, current);
      ScoreAllAppend(head, rest, current);
    }
  }

  lemma ScoreAllAppend(a: seq<Post>, b: seq<Post>, current: Post)
    ensures ScoreAll(a + b, current) == ScoreAll(a, current) + ScoreAll(b, current)
  {
  }

  lemma RankedMembers(current: Post, posts: seq<Post>, dev: bool,
                      candidates: seq<Post>, positive: seq<Scored>, r: seq<Scored>)
    requires forall p :: p in candidates <==> p in posts && Listed(p, dev) && p.id != current.id
    requires forall x :: x in positive <==> x in ScoreAll(candidates, current) && x.score > 0
    requires multiset(r) == multiset(positive)
    ensures forall i :: 0 <= i < |r| ==> r[i].score == Score(r[i].post, current) && Qualifies(r[i].post, current, posts, dev)
    ensures forall p :: Qualifies(p, current, posts, dev) ==> exists i :: 0 <= i < |r| && r[i].post == p
  {
    var scored := ScoreAll(candidates, current);
    forall i | 0 <= i < |r|
      ensures r[i].score == Score(r[i].post, current) && Qualifies(r[i].post, current, posts, dev)
    {
      assert r[i] in multiset(positive);
      assert r[i] in scored;
      var j :| 0 <= j < |scored| && scored[j] == r[i];
      assert candidates[j] in candidates;
    }
    forall p | Qualifies(p, current, posts, dev) ensures exists i :: 0 <= i < |r| && r[i].post == p {
      assert p in candidates;
      var j :| 0 <= j < |candidates| && candidates[j] == p;
      assert scored[j] in positive;
      assert scored[j] in multiset(r);
      var i :| 0 <= i < |r| && r[i] == scored[j];
    }
  }

  /** The end index of JavaScript's `slice(0, limit)`: a negative limit counts from the end. */
  function SliceEnd(len: nat, limit: int): (n: nat)
    ensures n <= len
    ensures limit >= 0 ==> n == if limit < len then limit else len
    ensures limit < 0 ==> n == if len + limit > 0 then len + limit else 0
  {
    if limit >= 0 then (if limit < len then limit else len)
    else if len + limit > 0 then len + limit else 0
  }

  function PostOf(x: Scored): Post { x.post }

  /**
   * `getRelatedPosts`: the first `limit` posts of the ranking (all of them
   * when fewer qualify), so at most `limit` qualifying posts, best score
   * first, ties in collection order, and no post more often than the
   * collection holds it. Every qualifying post left out scores no higher
   * than any chosen one, and when fewer than `limit` are returned none was
   * left out.
   */
  function RelatedPosts(current: Post, posts: seq<Post>, dev: bool, limit: int): (r: seq<Post>)
    ensures |r| == SliceEnd(|Eligible(current, posts, dev)|, limit)
    ensures forall i :: 0 <= i < |r| ==> r[i] == Ranked(current, posts, dev)[i].post
    ensures multiset(r) <= multiset(Eligible(current, posts, dev))
    ensures limit >= 0 ==> |r| <= limit
    ensures forall i :: 0 <= i < |r| ==> Qualifies(r[i], current, posts, dev)
    ensures forall i, j :: 0 <= i < j < |r| ==> Score(r[i], current) >= Score(r[j], current)
    ensures forall i, p :: 0 <= i < |r| && Qualifies(p, current, posts, dev) && p !in r ==>
      Score(p, current) <= Score(r[i], current)
    ensures 0 <= limit && |r| < limit ==> forall p :: Qualifies(p, current, posts, dev) ==> p in r
  {
    var ranked := Ranked(current, posts, dev);
    var r := Map(ranked[..SliceEnd(|ranked|, limit)], PostOf);
    RelatedPrefix(current, posts, dev, limit, Eligible(current, posts, dev), ranked, r);
    r
  }

  /** The first `limit` posts of a best-first ranking of the eligible posts. */
  lemma RelatedPrefix(current: Post, posts: seq<Post>, dev: bool, limit: int, e: seq<Post>, ranked: seq<Scored>, r: seq<Post>)
    requires SortedDesc(ranked, ScoreKey)
    requires multiset(ranked) == multiset(ScoreAll(e, current))
    requires forall i :: 0 <= i < |ranked| ==> ranked[i].score == Score(ranked[i].post, current) && Qualifies(ranked[i].post, current, posts, dev)
    requires forall p :: Qualifies(p, current, posts, dev) ==> exists i :: 0 <= i < |ranked| && ranked[i].post == p
    requires r == Map(ranked[..SliceEnd(|ranked|, limit)], PostOf)
    ensures |r| == SliceEnd(|e|, limit)
    ensures forall i :: 0 <= i < |r| ==> r[i] == ranked[i].post
    ensures multiset(r) <= multiset(e)
    ensures limit >= 0 ==> |r| <= limit
    ensures forall i :: 0 <= i < |r| ==> Qualifies(r[i], current, posts, dev)
    ensures forall i, j :: 0 <= i < j < |r| ==> Score(r[i], current) >= Score(r[j], current)
    ensures forall i, p :: 0 <= i < |r| && Qualifies(p, current, posts, dev) && p !in r ==>
      Score(p, current) <= Score(r[i], current)
    ensures 0 <= limit && |r| < limit ==> forall p :: Qualifies(p, current, posts, dev) ==> p in r
  {
    var n := SliceEnd(|ranked|, limit);
    TopPrefix(current, posts, dev, ranked, n, r);
    PrefixOfEligible(current, e, ranked, n);
  }

  /** `getRelatedPosts` called without a limit: the best three. */
  function RelatedPostsDefault(current: Post, posts: seq<Post>, dev: bool): (r: seq<Post>)
    ensures |r| == SliceEnd(|Eligible(current, posts, dev)|, 3) && |r| <= 3
    ensures forall i :: 0 <= i < |r| ==> r[i] == Ranked(current, posts, dev)[i].post
  {
    RelatedPosts(current, posts, dev, 3)
  }

  /** A prefix of a permutation of the scored eligible posts holds no post more often than they do. */
  lemma PrefixOfEligible(current: Post, e: seq<Post>, ranked: seq<Scored>, n: nat)
    requires multiset(ranked) == multiset(ScoreAll(e, current))
    requires n <= |ranked|
    ensures |ranked| == |e|
    ensures multiset(Map(ranked[..n], PostOf)) <= multiset(e)
  {
    assert |ranked| == |multiset(ranked)| == |ScoreAll(e, current)|;
    MapMultiset(ranked, ScoreAll(e, current), PostOf);
    assert Map(ScoreAll(e, current), PostOf) == e;
    PrefixSubMultiset(ranked, n, PostOf);
  }

  /** The first `n` posts of the ranking are the best `n`. */
  lemma TopPrefix(current: Post, posts: seq<Post>, dev: bool, ranked: seq<Scored>, n: nat, r: seq<Post>)
    requires SortedDesc(ranked, ScoreKey)
    requires forall i :: 0 <= i < |ranked| ==> ranked[i].score == Score(ranked[i].post, current) && Qualifies(ranked[i].post, current, posts, dev)
    requires forall p :: Qualifies(p, current, posts, dev) ==> exists i :: 0 <= i < |ranked| && ranked[i].post == p
    requires n <= |ranked|
    requires r == Map(ranked[..n], PostOf)
    ensures forall i :: 0 <= i < |r| ==> Qualifies(r[i], current, posts, dev)
    ensures forall i, j :: 0 <= i < j < |r| ==> Score(r[i], current) >= Score(r[j], current)
    ensures forall i, p :: 0 <= i < |r| && Qualifies(p, current, posts, dev) && p !in r ==>
      Score(p, current) <= Score(r[i], current)
    ensures n == |ranked| ==> forall p :: Qualifies(p, current, posts, dev) ==> p in r
  {
    assert r == seq(n, i requires 0 <= i < n => ranked[i].post);
    PrefixOrdered(current, ranked, n, r);
    forall i, p | 0 <= i < |r| && Qualifies(p, current, posts, dev) && p !in r
      ensures Score(p, current) <= Score(r[i], current)
    {
      var k :| 0 <= k < |ranked| && ranked[k].post == p;
      PrefixBeatsRest(current, ranked, n, r, i, k);
    }
    if n == |ranked| {
      forall p | Qualifies(p, current, posts, dev) ensures p in r {
        var k :| 0 <= k < |ranked| && ranked[k].post == p;
        assert r[k] == p;
      }
    }
  }

  lemma PrefixOrdered(current: Post, ranked: seq<Scored>, n: nat, r: seq<Post>)
    requires SortedDesc(ranked, ScoreKey)
    requires forall i :: 0 <= i < |ranked| ==> ranked[i].score == Score(ranked[i].post, current)
    requires n <= |ranked|
    requires r == seq(n, i requires 0 <= i < n => ranked[i].post)
    ensures forall i, j :: 0 <= i < j < |r| ==> Score(r[i], current) >= Score(r[j], current)
  {
    forall i, j | 0 <= i < j < |r| ensures Score(r[i], current) >= Score(r[j], current) {
      assert ScoreKey(ranked[i]) >= ScoreKey(ranked[j]);
    }
  }

  lemma PrefixBeatsRest(current: Post, ranked: seq<Scored>, n: nat, r: seq<Post>, i: nat, k: nat)
    requires SortedDesc(ranked, ScoreKey)
    requires forall i :: 0 <= i < |ranked| ==> ranked[i].score == Score(ranked[i].post, current)
    requires n <= |ranked|
    requires r == seq(n, i requires 0 <= i < n => ranked[i].post)
    requires i < n && k < |ranked| && ranked[k].post !in r
    ensures Score(ranked[k].post, current) <= Score(r[i], current)
  {
    assert forall j :: 0 <= j < n ==> r[j] == ranked[j].post && r[j] in r;
    assert ScoreKey(ranked[i]) >= ScoreKey(ranked[k]);
  }

  // ---------------------------------------------------------------------------
  // Reading time
  // ---------------------------------------------------------------------------

  /**
   * `calculateReadingTime`: minutes at 200 characters a minute, rounded up,
   * where the characters are JavaScript's UTF-16 code units.
   */
  function ReadingTime(content: string): (m: nat)
    ensures m * 200 >= Utf16Length(content)
    ensures m > 0 ==> (m - 1) * 200 < Utf16Length(content)
    ensures m == 0 <==> |content| == 0
    ensures m * 200 >= |content|
  {
    (Utf16Length(content) + 199) / 200
  }

  // ---------------------------------------------------------------------------
  // Series
  // ---------------------------------------------------------------------------

  /** The series a post is grouped under: only a truthy (non-empty) name counts. */
  function SeriesOf(p: Post): Option<string> {
    if p.series.Some? && p.series.value != "" then p.series else None
  }

  /** The series field itself, compared with `===`. */
  function SeriesField(p: Post): Option<string> { p.series }

  /** The order used inside a series: `seriesOrder ?? 999`. */
  function Order(p: Post): int { p.seriesOrder.GetOr(999) }

  /** Descending by the negated order is ascending by the order. */
  function NegOrder(p: Post): int { -Order(p) }

  /** Ascending by `Order`; posts with equal order keep their order. */
  function SortBySeriesOrder(ps: seq<Post>): (r: seq<Post>)
    ensures forall i, j :: 0 <= i < j < |r| ==> Order(r[i]) <= Order(r[j])
    ensures multiset(r) == multiset(ps)
    ensures SameKeyClasses(r, ps, NegOrder)
  {
    var r := SortDesc(ps, NegOrder);
    assert forall i, j :: 0 <= i < j < |r| ==> NegOrder(r[i]) >= NegOrder(r[j]);
    r
  }

  /**
   * `getPostsBySeries`: exactly the listed posts of that series, by ascending
   * order; each listed once, and posts of equal order in listing order.
   */
  function PostsBySeries(posts: seq<Post>, dev: bool, series: string): (r: seq<Post>)
    ensures forall p :: p in r <==> p in posts && Listed(p, dev) && p.series == Some(series)
    ensures forall i, j :: 0 <= i < j < |r| ==> Order(r[i]) <= Order(r[j])
    ensures multiset(r) == multiset(WithKey(AllPosts(posts, dev), SeriesField, series))
    ensures SameKeyClasses(r, WithKey(AllPosts(posts, dev), SeriesField, series), NegOrder)
  {
    var inSeries := WithKey(AllPosts(posts, dev), SeriesField, series);
    WithKeyMembers(AllPosts(posts, dev), SeriesField, series);
    var r := SortBySeriesOrder(inSeries);
    assert forall p :: p in r <==> p in multiset(r);
    r
  }

  lemma {:induction false} WithKeyMembers<K, T>(s: seq<T>, key: T -> Option<K>, k: K)
    ensures forall x :: x in WithKey(s, key, k) <==> x in s && key(x) == Some(k)
    decreases |s|
  {
    if |s| > 0 {
      var s' := s[..|s| - 1];
      WithKeyMembers(s', key, k);
      assert s == s' + [s[|s| - 1]];
    }
  }

  datatype SeriesSummary = SeriesSummary(series: string, count: nat, posts: seq<Post>)

  function SummaryCount(s: SeriesSummary): int { s.count }

  /**
   * `getAllSeries`: one entry per non-empty series name of the listed posts,
   * with the number of its posts and the posts by ascending order; the
   * largest series first, equal sizes in order of first appearance.
   */
  function AllSeries(posts: seq<Post>, dev: bool): (r: seq<SeriesSummary>)
    ensures SortedDesc(r, SummaryCount)
    ensures forall i :: 0 <= i < |r| ==>
      && r[i].series != ""
      && r[i].count == |r[i].posts| > 0
      && r[i].posts == PostsBySeries(posts, dev, r[i].series)
    ensures forall p :: p in posts && Listed(p, dev) && SeriesOf(p).Some? ==>
      exists i :: 0 <= i < |r| && r[i].series == p.series.value
    ensures forall i, j :: 0 <= i < j < |r| ==> r[i].series != r[j].series
    ensures multiset(r) == multiset(FirstSeenSeries(posts, dev))
    ensures SameKeyClasses(r, FirstSeenSeries(posts, dev), SummaryCount)
  {
    var listed := AllPosts(posts, dev);
    var groups := GroupBy(listed, SeriesOf);
    var summaries := seq(|groups|, i requires 0 <= i < |groups| =>
      SeriesSummary(groups[i].key, groups[i].count, SortBySeriesOrder(groups[i].members)));
    var r := SortDesc(summaries, SummaryCount);
    SeriesSpec(posts, dev, listed, groups, summaries, r);
    SummariesAreFirstSeen(posts, dev, listed, groups, summaries);
    r
  }

  /** The series of the listed posts in order of first appearance, each with its page and size. */
  function FirstSeenSeries(posts: seq<Post>, dev: bool): (ss: seq<SeriesSummary>)
    ensures |ss| == |KeysInOrder(AllPosts(posts, dev), SeriesOf)|
  {
    var ks := KeysInOrder(AllPosts(posts, dev), SeriesOf);
    seq(|ks|, i requires 0 <= i < |ks| =>
      SeriesSummary(ks[i], |PostsBySeries(posts, dev, ks[i])|, PostsBySeries(posts, dev, ks[i])))
  }

  /** Before sorting, the summaries built by the loop are the series in order of first appearance. */
  lemma SummariesAreFirstSeen(posts: seq<Post>, dev: bool, listed: seq<Post>, groups: seq<Group<string, Post>>,
                              summaries: seq<SeriesSummary>)
    requires listed == AllPosts(posts, dev)
    requires groups == GroupBy(listed, SeriesOf)
    requires summaries == seq(|groups|, i requires 0 <= i < |groups| =>
      SeriesSummary(groups[i].key, groups[i].count, SortBySeriesOrder(groups[i].members)))
    ensures summaries == FirstSeenSeries(posts, dev)
  {
    SummariesAreSeriesPages(posts, dev, listed, groups, summaries);
    var fs := FirstSeenSeries(posts, dev);
    forall i | 0 <= i < |summaries| ensures summaries[i] == fs[i] {
    }
  }

  /** For a non-empty name, grouping by truthy series and filtering by `===` pick the same posts. */
  lemma {:induction false} SeriesKeysAgree(s: seq<Post>, name: string)
    requires name != ""
    ensures WithKey(s, SeriesOf, name) == WithKey(s, SeriesField, name)
    decreases |s|
  {
    if |s| > 0 {
      SeriesKeysAgree(s[..|s| - 1], name);
    }
  }

  /** Each group of the loop, once its posts are sorted, is the series page of its name. */
  lemma SummariesAreSeriesPages(posts: seq<Post>, dev: bool, listed: seq<Post>, groups: seq<Group<string, Post>>,
                                summaries: seq<SeriesSummary>)
    requires listed == AllPosts(posts, dev)
    requires groups == GroupBy(listed, SeriesOf)
    requires summaries == seq(|groups|, i requires 0 <= i < |groups| =>
      SeriesSummary(groups[i].key, groups[i].count, SortBySeriesOrder(groups[i].members)))
    ensures |summaries| == |KeysInOrder(listed, SeriesOf)|
    ensures forall i :: 0 <= i < |summaries| ==>
      && summaries[i].series == KeysInOrder(listed, SeriesOf)[i]
      && summaries[i].series != ""
      && summaries[i].count == |summaries[i].posts| > 0
      && summaries[i].posts == PostsBySeries(posts, dev, summaries[i].series)
    ensures forall i, j :: 0 <= i < j < |summaries| ==> summaries[i].series != summaries[j].series
  {
    GroupByIsReference(listed, SeriesOf);
    KeysInOrderDistinct(listed, SeriesOf);
    var ks := KeysInOrder(listed, SeriesOf);
    forall i | 0 <= i < |summaries|
      ensures summaries[i].series == ks[i]
      ensures summaries[i].series != ""
      ensures summaries[i].count == |summaries[i].posts| > 0
      ensures summaries[i].posts == PostsBySeries(posts, dev, summaries[i].series)
    {
      assert ks[i] in ks;
      var j :| 0 <= j < |listed| && SeriesOf(listed[j]) == Some(ks[i]);
      SeriesKeysAgree(listed, ks[i]);
      SeriesPageNonEmpty(posts, dev, ks[i], listed[j]);
    }
  }

  /** A series page holds at least the listed post that names the series. */
  lemma SeriesPageNonEmpty(posts: seq<Post>, dev: bool, name: string, p: Post)
    requires p in AllPosts(posts, dev) && SeriesOf(p) == Some(name)
    ensures |PostsBySeries(posts, dev, name)| > 0
  {
    assert p in PostsBySeries(posts, dev, name);
  }

  lemma SeriesSpec(posts: seq<Post>, dev: bool, listed: seq<Post>, groups: seq<Group<string, Post>>,
                   summaries: seq<SeriesSummary>, r: seq<SeriesSummary>)
    requires listed == AllPosts(posts, dev)
    requires groups == GroupBy(listed, SeriesOf)
    requires summaries == seq(|groups|, i requires 0 <= i < |groups| =>
      SeriesSummary(groups[i].key, groups[i].count, SortBySeriesOrder(groups[i].members)))
    requires multiset(r) == multiset(summaries)
    ensures forall i :: 0 <= i < |r| ==>
      && r[i].series != ""
      && r[i].count == |r[i].posts| > 0
      && r[i].posts == PostsBySeries(posts, dev, r[i].series)
    ensures forall p :: p in posts && Listed(p, dev) && SeriesOf(p).Some? ==>
      exists i :: 0 <= i < |r| && r[i].series == p.series.value
    ensures forall i, j :: 0 <= i < j < |r| ==> r[i].series != r[j].series
  {
    SummariesAreSeriesPages(posts, dev, listed, groups, summaries);
    KeysInOrderDistinct(listed, SeriesOf);
    SummaryEntries(posts, dev, summaries, r);
    EverySeriesListed(posts, dev, listed, summaries, r);
    SummaryNamesDistinct(summaries, r);
  }

  lemma SummaryEntries(posts: seq<Post>, dev: bool, summaries: seq<SeriesSummary>, r: seq<SeriesSummary>)
    requires forall i :: 0 <= i < |summaries| ==>
      && summaries[i].series != ""
      && summaries[i].count == |summaries[i].posts| > 0
      && summaries[i].posts == PostsBySeries(posts, dev, summaries[i].series)
    requires multiset(r) == multiset(summaries)
    ensures forall i :: 0 <= i < |r| ==>
      && r[i].series != ""
      && r[i].count == |r[i].posts| > 0
      && r[i].posts == PostsBySeries(posts, dev, r[i].series)
  {
    forall i | 0 <= i < |r|
      ensures r[i].series != "" && r[i].count == |r[i].posts| > 0 && r[i].posts == PostsBySeries(posts, dev, r[i].series)
    {
      assert r[i] in multiset(summaries);
      var j :| 0 <= j < |summaries| && summaries[j] == r[i];
    }
  }

  lemma EverySeriesListed(posts: seq<Post>, dev: bool, listed: seq<Post>, summaries: seq<SeriesSummary>, r: seq<SeriesSummary>)
    requires listed == AllPosts(posts, dev)
    requires |summaries| == |KeysInOrder(listed, SeriesOf)|
    requires forall i :: 0 <= i < |summaries| ==> summaries[i].series == KeysInOrder(listed, SeriesOf)[i]
    requires forall k :: k in KeysInOrder(listed, SeriesOf) <==> exists i :: 0 <= i < |listed| && SeriesOf(listed[i]) == Some(k)
    requires multiset(r) == multiset(summaries)
    ensures forall p :: p in posts && Listed(p, dev) && SeriesOf(p).Some? ==>
      exists i :: 0 <= i < |r| && r[i].series == p.series.value
  {
    var ks := KeysInOrder(listed, SeriesOf);
    forall p | p in posts && Listed(p, dev) && SeriesOf(p).Some?
      ensures exists i :: 0 <= i < |r| && r[i].series == p.series.value
    {
      assert p in listed;
      var j :| 0 <= j < |listed| && listed[j] == p;
      assert p.series.value in ks;
      var i :| 0 <= i < |ks| && ks[i] == p.series.value;
      assert summaries[i] in multiset(r);
      var k :| 0 <= k < |r| && r[k] == summaries[i];
    }
  }

  lemma SummaryNamesDistinct(summaries: seq<SeriesSummary>, r: seq<SeriesSummary>)
    requires forall i, j :: 0 <= i < j < |summaries| ==> summaries[i].series != summaries[j].series
    requires multiset(r) == multiset(summaries)
    ensures forall i, j :: 0 <= i < j < |r| ==> r[i].series != r[j].series
  {
    PermutationKeepsDistinct(r, summaries);
    forall i, j | 0 <= i < j < |r| ensures r[i].series != r[j].series {
      assert r[i] in multiset(summaries) && r[j] in multiset(summaries);
      var i' :| 0 <= i' < |summaries| && summaries[i'] == r[i];
      var j' :| 0 <= j' < |summaries| && summaries[j'] == r[j];
    }
  }
}

=== FILE: css_vars.dfy ===
/**
 * The CSS custom properties of `css-vars.ts`: the hex-to-"R, G, B" parser,
 * the declarations of one palette (each colour followed by its `-rgb`
 * companion), and the five blocks of the stylesheet in their fixed order.
 * Blocks and declarations are kept structured; their rendering as text is
 * not modelled.
 */
module CssVars {
  import opened Wrappers
  import opened Strings
  import opened Theme

  // ---------------------------------------------------------------------------
  // hexToRGB
  // ---------------------------------------------------------------------------

  /** `[a-f\d]` under the `i` flag. */
  predicate IsHexDigit(c: char) {
    ('0' <= c <= '9') || ('a' <= c <= 'f') || ('A' <= c <= 'F')
  }

  function HexValue(c: char): (v: nat)
    requires IsHexDigit(c)
    ensures v < 16
  {
    if '0' <= c <= '9' then c as int - '0' as int
    else if 'a' <= c <= 'f' then c as int - 'a' as int + 10
    else c as int - 'A' as int + 10
  }

  predicate AllHex(s: string) {
    forall i :: 0 <= i < |s| ==> IsHexDigit(s[i])
  }

  /** `/^#?([a-f\d]{2})([a-f\d]{2})([a-f\d]{2})$/i`: an optional '#' and exactly six hex digits. */
  predicate IsHexColor(s: string) {
    (|s| == 7 && s[0] == '#' && AllHex(s[1..])) || (|s| == 6 && AllHex(s))
  }

  /** `parseInt(xy, 16)` of two hex digits. */
  function HexByte(x: char, y: char): (b: nat)
    requires IsHexDigit(x) && IsHexDigit(y)
    ensures b < 256
  {
    16 * HexValue(x) + HexValue(y)
  }

  function RgbTriple(r: nat, g: nat, b: nat): string {
    NatToString(r) + ", " + NatToString(g) + ", " + NatToString(b)
  }

  const Black: string := "0, 0, 0"

  /** The three byte values of a six-digit hex colour in decimal, or `0, 0, 0` when the input is not one. */
  function HexToRgb(s: string): (r: string)
    ensures !IsHexColor(s) ==> r == Black
  {
    if !IsHexColor(s) then Black
    else
      var d := if |s| == 7 then s[1..] else s;
      RgbTriple(HexByte(d[0], d[1]), HexByte(d[2], d[3]), HexByte(d[4], d[5]))
  }

  /** The hex digit of a value below 16, lower- or upper-case. */
  function HexDigit(v: nat, upper: bool): (c: char)
    requires v < 16
    ensures IsHexDigit(c) && HexValue(c) == v
  {
    if v < 10 then ('0' as int + v) as char
    else if upper then ('A' as int + v - 10) as char
    else ('a' as int + v - 10) as char
  }

  /** Two hex digits for a byte, each in the letter case its flag chooses. */
  function Hex2(b: nat, hi: bool, lo: bool): (s: string)
    requires b < 256
    ensures |s| == 2 && AllHex(s) && HexByte(s[0], s[1]) == b
  {
    [HexDigit(b / 16, hi), HexDigit(b % 16, lo)]
  }

  /**
   * Round trip: any three bytes written as six hex digits, each digit in
   * either case (`upper[k]` for the k-th), with or without '#', parse back to
   * exactly those bytes.
   */
  lemma HexToRgbRoundTrip(r: nat, g: nat, b: nat, hash: bool, upper: seq<bool>)
    requires r < 256 && g < 256 && b < 256 && |upper| == 6
    ensures HexToRgb((if hash then "#" else "") + Hex2(r, upper[0], upper[1]) + Hex2(g, upper[2], upper[3])
      + Hex2(b, upper[4], upper[5])) == RgbTriple(r, g, b)
  {
    var digits := Hex2(r, upper[0], upper[1]) + Hex2(g, upper[2], upper[3]) + Hex2(b, upper[4], upper[5]);
    var s := (if hash then "#" else "") + digits;
    assert AllHex(digits);
    if hash {
      assert s[1..] == digits;
    } else {
      assert s == digits;
    }
    assert IsHexColor(s);
  }

  /**
   * Shorthand, eight-digit and functional notations are all rejected,
   * e.g. `#abc`, `#00aaffff` and `rgba(0,0,0,0.12)`.
   */
  lemma HexToRgbRejects()
    ensures HexToRgb("#abc") == Black
    ensures HexToRgb("#00aaffff") == Black
    ensures HexToRgb("rgba(0,0,0,0.12)") == Black
    ensures HexToRgb("#00aafg") == Black
  {
    assert !IsHexDigit("#00aafg"[6]);
  }

  // ---------------------------------------------------------------------------
  // Palette declarations
  // ---------------------------------------------------------------------------

  datatype Decl = Decl(name: string, value: string)

  /** `a || b` for an optional string: an absent or empty value falls back. */
  function Or(a: Option<string>, b: string): (r: string)
    ensures TruthyString(a) ==> r == a.value
    ensures !TruthyString(a) ==> r == b
  {
    if TruthyString(a) then a.value else b
  }

  function SysColor(role: string): (r: string)
    ensures StartsWith(r, "--md-")
  {
    var r := "--md-sys-color-" + role;
    assert r[..5] == "--md-";
    r
  }

  /** The roles a palette must give: every colour without `?` in `ColorPalette`. */
  predicate RequiredRolesSet(p: Palette) {
    && p.primary != "" && p.onPrimary != "" && p.primaryContainer != "" && p.onPrimaryContainer != ""
    && p.secondary != "" && p.onSecondary != "" && p.secondaryContainer != "" && p.onSecondaryContainer != ""
    && p.tertiary != "" && p.onTertiary != "" && p.tertiaryContainer != "" && p.onTertiaryContainer != ""
    && p.background != "" && p.onBackground != "" && p.surface != "" && p.onSurface != ""
    && p.surfaceVariant != "" && p.onSurfaceVariant != "" && p.outline != ""
    && p.error != "" && p.onError != "" && p.success != "" && p.warning != "" && p.info != ""
  }

  /**
   * The colour declarations of a palette in emission order, after the `||`
   * fallbacks.
   */
  function ColourDecls(p: Palette): (ds: seq<Decl>)
    ensures |ds| == 32
  {
    PrimaryDecls(p) + SecondaryDecls(p) + TertiaryDecls(p) + BaseSurfaceDecls(p)
      + SurfaceLevelDecls(p) + OutlineDecls(p) + StatusDecls(p)
  }

  /** The primary role, its container and their `on-` roles. */
  function PrimaryDecls(p: Palette): (ds: seq<Decl>)
    ensures |ds| == 4
  {
    [ Decl(SysColor("primary"), p.primary),
      Decl(SysColor("on-primary"), p.onPrimary),
      Decl(SysColor("primary-container"), p.primaryContainer),
      Decl(SysColor("on-primary-container"), p.onPrimaryContainer) ]
  }

  /** The secondary role, its container and their `on-` roles. */
  function SecondaryDecls(p: Palette): (ds: seq<Decl>)
    ensures |ds| == 4
  {
    [ Decl(SysColor("secondary"), p.secondary),
      Decl(SysColor("on-secondary"), p.onSecondary),
      Decl(SysColor("secondary-container"), p.secondaryContainer),
      Decl(SysColor("on-secondary-container"), p.onSecondaryContainer) ]
  }

  /** The tertiary role, its container and their `on-` roles. */
  function TertiaryDecls(p: Palette): (ds: seq<Decl>)
    ensures |ds| == 4
  {
    [ Decl(SysColor("tertiary"), p.tertiary),
      Decl(SysColor("on-tertiary"), p.onTertiary),
      Decl(SysColor("tertiary-container"), p.tertiaryContainer),
      Decl(SysColor("on-tertiary-container"), p.onTertiaryContainer) ]
  }

  /** The background and base surface roles. */
  function BaseSurfaceDecls(p: Palette): (ds: seq<Decl>)
    ensures |ds| == 6
  {
    [ Decl(SysColor("background"), p.background),
      Decl(SysColor("on-background"), p.onBackground),
      Decl(SysColor("surface"), p.surface),
      Decl(SysColor("on-surface"), p.onSurface),
      Decl(SysColor("surface-variant"), p.surfaceVariant),
      Decl(SysColor("on-surface-variant"), p.onSurfaceVariant) ]
  }

  /** The surface levels, each falling back to `surface` or `surfaceVariant`. */
  function SurfaceLevelDecls(p: Palette): (ds: seq<Decl>)
    ensures |ds| == 7
  {
    [ Decl(SysColor("surface-dim"), Or(p.surfaceDim, p.surface)),
      Decl(SysColor("surface-bright"), Or(p.surfaceBright, p.surface)),
      Decl(SysColor("surface-container-lowest"), Or(p.surfaceContainerLowest, p.surface)),
      Decl(SysColor("surface-container-low"), Or(p.surfaceContainerLow, p.surfaceVariant)),
      Decl(SysColor("surface-container"), Or(p.surfaceContainer, p.surfaceVariant)),
      Decl(SysColor("surface-container-high"), Or(p.surfaceContainerHigh, p.surfaceVariant)),
      Decl(SysColor("surface-container-highest"), Or(p.surfaceContainerHighest, p.surfaceVariant)) ]
  }

  /** The outline and its variant, which falls back to it. */
  function OutlineDecls(p: Palette): (ds: seq<Decl>)
    ensures |ds| == 2
  {
    [ Decl(SysColor("outline"), p.outline),
      Decl(SysColor("outline-variant"), Or(p.outlineVariant, p.outline)) ]
  }

  /** The error roles and the success, warning and info reference colours. */
  function StatusDecls(p: Palette): (ds: seq<Decl>)
    ensures |ds| == 5
  {
    [ Decl(SysColor("error"), p.error),
      Decl(SysColor("on-error"), p.onError),
      Decl("--md-ref-palette-success", p.success),
      Decl("--md-ref-palette-warning", p.warning),
      Decl("--md-ref-palette-info", p.info) ]
  }

  /** Every colour declaration is a `--md-` custom property. */
  predicate CustomProperties(ds: seq<Decl>) {
    forall d :: d in ds ==> StartsWith(d.name, "--md-")
  }

  /** No declaration is empty. */
  predicate NoneEmpty(ds: seq<Decl>) {
    forall d :: d in ds ==> d.value != ""
  }

  /**
   * 32 `--md-` custom properties, none of them empty once the required roles
   * are set, because every optional role falls back to a required one.
   */
  lemma ColourDeclsComplete(p: Palette)
    ensures CustomProperties(ColourDecls(p))
    ensures RequiredRolesSet(p) ==> NoneEmpty(ColourDecls(p))
  {
    PrimaryDeclsComplete(p);
    SecondaryDeclsComplete(p);
    TertiaryDeclsComplete(p);
    BaseSurfaceDeclsComplete(p);
    SurfaceLevelDeclsComplete(p);
    OutlineDeclsComplete(p);
    StatusDeclsComplete(p);
    var groups := [PrimaryDecls(p), SecondaryDecls(p), TertiaryDecls(p), BaseSurfaceDecls(p),
                   SurfaceLevelDecls(p), OutlineDecls(p), StatusDecls(p)];
    assert ColourDecls(p) == groups[0] + groups[1] + groups[2] + groups[3] + groups[4] + groups[5] + groups[6];
  }

  lemma PrimaryDeclsComplete(p: Palette)
    ensures CustomProperties(PrimaryDecls(p))
    ensures RequiredRolesSet(p) ==> NoneEmpty(PrimaryDecls(p))
  {
  }

  lemma SecondaryDeclsComplete(p: Palette)
    ensures CustomProperties(SecondaryDecls(p))
    ensures RequiredRolesSet(p) ==> NoneEmpty(SecondaryDecls(p))
  {
  }

  lemma TertiaryDeclsComplete(p: Palette)
    ensures CustomProperties(TertiaryDecls(p))
    ensures RequiredRolesSet(p) ==> NoneEmpty(TertiaryDecls(p))
  {
  }

  lemma BaseSurfaceDeclsComplete(p: Palette)
    ensures CustomProperties(BaseSurfaceDecls(p))
    ensures RequiredRolesSet(p) ==> NoneEmpty(BaseSurfaceDecls(p))
  {
  }

  lemma SurfaceLevelDeclsComplete(p: Palette)
    ensures CustomProperties(SurfaceLevelDecls(p))
    ensures RequiredRolesSet(p) ==> NoneEmpty(SurfaceLevelDecls(p))
  {
  }

  lemma OutlineDeclsComplete(p: Palette)
    ensures CustomProperties(OutlineDecls(p))
    ensures RequiredRolesSet(p) ==> NoneEmpty(OutlineDecls(p))
  {
  }

  lemma StatusDeclsComplete(p: Palette)
    ensures CustomProperties(StatusDecls(p))
    ensures RequiredRolesSet(p) ==> NoneEmpty(StatusDecls(p))
  {
  }

  /** A colour declaration's `-rgb` companion, computed from the same value. */
  function RgbDecl(d: Decl): Decl {
    Decl(d.name + "-rgb", HexToRgb(d.value))
  }

  /** Each colour declaration followed by its `-rgb` companion. */
  function WithRgb(ds: seq<Decl>): (r: seq<Decl>)
    ensures |r| == 2 * |ds|
    ensures forall i :: 0 <= i < |ds| ==> r[2 * i] == ds[i] && r[2 * i + 1] == RgbDecl(ds[i])
    decreases |ds|
  {
    if |ds| == 0 then []
    else
      var rest := WithRgb(ds[1..]);
      WithRgbCons(ds[0], ds[1..], rest);
      [ds[0], RgbDecl(ds[0])] + rest
  }

  lemma WithRgbCons(d: Decl, tail: seq<Decl>, rest: seq<Decl>)
    requires |rest| == 2 * |tail|
    requires forall i :: 0 <= i < |tail| ==> rest[2 * i] == tail[i] && rest[2 * i + 1] == RgbDecl(tail[i])
    ensures var ds := [d] + tail;
      var r := [d, RgbDecl(d)] + rest;
      forall i :: 0 <= i < |ds| ==> r[2 * i] == ds[i] && r[2 * i + 1] == RgbDecl(ds[i])
  {
    var ds := [d] + tail;
    var r := [d, RgbDecl(d)] + rest;
    forall i | 0 <= i < |ds|
      ensures r[2 * i] == ds[i] && r[2 * i + 1] == RgbDecl(ds[i])
    {
      if i > 0 {
        assert r[2 * i] == rest[2 * (i - 1)];
        assert r[2 * i + 1] == rest[2 * (i - 1) + 1];
      }
    }
  }

  /** The body of `paletteToVars`: 64 declarations, colour and `-rgb` alternating. */
  function PaletteDecls(p: Palette): (ds: seq<Decl>)
    ensures |ds| == 64
    ensures forall i :: 0 <= i < 32 ==>
      ds[2 * i] == ColourDecls(p)[i] && ds[2 * i + 1] == RgbDecl(ColourDecls(p)[i])
  {
    var cs := ColourDecls(p);
    WithRgb(cs)
  }

  /** The `||` fallbacks of the optional roles, on the colour declarations alone. */
  lemma ColourFallbacks(p: Palette)
    requires !TruthyString(p.surfaceDim) && !TruthyString(p.surfaceBright) && !TruthyString(p.surfaceContainerLowest)
    requires !TruthyString(p.surfaceContainerLow) && !TruthyString(p.surfaceContainer)
    requires !TruthyString(p.surfaceContainerHigh) && !TruthyString(p.surfaceContainerHighest)
    requires !TruthyString(p.outlineVariant)
    ensures var cs := ColourDecls(p);
      && cs[18].value == cs[19].value == cs[20].value == p.surface
      && cs[21].value == cs[22].value == cs[23].value == cs[24].value == p.surfaceVariant
      && cs[26].value == p.outline
  {
  }

  /**
   * A palette without the optional roles (absent or empty) renders its
   * extended surface levels, values and `-rgb` companions alike, from
   * `surface`, `surfaceVariant` and `outline`.
   */
  lemma FallbacksWithoutOptionalRoles(p: Palette)
    requires !TruthyString(p.surfaceDim) && !TruthyString(p.surfaceBright) && !TruthyString(p.surfaceContainerLowest)
    requires !TruthyString(p.surfaceContainerLow) && !TruthyString(p.surfaceContainer)
    requires !TruthyString(p.surfaceContainerHigh) && !TruthyString(p.surfaceContainerHighest)
    requires !TruthyString(p.outlineVariant)
    ensures var ds := PaletteDecls(p);
      && ds[36].value == ds[38].value == ds[40].value == p.surface
      && ds[37].value == ds[39].value == ds[41].value == HexToRgb(p.surface)
      && ds[42].value == ds[44].value == ds[46].value == ds[48].value == p.surfaceVariant
      && ds[43].value == ds[45].value == ds[47].value == ds[49].value == HexToRgb(p.surfaceVariant)
      && ds[52].value == p.outline && ds[53].value == HexToRgb(p.outline)
  {
    var cs := ColourDecls(p);
    var ds := PaletteDecls(p);
    ColourFallbacks(p);
    assert ds[36] == cs[18] && ds[37] == RgbDecl(cs[18]);
    assert ds[38] == cs[19] && ds[39] == RgbDecl(cs[19]);
    assert ds[40] == cs[20] && ds[41] == RgbDecl(cs[20]);
    assert ds[42] == cs[21] && ds[43] == RgbDecl(cs[21]);
    assert ds[44] == cs[22] && ds[45] == RgbDecl(cs[22]);
    assert ds[46] == cs[23] && ds[47] == RgbDecl(cs[23]);
    assert ds[48] == cs[24] && ds[49] == RgbDecl(cs[24]);
    assert ds[52] == cs[26] && ds[53] == RgbDecl(cs[26]);
  }

  // ---------------------------------------------------------------------------
  // Stylesheet blocks
  // ---------------------------------------------------------------------------

  /** When a rule applies: always, or only under `@media (prefers-color-scheme: dark)`. */
  datatype Condition = Always | PrefersDark

  datatype Block =
    | BaseTokens(typography: Typography, shape: Shape)
    | Rule(condition: Condition, selector: string, decls: seq<Decl>)

  const RootSelector: string := ":root"

  function ForcedSelector(theme: string): string { ":root[data-theme=\"" + theme + "\"]" }

  /** `themeToCSSVars`: base tokens, light root, dark root under the media query, forced light, forced dark. */
  function ThemeToCssVars(theme: ThemeConfig): (bs: seq<Block>)
    ensures |bs| == 5
    ensures bs[0] == BaseTokens(theme.typography, theme.shape)
    ensures PaletteBlocks(bs, PaletteDecls(theme.paletteLight), PaletteDecls(theme.paletteDark))
  {
    var light := PaletteDecls(theme.paletteLight);
    var dark := PaletteDecls(theme.paletteDark);
    [ BaseTokens(theme.typography, theme.shape),
      Rule(Always, RootSelector, light),
      Rule(PrefersDark, RootSelector, dark),
      Rule(Always, ForcedSelector("light"), light),
      Rule(Always, ForcedSelector("dark"), dark) ]
  }

  /**
   * Blocks 1 to 4 in their fixed order: the light root, the dark root under
   * `prefers-color-scheme: dark`, then the forced light and forced dark roots.
   */
  predicate PaletteBlocks(bs: seq<Block>, light: seq<Decl>, dark: seq<Decl>) {
    && |bs| == 5
    && bs[1] == Rule(Always, RootSelector, light)
    && bs[2] == Rule(PrefersDark, RootSelector, dark)
    && bs[3] == Rule(Always, ForcedSelector("light"), light)
    && bs[4] == Rule(Always, ForcedSelector("dark"), dark)
  }

  /** Whether a rule applies to a document whose root has the given `data-theme`. */
  predicate Applies(b: Block, dataTheme: Option<string>, prefersDark: bool) {
    b.Rule? &&
    (b.condition == Always || prefersDark) &&
    (b.selector == RootSelector || (dataTheme.Some? && b.selector == ForcedSelector(dataTheme.value)))
  }

  /**
   * The declarations in force: those of the last applicable rule. In these
   * blocks a later applicable rule is also at least as specific, so it wins
   * the cascade.
   */
  function Effective(bs: seq<Block>, dataTheme: Option<string>, prefersDark: bool): Option<seq<Decl>>
    decreases |bs|
  {
    if |bs| == 0 then None
    else
      var last := bs[|bs| - 1];
      if Applies(last, dataTheme, prefersDark) then Some(last.decls)
      else Effective(bs[..|bs| - 1], dataTheme, prefersDark)
  }

  /**
   * The stylesheet realises the intended precedence: a forced `data-theme`
   * wins, otherwise the operating system's preference chooses the palette,
   * and light is the default.
   */
  lemma CascadeChoosesPalette(theme: ThemeConfig, dataTheme: Option<string>, prefersDark: bool)
    ensures Effective(ThemeToCssVars(theme), dataTheme, prefersDark) == Some(PaletteDecls(
      if dataTheme == Some("dark") then theme.paletteDark
      else if dataTheme == Some("light") then theme.paletteLight
      else if prefersDark then theme.paletteDark
      else theme.paletteLight))
  {
    var bs := ThemeToCssVars(theme);
    var light := PaletteDecls(theme.paletteLight);
    var dark := PaletteDecls(theme.paletteDark);
    assert ForcedSelector("light") != ForcedSelector("dark") by {
      assert |ForcedSelector("light")| != |ForcedSelector("dark")|;
    }
    assert ForcedSelector("light") != RootSelector && ForcedSelector("dark") != RootSelector by {
      assert |RootSelector| < |ForcedSelector("dark")| < |ForcedSelector("light")|;
    }
    var forcedDark := dataTheme == Some("dark");
    var forcedLight := dataTheme == Some("light");
    assert Applies(bs[4], dataTheme, prefersDark) <==> forcedDark by {
      if dataTheme.Some? && dataTheme.value != "dark" {
        ForcedSelectorInjective(dataTheme.value, "dark");
      }
    }
    assert Applies(bs[3], dataTheme, prefersDark) <==> forcedLight by {
      if dataTheme.Some? && dataTheme.value != "light" {
        ForcedSelectorInjective(dataTheme.value, "light");
      }
    }
    assert Applies(bs[2], dataTheme, prefersDark) <==> prefersDark;
    assert Applies(bs[1], dataTheme, prefersDark);
    assert bs[..5] == bs;
    assert bs[..4][..3] == bs[..3];
    assert bs[..3][..2] == bs[..2];
    assert Effective(bs[..2], dataTheme, prefersDark) == Some(light);
    assert Effective(bs[..3], dataTheme, prefersDark) == Some(if prefersDark then dark else light);
    assert Effective(bs[..4], dataTheme, prefersDark) == Some(if forcedLight then light else if prefersDark then dark else light);
    assert Effective(bs, dataTheme, prefersDark) == Some(if forcedDark then dark else if forcedLight then light else if prefersDark then dark else light);
  }

  lemma ForcedSelectorInjective(a: string, b: string)
    requires a != b
    ensures ForcedSelector(a) != ForcedSelector(b)
  {
    var prefix := ":root[data-theme=\"";
    assert |ForcedSelector(a)| == |prefix| + |a| + 2 && |ForcedSelector(b)| == |prefix| + |b| + 2;
    assert ForcedSelector(a)[|prefix|..|prefix| + |a|] == a;
    assert ForcedSelector(b)[|prefix|..|prefix| + |b|] == b;
  }
}

=== FILE: fullpage_scroll.dfy ===
/**
 * The section pager of `fullpage-scroll.ts`: a current index into `n`
 * sections, an animation lock released by an 800 ms timer, and a 1000 ms
 * cooldown between wheel or swipe scrolls. Input events are a datatype;
 * the clock reading `Date.now()` is a field of the events that consult it,
 * and the timer firing is an event of its own.
 */
module FullPageScroll {

  const Cooldown: int := 1000
  const UnlockDelay: int := 800
  const WheelThreshold: real := 10.0
  const SwipeThreshold: real := 50.0

  datatype Pager = Pager(
    n: nat,
    current: int,
    animating: bool,
    touchStartY: real,
    lastScrollTime: int)

  /** The constructor's state: first section, unlocked, no scroll yet. */
  function Initial(n: nat): (r: Pager)
    ensures Valid(r) && r.n == n
    ensures r.current == 0 && !r.animating
  {
    Pager(n, 0, false, 0.0, 0)
  }

  /** The index stays in range; with no sections it stays at 0. */
  predicate Valid(p: Pager) {
    0 <= p.current && (p.current < p.n || p.current == 0)
  }

  function Abs(x: real): real {
    if x < 0.0 then -x else x
  }

  /**
   * `scrollToSection(i)`: ignored when `i` is out of range, already
   * current, or an animation runs; otherwise `i` becomes current and the
   * lock is taken until the timer fires.
   */
  function ScrollTo(p: Pager, i: int): (r: Pager)
    ensures Valid(p) ==> Valid(r)
    ensures r.n == p.n && r.touchStartY == p.touchStartY && r.lastScrollTime == p.lastScrollTime
    ensures r != p <==> 0 <= i < p.n && !p.animating && i != p.current
    ensures r != p ==> r.current == i && r.animating
  {
    if i < 0 || i >= p.n || p.animating || i == p.current then p
    else p.(animating := true, current := i)
  }

  /** `scrollDown`: one section on, never past the last. */
  function ScrollDown(p: Pager): (r: Pager)
    requires Valid(p)
    ensures Valid(r)
    ensures r.current == p.current || (r.current == p.current + 1 && r.current < p.n)
  {
    if p.current < p.n - 1 then ScrollTo(p, p.current + 1) else p
  }

  /** `scrollUp`: one section back, never before the first. */
  function ScrollUp(p: Pager): (r: Pager)
    requires Valid(p)
    ensures Valid(r)
    ensures r.current == p.current || (r.current == p.current - 1 && r.current >= 0)
  {
    if p.current > 0 then ScrollTo(p, p.current - 1) else p
  }

  datatype Event =
    | Wheel(now: int, deltaY: real)
    | TouchStart(y: real)
    | TouchMove(now: int, y: real)
    | Key(key: string)
    | DotClick(dot: nat)
    | GoTo(index: int)
    | TimerFired

  /**
   * `handleWheel`: nothing while animating or within the cooldown; a
   * movement over the threshold scrolls by its sign and restarts the
   * cooldown, even when the pager is already at that end.
   */
  function HandleWheel(p: Pager, now: int, deltaY: real): (r: Pager)
    requires Valid(p)
    ensures Valid(r)
    ensures p.animating || now - p.lastScrollTime < Cooldown || Abs(deltaY) <= WheelThreshold ==> r == p
    ensures !p.animating && now - p.lastScrollTime >= Cooldown && deltaY > WheelThreshold ==>
      r == ScrollDown(p).(lastScrollTime := now)
    ensures !p.animating && now - p.lastScrollTime >= Cooldown && deltaY < -WheelThreshold ==>
      r == ScrollUp(p).(lastScrollTime := now)
    ensures r.current > p.current ==> deltaY > 0.0
    ensures r.current < p.current ==> deltaY < 0.0
  {
    if p.animating || now - p.lastScrollTime < Cooldown then p
    else if Abs(deltaY) > WheelThreshold then
      (if deltaY > 0.0 then ScrollDown(p) else ScrollUp(p)).(lastScrollTime := now)
    else p
  }

  /** `handleTouchMove`: the same rule for the swipe distance `startY - y`, with a 50 pixel threshold. */
  function HandleTouchMove(p: Pager, now: int, y: real): (r: Pager)
    requires Valid(p)
    ensures Valid(r)
    ensures p.animating || now - p.lastScrollTime < Cooldown || Abs(p.touchStartY - y) <= SwipeThreshold ==> r == p
    ensures !p.animating && now - p.lastScrollTime >= Cooldown && p.touchStartY - y > SwipeThreshold ==>
      r == ScrollDown(p).(lastScrollTime := now)
    ensures !p.animating && now - p.lastScrollTime >= Cooldown && p.touchStartY - y < -SwipeThreshold ==>
      r == ScrollUp(p).(lastScrollTime := now)
    ensures r.current > p.current ==> y < p.touchStartY
    ensures r.current < p.current ==> y > p.touchStartY
  {
    if p.animating then p
    else
      var diff := p.touchStartY - y;
      if now - p.lastScrollTime < Cooldown then p
      else if Abs(diff) > SwipeThreshold then
        (if diff > 0.0 then ScrollDown(p) else ScrollUp(p)).(lastScrollTime := now)
      else p
  }

  /** `handleKeydown`: blocked only by the animation lock, not by the cooldown. */
  function HandleKey(p: Pager, key: string): (r: Pager)
    requires Valid(p)
    ensures Valid(r)
    ensures r.lastScrollTime == p.lastScrollTime
    ensures !p.animating && (key == "ArrowDown" || key == "PageDown") ==> r == ScrollDown(p)
    ensures !p.animating && (key == "ArrowUp" || key == "PageUp") ==> r == ScrollUp(p)
    ensures key !in ["ArrowDown", "PageDown", "ArrowUp", "PageUp", "Home", "End"] ==> r == p
  {
    if p.animating then p
    else if key == "ArrowDown" || key == "PageDown" then ScrollDown(p)
    else if key == "ArrowUp" || key == "PageUp" then ScrollUp(p)
    else if key == "Home" then ScrollTo(p, 0)
    else if key == "End" then ScrollTo(p, p.n - 1)
    else p
  }

  /** One event. Dot clicks and `goToSection` go straight to `scrollToSection`. */
  function Step(p: Pager, e: Event): (r: Pager)
    requires Valid(p)
    ensures Valid(r) && r.n == p.n
  {
    match e
    case Wheel(now, deltaY) => HandleWheel(p, now, deltaY)
    case TouchStart(y) => p.(touchStartY := y)
    case TouchMove(now, y) => HandleTouchMove(p, now, y)
    case Key(key) => HandleKey(p, key)
    case DotClick(i) => ScrollTo(p, i)
    case GoTo(i) => ScrollTo(p, i)
    case TimerFired => p.(animating := false)
  }

  function Run(p: Pager, es: seq<Event>): Pager
    requires Valid(p)
    decreases |es|
  {
    if |es| == 0 then p else Run(Step(p, es[0]), es[1..])
  }

  /** Any sequence of events keeps the index in range. */
  lemma {:induction false} RunKeepsValid(p: Pager, es: seq<Event>)
    requires Valid(p)
    ensures Valid(Run(p, es)) && Run(p, es).n == p.n
    decreases |es|
  {
    if |es| > 0 {
      RunKeepsValid(Step(p, es[0]), es[1..]);
    }
  }

  /** Every event moves the index by at most one section, except Home, End, dots and `goToSection`, which jump. */
  lemma StepMovesOne(p: Pager, e: Event)
    requires Valid(p) && (e.Wheel? || e.TouchMove? || (e.Key? && e.key != "Home" && e.key != "End"))
    ensures -1 <= Step(p, e).current - p.current <= 1
  {
  }

  /** While the lock is held only the timer changes anything, apart from recording a touch start. */
  lemma LockedIgnoresInput(p: Pager, e: Event)
    requires Valid(p) && p.animating && !e.TimerFired? && !e.TouchStart?
    ensures Step(p, e) == p
  {
  }

  /**
   * The cooldown: a wheel or swipe that changes the state comes at least
   * 1000 ms after the last recorded scroll, and becomes the new last one.
   */
  lemma CooldownRespected(p: Pager, e: Event)
    requires Valid(p) && (e.Wheel? || e.TouchMove?)
    requires Step(p, e) != p
    ensures e.now - p.lastScrollTime >= Cooldown
    ensures Step(p, e).lastScrollTime == e.now
  {
  }

  /** A wheel or swipe past the threshold restarts the cooldown even at an end, where it scrolls nothing. */
  lemma WheelAtLastSectionRestartsCooldown(p: Pager, now: int, deltaY: real)
    requires Valid(p) && p.n > 0 && p.current == p.n - 1 && !p.animating
    requires now - p.lastScrollTime >= Cooldown && deltaY > WheelThreshold
    ensures HandleWheel(p, now, deltaY) == p.(lastScrollTime := now)
  {
  }

  /** Keys ignore the cooldown: the last scroll time has no bearing on a key press. */
  lemma KeysIgnoreCooldown(p: Pager, key: string, t: int)
    requires Valid(p)
    ensures HandleKey(p.(lastScrollTime := t), key) == HandleKey(p, key).(lastScrollTime := t)
  {
  }

  /** End reaches the last section and Home the first, whenever the lock is free. */
  lemma HomeAndEnd(p: Pager)
    requires Valid(p) && p.n > 0 && !p.animating
    ensures HandleKey(p, "End").current == p.n - 1
    ensures HandleKey(p, "Home").current == 0
  {
  }

  /** Scrolling down from any section and back up, with the timer between, returns to it when it is not the last. */
  lemma DownThenUp(p: Pager)
    requires Valid(p) && !p.animating && p.current < p.n - 1
    ensures var q := ScrollDown(p).(animating := false);
      ScrollUp(q) == p.(animating := true)
  {
  }

  // ---------------------------------------------------------------------------
  // What the page shows
  // ---------------------------------------------------------------------------

  /** A section's `translateY` percentage, opacity and `data-active`. */
  datatype SectionView = SectionView(offset: int, visible: bool, active: bool)

  /** `updateSectionPositions`. */
  function Sections(p: Pager): (vs: seq<SectionView>)
    ensures |vs| == p.n
    ensures forall i :: 0 <= i < |vs| ==> (vs[i].offset == 0 <==> vs[i].active) && vs[i].visible == vs[i].active
    ensures forall i :: 0 <= i < |vs| ==> (vs[i].offset < 0 <==> i < p.current)
    ensures forall i :: 0 <= i < |vs| - 1 ==> vs[i + 1].offset == vs[i].offset + 100
  {
    seq(p.n, i => SectionView((i - p.current) * 100, i == p.current, i == p.current))
  }

  /** `updateDots` over `m` dots: only the current one has the `active` class. */
  function Dots(p: Pager, m: nat): (ds: seq<bool>)
    ensures |ds| == m
    ensures forall i, j :: 0 <= i < j < m && ds[i] ==> !ds[j]
    ensures 0 <= p.current < m ==> ds[p.current]
    ensures (forall i :: 0 <= i < m ==> !ds[i]) <==> !(0 <= p.current < m)
  {
    seq(m, i => i == p.current)
  }

  /**
   * With at least one section, exactly one is shown and active, it sits at
   * offset 0, and the others are stacked 100% apart above and below it.
   */
  lemma OneSectionShown(p: Pager)
    requires Valid(p) && p.n > 0
    ensures var vs := Sections(p);
      && (forall i :: 0 <= i < p.n ==> (vs[i].active <==> i == p.current) && vs[i].visible == vs[i].active)
      && vs[p.current].offset == 0
      && (forall i :: 0 <= i < p.n - 1 ==> vs[i + 1].offset == vs[i].offset + 100)
      && (forall i, j :: 0 <= i < j < p.n && vs[i].active && vs[j].active ==> false)
  {
  }

  /** The dots agree with the sections wherever both exist. */
  lemma DotsMatchSections(p: Pager, m: nat)
    requires Valid(p)
    ensures forall i :: 0 <= i < m && i < p.n ==> Dots(p, m)[i] == Sections(p)[i].active
  {
  }
}

=== FILE: github.dfy ===
/**
 * The fetch orchestrator of `github.ts`. Each fetcher is modelled as two
 * sequential steps over an explicit state (the cache store and the registry
 * of in-flight requests): `Begin` (cache lookup, join, or register) and a
 * `Complete…` step that consumes an abstract HTTP outcome. The network, the
 * clock and the configured token are parameters.
 */
module GitHub {
  import opened Wrappers
  import opened Strings
  import opened GitHubTypes
  import opened GitHubCache
  import Base64

  const Api: string := "https://api.github.com"
  const AcceptMediaType: string := "application/vnd.github.v3+json"

  // ---------------------------------------------------------------------------
  // Request headers
  // ---------------------------------------------------------------------------

  datatype Header = Header(name: string, value: string)

  /** The value of the first header called `name`, if any. */
  function HeaderValue(hs: seq<Header>, name: string): Option<string>
    decreases |hs|
  {
    if |hs| == 0 then None
    else if hs[0].name == name then Some(hs[0].value)
    else HeaderValue(hs[1..], name)
  }

  /**
   * `getHeaders`: always `Accept`; `Authorization: Bearer <token>` exactly when
   * a token is configured (non-empty); `If-None-Match` exactly when the etag is
   * truthy (section 13.1.2 of RFC 9110), carrying the etag unchanged.
   */
  function Headers(token: string, etag: Option<string>): (hs: seq<Header>)
    ensures |hs| >= 1 && hs[0] == Header("Accept", AcceptMediaType)
    ensures HeaderValue(hs, "Authorization") == if token != "" then Some("Bearer " + token) else None
    ensures HeaderValue(hs, "If-None-Match") == if TruthyString(etag) then etag else None
    ensures |hs| == 1 + (if token != "" then 1 else 0) + (if TruthyString(etag) then 1 else 0)
  {
    var accept := Header("Accept", AcceptMediaType);
    assert "Authorization"[0] != "If-None-Match"[0];
    if token != "" && TruthyString(etag) then
      var auth, cond := Header("Authorization", "Bearer " + token), Header("If-None-Match", etag.value);
      var hs := [accept, auth, cond];
      assert hs[1..] == [auth, cond] && hs[1..][1..] == [cond];
      assert HeaderValue([cond], "If-None-Match") == Some(cond.value);
      assert HeaderValue([auth, cond], "If-None-Match") == Some(cond.value);
      hs
    else if token != "" then
      var auth := Header("Authorization", "Bearer " + token);
      var hs := [accept, auth];
      assert hs[1..] == [auth] && hs[1..][1..] == [];
      assert HeaderValue([auth], "If-None-Match") == None;
      hs
    else if TruthyString(etag) then
      var cond := Header("If-None-Match", etag.value);
      var hs := [accept, cond];
      assert hs[1..] == [cond] && hs[1..][1..] == [];
      assert HeaderValue([cond], "Authorization") == None;
      hs
    else [accept]
  }

  // ---------------------------------------------------------------------------
  // Payloads and normalisation
  // ---------------------------------------------------------------------------

  datatype RawLicense = RawLicense(spdxId: Option<string>)

  /** The fields of a GitHub repository payload that the normaliser reads. */
  datatype RawRepo = RawRepo(
    ownerLogin: string,
    name: string,
    description: Option<string>,
    htmlUrl: string,
    homepage: Option<string>,
    stargazersCount: int,
    forksCount: int,
    language: Option<string>,
    topics: Option<seq<string>>,
    createdAt: string,
    updatedAt: string,
    pushedAt: string,
    archived: bool,
    fork: bool,
    license: Option<RawLicense>)

  /**
   * The normalised record: fields copied across, `topics` defaulting to the
   * empty list, and `license` the SPDX id when truthy, otherwise null.
   */
  function Normalize(raw: RawRepo): (r: Repository)
    ensures r.owner == raw.ownerLogin && r.name == raw.name && r.url == raw.htmlUrl
    ensures r.stars == raw.stargazersCount && r.forks == raw.forksCount
    ensures r.description == raw.description && r.homepage == raw.homepage && r.language == raw.language
    ensures r.createdAt == raw.createdAt && r.updatedAt == raw.updatedAt && r.pushedAt == raw.pushedAt
    ensures r.isArchived == raw.archived && r.isFork == raw.fork
    ensures r.topics == if raw.topics.Some? then raw.topics.value else []
    ensures r.license.Some? <==> raw.license.Some? && TruthyString(raw.license.value.spdxId)
    ensures r.license.Some? ==> r.license == raw.license.value.spdxId
  {
    Repository(
      raw.ownerLogin, raw.name, raw.description, raw.htmlUrl, raw.homepage,
      raw.stargazersCount, raw.forksCount, raw.language,
      raw.topics.GetOr([]),
      raw.createdAt, raw.updatedAt, raw.pushedAt, raw.archived, raw.fork,
      if raw.license.Some? && TruthyString(raw.license.value.spdxId) then raw.license.value.spdxId else None)
  }

  function NormalizeAll(raws: seq<RawRepo>): (rs: seq<Repository>)
    ensures |rs| == |raws|
    ensures forall i :: 0 <= i < |raws| ==> rs[i] == Normalize(raws[i])
  {
    seq(|raws|, i requires 0 <= i < |raws| => Normalize(raws[i]))
  }

  /** The README payload: content and its encoding name. */
  datatype RawReadme = RawReadme(content: string, encoding: string)

  /**
   * README text. For `base64` every '\n' is removed and the rest decoded
   * (section 4 of RFC 4648); `Buffer`'s treatment of input that is not strict
   * base64 is the parameter `lenient`, and UTF-8 decoding is `utf8`. Any other
   * encoding is returned verbatim.
   */
  function ReadmeText(raw: RawReadme, utf8: seq<Base64.Byte> -> string, lenient: string -> seq<Base64.Byte>): (r: string)
    ensures raw.encoding != "base64" ==> r == raw.content
    ensures raw.encoding == "base64" && Base64.Decode(StripNewlines(raw.content)).Some? ==>
      r == utf8(Base64.Decode(StripNewlines(raw.content)).value)
    ensures raw.encoding == "base64" && Base64.Decode(StripNewlines(raw.content)).None? ==>
      r == utf8(lenient(StripNewlines(raw.content)))
  {
    if raw.encoding == "base64" then
      var stripped := StripNewlines(raw.content);
      match Base64.Decode(stripped)
      case Some(bytes) => utf8(bytes)
      case None => utf8(lenient(stripped))
    else raw.content
  }

  /** A README wrapped at any width decodes to exactly the encoded bytes. */
  lemma ReadmeRoundTrip(bytes: seq<Base64.Byte>, width: nat, utf8: seq<Base64.Byte> -> string,
                        lenient: string -> seq<Base64.Byte>)
    requires 0 < width
    ensures ReadmeText(RawReadme(Base64.Wrap(Base64.Encode(bytes), width), "base64"), utf8, lenient) == utf8(bytes)
  {
    Base64.DecodeWrapped(bytes, width);
  }

  // ---------------------------------------------------------------------------
  // HTTP outcomes, keys and URLs
  // ---------------------------------------------------------------------------

  /**
   * What a `fetch` produced: a response with a status, its `etag` header and
   * a body (`None` when reading or normalising the body throws), or a
   * rejected promise.
   */
  datatype Response<T> = Response(status: int, etag: Option<string>, body: Option<T>) | NetworkError

  /** `response.ok`: a 2xx status. 304 (section 15.4.5 of RFC 9110) is not ok. */
  predicate IsOk(status: int) {
    200 <= status <= 299
  }

  /** `response.headers.get('etag') || undefined`. */
  function NewETag<T>(resp: Response<T>): (e: Option<string>)
    ensures e.Some? ==> resp.Response? && e == resp.etag && e.value != ""
    ensures resp.Response? && TruthyString(resp.etag) ==> e == resp.etag
  {
    if resp.Response? && TruthyString(resp.etag) then resp.etag else None
  }

  datatype Request = Request(url: string, headers: seq<Header>)

  function RepoKey(owner: string, repo: string): string { "repo:" + owner + "/" + repo }
  function UserReposKey(user: string): string { "user-repos:" + user }
  function ReadmeKey(owner: string, repo: string): string { "readme:" + owner + "/" + repo }
  function PageKey(user: string, page: nat): string { UserReposKey(user) + ":page" + NatToString(page) }

  function RepoUrl(owner: string, repo: string): string { Api + "/repos/" + owner + "/" + repo }
  function ReadmeUrl(owner: string, repo: string): string { RepoUrl(owner, repo) + "/readme" }
  function UserReposUrl(user: string, page: nat): string {
    Api + "/users/" + user + "/repos?sort=updated&per_page=100&page=" + NatToString(page)
  }

  // ---------------------------------------------------------------------------
  // Orchestrator state and the common first step
  // ---------------------------------------------------------------------------

  /**
   * An in-flight request: the promise every caller of its key receives, the
   * value the cache read returned when it began (what the request closure
   * captured as `cached`), and the etag the closure read before its first
   * `await`.
   */
  datatype Pending = Pending(promise: nat, cached: Value, etag: Option<string>)

  /**
   * The cache store, the in-flight registry, the number the next promise
   * gets, and the value each settled promise resolved to.
   */
  datatype State = State(cache: Cache, pending: map<string, Pending>, nextPromise: nat, settled: map<nat, Value>)

  /** Every captured `cached` value is falsy: requests only begin on a miss. */
  predicate PendingFalsy(st: State) {
    forall k :: k in st.pending ==> !Truthy(st.pending[k].cached)
  }

  /** How a call began: answered from the cache, handed an in-flight promise, or given a new one. */
  datatype Begun = Hit(value: Value) | Joined(promise: nat) | Started(promise: nat)

  datatype Step = Step(state: State, begun: Begun)

  /**
   * The common prologue of the three fetchers: a truthy cache read answers at
   * once and the registry is not consulted; otherwise a call for a key in
   * flight receives that key's promise and nothing new starts; otherwise a new
   * promise is registered, with the value read and the etag stored under
   * `etagKey`, which the request closure reads synchronously.
   */
  function Begin(st: State, key: string, etagKey: string, now: int): (r: Step)
    ensures var read := Get(st.cache, key, now);
      && r.state.cache == read.cache && r.state.settled == st.settled
      && (Truthy(read.value) ==>
            r.begun == Hit(read.value) && r.state.pending == st.pending && r.state.nextPromise == st.nextPromise)
      && (!Truthy(read.value) && key in st.pending ==>
            r.begun == Joined(st.pending[key].promise) && r.state.pending == st.pending &&
            r.state.nextPromise == st.nextPromise)
      && (!Truthy(read.value) && key !in st.pending ==>
            r.begun == Started(st.nextPromise) && r.state.nextPromise == st.nextPromise + 1 &&
            r.state.pending == st.pending[key := Pending(st.nextPromise, read.value, GetETag(read.cache, etagKey))])
    ensures PendingFalsy(st) ==> PendingFalsy(r.state)
  {
    var read := Get(st.cache, key, now);
    if Truthy(read.value) then Step(st.(cache := read.cache), Hit(read.value))
    else if key in st.pending then Step(st.(cache := read.cache), Joined(st.pending[key].promise))
    else
      var p := Pending(st.nextPromise, read.value, GetETag(read.cache, etagKey));
      Step(st.(cache := read.cache, pending := st.pending[key := p], nextPromise := st.nextPromise + 1),
           Started(st.nextPromise))
  }

  /** The `finally` of a request: the key leaves the registry and its promise resolves to `value`. */
  function Settle(st: State, key: string, cache: Cache, value: Value): (r: State)
    requires key in st.pending
    ensures r.pending == st.pending - {key} && r.cache == cache && r.nextPromise == st.nextPromise
    ensures r.settled == st.settled[st.pending[key].promise := value]
  {
    State(cache, st.pending - {key}, st.nextPromise, st.settled[st.pending[key].promise := value])
  }

  datatype Finished = Finished(state: State, value: Value, requests: seq<Request>)

  // ---------------------------------------------------------------------------
  // getGitHubRepo
  // ---------------------------------------------------------------------------

  /**
   * The request body of `getGitHubRepo`. The conditional header carries the
   * etag read when the request began. A 304 returns the captured value only
   * if that value is truthy; any other non-ok status, a network error or a
   * body that fails to normalise yields null and leaves the cache alone;
   * success caches the normalised record with the response etag. On every
   * path the key leaves the registry and its promise resolves to the result.
   */
  function CompleteRepo(st: State, owner: string, repo: string, token: string, now: int,
                        resp: Response<RawRepo>, diskOk: bool): (r: Finished)
    requires RepoKey(owner, repo) in st.pending
    ensures r.state.pending == st.pending - {RepoKey(owner, repo)}
    ensures r.state.settled == st.settled[st.pending[RepoKey(owner, repo)].promise := r.value]
    ensures r.requests == [Request(RepoUrl(owner, repo), Headers(token, st.pending[RepoKey(owner, repo)].etag))]
    ensures (resp.NetworkError? || !IsOk(resp.status) || resp.body.None?) &&
            !(resp.Response? && resp.status == 304 && Truthy(st.pending[RepoKey(owner, repo)].cached)) ==>
              r.value == Null && r.state.cache == st.cache
    ensures resp.Response? && IsOk(resp.status) && resp.body.Some? ==>
      && r.value == Repo(Normalize(resp.body.value))
      && r.state.cache == Set(st.cache, RepoKey(owner, repo), r.value, NewETag(resp), now, diskOk)
  {
    var key := RepoKey(owner, repo);
    var cached := st.pending[key].cached;
    var request := Request(RepoUrl(owner, repo), Headers(token, st.pending[key].etag));
    match resp
    case NetworkError => Finished(Settle(st, key, st.cache, Null), Null, [request])
    case Response(status, _, body) =>
      if status == 304 && Truthy(cached) then Finished(Settle(st, key, st.cache, cached), cached, [request])
      else if !IsOk(status) || body.None? then Finished(Settle(st, key, st.cache, Null), Null, [request])
      else
        var data := Repo(Normalize(body.value));
        Finished(Settle(st, key, Set(st.cache, key, data, NewETag(resp), now, diskOk), data), data, [request])
  }

  /**
   * The steps of one `getGitHubRepo` call with no other call in between: an
   * answer, or the promise of the request already in flight.
   */
  datatype Call = Answered(state: State, value: Value, requests: seq<Request>) | Waiting(state: State, promise: nat)

  function GetGitHubRepo(st: State, owner: string, repo: string, token: string, now: int,
                         resp: Response<RawRepo>, diskOk: bool): (r: Call)
    ensures r.state.pending == st.pending || r.state.pending == st.pending - {RepoKey(owner, repo)}
    ensures r.Waiting? ==>
      RepoKey(owner, repo) in st.pending && r.promise == st.pending[RepoKey(owner, repo)].promise &&
      r.state.pending == st.pending
    ensures r.Answered? && r.requests == [] ==> r.value == Get(st.cache, RepoKey(owner, repo), now).value
    ensures r.Answered? && r.requests != [] ==>
      RepoKey(owner, repo) !in st.pending && r.state.settled == st.settled[st.nextPromise := r.value]
  {
    var key := RepoKey(owner, repo);
    var step := Begin(st, key, key, now);
    match step.begun
    case Hit(v) => Answered(step.state, v, [])
    case Joined(p) => Waiting(step.state, p)
    case Started(_) =>
      var fin := CompleteRepo(step.state, owner, repo, token, now, resp, diskOk);
      Answered(fin.state, fin.value, fin.requests)
  }

  // ---------------------------------------------------------------------------
  // getRepoReadme
  // ---------------------------------------------------------------------------

  /** The request body of `getRepoReadme`: as `CompleteRepo`, caching the decoded text. */
  function CompleteReadme(st: State, owner: string, repo: string, token: string, now: int,
                          resp: Response<RawReadme>, diskOk: bool,
                          utf8: seq<Base64.Byte> -> string, lenient: string -> seq<Base64.Byte>): (r: Finished)
    requires ReadmeKey(owner, repo) in st.pending
    ensures r.state.pending == st.pending - {ReadmeKey(owner, repo)}
    ensures r.state.settled == st.settled[st.pending[ReadmeKey(owner, repo)].promise := r.value]
    ensures r.requests == [Request(ReadmeUrl(owner, repo), Headers(token, st.pending[ReadmeKey(owner, repo)].etag))]
    ensures (resp.NetworkError? || !IsOk(resp.status) || resp.body.None?) &&
            !(resp.Response? && resp.status == 304 && Truthy(st.pending[ReadmeKey(owner, repo)].cached)) ==>
              r.value == Null && r.state.cache == st.cache
    ensures resp.Response? && IsOk(resp.status) && resp.body.Some? ==>
      && r.value == Str(ReadmeText(resp.body.value, utf8, lenient))
      && r.state.cache == Set(st.cache, ReadmeKey(owner, repo), r.value, NewETag(resp), now, diskOk)
  {
    var key := ReadmeKey(owner, repo);
    var cached := st.pending[key].cached;
    var request := Request(ReadmeUrl(owner, repo), Headers(token, st.pending[key].etag));
    match resp
    case NetworkError => Finished(Settle(st, key, st.cache, Null), Null, [request])
    case Response(status, _, body) =>
      if status == 304 && Truthy(cached) then Finished(Settle(st, key, st.cache, cached), cached, [request])
      else if !IsOk(status) || body.None? then Finished(Settle(st, key, st.cache, Null), Null, [request])
      else
        var text := Str(ReadmeText(body.value, utf8, lenient));
        Finished(Settle(st, key, Set(st.cache, key, text, NewETag(resp), now, diskOk), text), text, [request])
  }

  /**
   * One `getRepoReadme` call with no other call in between. A request that is
   * sent carries the etag stored under the README's own cache key.
   */
  function GetRepoReadme(st: State, owner: string, repo: string, token: string, now: int,
                         resp: Response<RawReadme>, diskOk: bool,
                         utf8: seq<Base64.Byte> -> string, lenient: string -> seq<Base64.Byte>): (r: Call)
    ensures r.state.pending == st.pending || r.state.pending == st.pending - {ReadmeKey(owner, repo)}
    ensures r.Waiting? ==>
      ReadmeKey(owner, repo) in st.pending && r.promise == st.pending[ReadmeKey(owner, repo)].promise &&
      r.state.pending == st.pending
    ensures r.Answered? && r.requests == [] ==> r.value == Get(st.cache, ReadmeKey(owner, repo), now).value
    ensures r.Answered? && r.requests != [] ==>
      && ReadmeKey(owner, repo) !in st.pending && r.state.settled == st.settled[st.nextPromise := r.value]
      && r.requests == [Request(ReadmeUrl(owner, repo),
                                Headers(token, GetETag(Get(st.cache, ReadmeKey(owner, repo), now).cache, ReadmeKey(owner, repo))))]
  {
    var key := ReadmeKey(owner, repo);
    var step := Begin(st, key, key, now);
    match step.begun
    case Hit(v) => Answered(step.state, v, [])
    case Joined(p) => Waiting(step.state, p)
    case Started(_) =>
      var fin := CompleteReadme(step.state, owner, repo, token, now, resp, diskOk, utf8, lenient);
      Answered(fin.state, fin.value, fin.requests)
  }

  // ---------------------------------------------------------------------------
  // getUserRepos: pagination
  // ---------------------------------------------------------------------------

  /** A page ends the loop unless it is an ok response with a non-empty list. */
  predicate StopsLoop(p: Response<seq<RawRepo>>) {
    !(p.Response? && IsOk(p.status) && p.body.Some? && |p.body.value| > 0)
  }

  predicate HasStop(pages: seq<Response<seq<RawRepo>>>, from: nat) {
    exists j :: from <= j < |pages| && StopsLoop(pages[j])
  }

  /** How the page loop ended: an empty page, a non-ok page (`break`), or a thrown error. */
  datatype LoopEnd = EmptyPage | NotOk | Threw

  datatype PageWalk = PageWalk(repos: seq<Repository>, fetched: nat, end: LoopEnd)

  function EndOf(p: Response<seq<RawRepo>>): LoopEnd {
    if p.NetworkError? then Threw
    else if !IsOk(p.status) then NotOk
    else if p.body.None? then Threw
    else EmptyPage
  }

  /**
   * The `while (hasMore)` loop from page `i + 1` on, with `acc` the records
   * collected so far: each ok non-empty page appends its normalised records
   * and moves to the next page.
   */
  function Paginate(pages: seq<Response<seq<RawRepo>>>, i: nat, acc: seq<Repository>): (w: PageWalk)
    requires HasStop(pages, i)
    ensures i < w.fetched <= |pages|
    decreases |pages| - i
  {
    var p := pages[i];
    if StopsLoop(p) then PageWalk(acc, i + 1, EndOf(p))
    else
      assert HasStop(pages, i + 1) by {
        var j :| i <= j < |pages| && StopsLoop(pages[j]);
        assert j != i;
      }
      Paginate(pages, i + 1, acc + NormalizeAll(p.body.value))
  }

  /** The index of the first page that ends the loop. */
  function FirstStop(pages: seq<Response<seq<RawRepo>>>, from: nat): (k: nat)
    requires HasStop(pages, from)
    ensures from <= k < |pages| && StopsLoop(pages[k])
    ensures forall j :: from <= j < k ==> !StopsLoop(pages[j])
    decreases |pages| - from
  {
    if StopsLoop(pages[from]) then from
    else
      assert HasStop(pages, from + 1) by {
        var j :| from <= j < |pages| && StopsLoop(pages[j]);
        assert j != from;
      }
      FirstStop(pages, from + 1)
  }

  /** The normalised records of pages `from` up to (not including) `to`, in page order. */
  function RecordsOf(pages: seq<Response<seq<RawRepo>>>, lo: nat, hi: nat): seq<Repository>
    requires lo <= hi <= |pages|
    requires forall j :: lo <= j < hi ==> !StopsLoop(pages[j])
    decreases hi - lo
  {
    if lo == hi then []
    else
      assert !StopsLoop(pages[lo]);
      NormalizeAll(pages[lo].body.value) + RecordsOf(pages, lo + 1, hi)
  }

  lemma {:induction false} RecordsOfSnoc(pages: seq<Response<seq<RawRepo>>>, lo: nat, hi: nat)
    requires lo < hi <= |pages|
    requires forall j :: lo <= j < hi ==> !StopsLoop(pages[j])
    ensures RecordsOf(pages, lo, hi) == RecordsOf(pages, lo, hi - 1) + NormalizeAll(pages[hi - 1].body.value)
    decreases hi - lo
  {
    var first := NormalizeAll(pages[lo].body.value);
    assert RecordsOf(pages, lo, hi) == first + RecordsOf(pages, lo + 1, hi);
    if lo + 1 == hi {
      assert RecordsOf(pages, lo + 1, hi) == [];
      assert RecordsOf(pages, lo, hi - 1) == [];
    } else {
      var middle := RecordsOf(pages, lo + 1, hi - 1);
      var last := NormalizeAll(pages[hi - 1].body.value);
      RecordsOfSnoc(pages, lo + 1, hi);
      assert RecordsOf(pages, lo + 1, hi) == middle + last;
      assert RecordsOf(pages, lo, hi - 1) == first + middle;
      assert first + (middle + last) == (first + middle) + last;
    }
  }

  /**
   * The loop fetches pages 1 … k+1, where page k+1 is the first that ends it,
   * and collects the records of pages 1 … k in page order.
   */
  lemma {:induction false} PaginateFromStart(pages: seq<Response<seq<RawRepo>>>, i: nat)
    requires HasStop(pages, 0)
    requires i <= FirstStop(pages, 0)
    ensures HasStop(pages, i)
    ensures var k := FirstStop(pages, 0);
      Paginate(pages, i, RecordsOf(pages, 0, i)) == PageWalk(RecordsOf(pages, 0, k), k + 1, EndOf(pages[k]))
    decreases FirstStop(pages, 0) - i
  {
    var k := FirstStop(pages, 0);
    assert HasStop(pages, i) by { assert i <= k < |pages| && StopsLoop(pages[k]); }
    if i < k {
      RecordsOfSnoc(pages, 0, i + 1);
      PaginateFromStart(pages, i + 1);
    }
  }

  /**
   * The requests for pages 1 to `n`: page 1 carries the etag read when the
   * request began, and every later page the etag stored under its own key
   * when the loop reaches it.
   */
  function PageRequests(c: Cache, user: string, token: string, first: Option<string>, n: nat): (rs: seq<Request>)
    requires n >= 1
    ensures |rs| == n
    ensures rs[0] == Request(UserReposUrl(user, 1), Headers(token, first))
    ensures forall i :: 1 <= i < n ==>
      rs[i] == Request(UserReposUrl(user, i + 1), Headers(token, GetETag(c, PageKey(user, i + 1))))
  {
    seq(n, i requires 0 <= i < n =>
      Request(UserReposUrl(user, i + 1), Headers(token, if i == 0 then first else GetETag(c, PageKey(user, i + 1)))))
  }

  /**
   * The request body of `getUserRepos`. A thrown error returns `[]` and caches
   * nothing; an empty page or a non-ok page caches the list collected so far,
   * without an etag, and returns it.
   */
  function CompleteUserRepos(st: State, user: string, token: string, now: int,
                             pages: seq<Response<seq<RawRepo>>>, diskOk: bool): (r: Finished)
    requires UserReposKey(user) in st.pending
    requires HasStop(pages, 0)
    ensures r.state.pending == st.pending - {UserReposKey(user)}
    ensures r.state.settled == st.settled[st.pending[UserReposKey(user)].promise := r.value]
    ensures var k := FirstStop(pages, 0);
      && r.requests == PageRequests(st.cache, user, token, st.pending[UserReposKey(user)].etag, k + 1)
      && (EndOf(pages[k]) == Threw ==> r.value == Repos([]) && r.state.cache == st.cache)
      && (EndOf(pages[k]) != Threw ==>
            r.value == Repos(RecordsOf(pages, 0, k)) &&
            r.state.cache == Set(st.cache, UserReposKey(user), r.value, None, now, diskOk))
  {
    var key := UserReposKey(user);
    var walk := Paginate(pages, 0, []);
    PaginateFromStart(pages, 0);
    var requests := PageRequests(st.cache, user, token, st.pending[key].etag, walk.fetched);
    if walk.end == Threw then Finished(Settle(st, key, st.cache, Repos([])), Repos([]), requests)
    else
      var value := Repos(walk.repos);
      Finished(Settle(st, key, Set(st.cache, key, value, None, now, diskOk), value), value, requests)
  }

  /**
   * One `getUserRepos` call with no other call in between. The first page's
   * request carries the etag stored under the page-1 key, read when the
   * request began; the records are cached under the user's own key.
   */
  function GetUserRepos(st: State, user: string, token: string, now: int,
                        pages: seq<Response<seq<RawRepo>>>, diskOk: bool): (r: Call)
    requires HasStop(pages, 0)
    ensures r.state.pending == st.pending || r.state.pending == st.pending - {UserReposKey(user)}
    ensures r.Waiting? ==>
      UserReposKey(user) in st.pending && r.promise == st.pending[UserReposKey(user)].promise &&
      r.state.pending == st.pending
    ensures r.Answered? && r.requests == [] ==> r.value == Get(st.cache, UserReposKey(user), now).value
    ensures r.Answered? && r.requests != [] ==>
      && UserReposKey(user) !in st.pending && r.state.settled == st.settled[st.nextPromise := r.value]
      && r.requests[0] == Request(UserReposUrl(user, 1),
                                  Headers(token, GetETag(Get(st.cache, UserReposKey(user), now).cache, PageKey(user, 1))))
  {
    var key := UserReposKey(user);
    var step := Begin(st, key, PageKey(user, 1), now);
    match step.begun
    case Hit(v) => Answered(step.state, v, [])
    case Joined(p) => Waiting(step.state, p)
    case Started(_) =>
      var read := Get(st.cache, key, now);
      assert step.state.pending[key] == Pending(st.nextPromise, read.value, GetETag(read.cache, PageKey(user, 1)));
      var fin := CompleteUserRepos(step.state, user, token, now, pages, diskOk);
      Answered(fin.state, fin.value, fin.requests)
  }

  /** Pages of 100, 100 and 37 records followed by an empty page give 237 records and four requests. */
  lemma PaginationCompleteness(st: State, user: string, token: string, now: int,
                               pages: seq<Response<seq<RawRepo>>>, diskOk: bool)
    requires UserReposKey(user) in st.pending
    requires |pages| == 4
    requires forall j :: 0 <= j < 3 ==> pages[j].Response? && IsOk(pages[j].status) && pages[j].body.Some?
    requires |pages[0].body.value| == 100 && |pages[1].body.value| == 100 && |pages[2].body.value| == 37
    requires pages[3].Response? && IsOk(pages[3].status) && pages[3].body == Some([])
    ensures HasStop(pages, 0)
    ensures var r := CompleteUserRepos(st, user, token, now, pages, diskOk);
      r.value.Repos? && |r.value.repos| == 237 && |r.requests| == 4
      && r.value.repos[..100] == NormalizeAll(pages[0].body.value)
      && r.value.repos[200..] == NormalizeAll(pages[2].body.value)
  {
    assert StopsLoop(pages[3]);
    assert HasStop(pages, 0);
    assert FirstStop(pages, 0) == 3 by {
      assert !StopsLoop(pages[0]) && !StopsLoop(pages[1]) && !StopsLoop(pages[2]);
    }
    var a, b, c := NormalizeAll(pages[0].body.value), NormalizeAll(pages[1].body.value), NormalizeAll(pages[2].body.value);
    assert RecordsOf(pages, 3, 3) == [];
    assert RecordsOf(pages, 0, 3) == a + (b + (c + []));
  }

  // ---------------------------------------------------------------------------
  // Orchestrator properties
  // ---------------------------------------------------------------------------

  /** Every step keeps the captured values falsy. */
  lemma StepsKeepPendingFalsy(st: State, owner: string, repo: string, user: string, token: string, now: int,
                              respRepo: Response<RawRepo>, respReadme: Response<RawReadme>,
                              pages: seq<Response<seq<RawRepo>>>, diskOk: bool,
                              utf8: seq<Base64.Byte> -> string, lenient: string -> seq<Base64.Byte>)
    requires PendingFalsy(st)
    ensures RepoKey(owner, repo) in st.pending ==>
      PendingFalsy(CompleteRepo(st, owner, repo, token, now, respRepo, diskOk).state)
    ensures ReadmeKey(owner, repo) in st.pending ==>
      PendingFalsy(CompleteReadme(st, owner, repo, token, now, respReadme, diskOk, utf8, lenient).state)
    ensures UserReposKey(user) in st.pending && HasStop(pages, 0) ==>
      PendingFalsy(CompleteUserRepos(st, user, token, now, pages, diskOk).state)
  {
  }

  /**
   * The `304 && cached` branch is dead: `cached` is always falsy there, so a
   * Not Modified answer yields null and the cache is left as it was.
   */
  lemma NotModifiedYieldsNull(st: State, owner: string, repo: string, token: string, now: int,
                              etag: Option<string>, body: Option<RawRepo>, diskOk: bool,
                              readmeBody: Option<RawReadme>,
                              utf8: seq<Base64.Byte> -> string, lenient: string -> seq<Base64.Byte>)
    requires PendingFalsy(st)
    ensures RepoKey(owner, repo) in st.pending ==>
      var r := CompleteRepo(st, owner, repo, token, now, Response(304, etag, body), diskOk);
      r.value == Null && r.state.cache == st.cache
    ensures ReadmeKey(owner, repo) in st.pending ==>
      var r := CompleteReadme(st, owner, repo, token, now, Response(304, etag, readmeBody), diskOk, utf8, lenient);
      r.value == Null && r.state.cache == st.cache
  {
  }

  /**
   * After a read that missed, whatever is still stored under the key (in
   * memory or in its file) is fresh and holds falsy data: expired entries were
   * deleted by the read itself.
   */
  lemma MissLeavesOnlyFreshFalsy(c: Cache, key: string, now: int)
    requires !Truthy(Get(c, key, now).value)
    ensures var c' := Get(c, key, now).cache;
      && (key in c'.memory ==> Fresh(c'.memory[key], now, c'.ttl) && !Truthy(c'.memory[key].data))
      && (FileName(key) in c'.disk && c'.disk[FileName(key)].Stored? ==>
            Fresh(c'.disk[FileName(key)].entry, now, c'.ttl) && !Truthy(c'.disk[FileName(key)].entry.data))
  {
    var m := GetFromMemory(c, key, now);
    assert !Truthy(m.value);
  }

  /**
   * Hence a conditional request is sent only on behalf of a fresh entry whose
   * data is falsy: the etag of an expired entry never reaches the server.
   */
  lemma ConditionalRequestOnlyForFreshFalsy(st: State, owner: string, repo: string, token: string, now: int,
                                            resp: Response<RawRepo>, diskOk: bool)
    requires RepoKey(owner, repo) !in st.pending
    requires var step := Begin(st, RepoKey(owner, repo), RepoKey(owner, repo), now);
      step.begun.Started? &&
      HeaderValue(CompleteRepo(step.state, owner, repo, token, now, resp, diskOk).requests[0].headers, "If-None-Match").Some?
    ensures var key := RepoKey(owner, repo);
      var c' := Begin(st, key, key, now).state.cache;
      (key in c'.memory && Fresh(c'.memory[key], now, c'.ttl) && !Truthy(c'.memory[key].data)) ||
      (FileName(key) in c'.disk && c'.disk[FileName(key)].Stored? &&
       Fresh(c'.disk[FileName(key)].entry, now, c'.ttl) && !Truthy(c'.disk[FileName(key)].entry.data))
  {
    var key := RepoKey(owner, repo);
    MissLeavesOnlyFreshFalsy(st.cache, key, now);
  }

  /**
   * A second call for a key in flight, at any later time, is either answered
   * by the cache or handed the first call's promise without a request of its
   * own; when the first call's request completes, that promise resolves to
   * the very value the first call returns, so both callers receive it, and
   * the key is free again.
   */
  lemma JoinersShareResult(st: State, owner: string, repo: string, token: string, now: int, now2: int,
                           later: int, resp: Response<RawRepo>, diskOk: bool)
    requires RepoKey(owner, repo) !in st.pending
    requires Begin(st, RepoKey(owner, repo), RepoKey(owner, repo), now).begun.Started?
    ensures var key := RepoKey(owner, repo);
      var first := Begin(st, key, key, now);
      var second := Begin(first.state, key, key, now2);
      var fin := CompleteRepo(second.state, owner, repo, token, later, resp, diskOk);
      && (second.begun.Hit? || second.begun == Joined(first.begun.promise))
      && key in second.state.pending
      && fin.state.settled[first.begun.promise] == fin.value
      && key !in fin.state.pending
  {
    var key := RepoKey(owner, repo);
    var first := Begin(st, key, key, now);
    assert key in first.state.pending && first.state.pending[key].promise == first.begun.promise;
  }

  // ---------------------------------------------------------------------------
  // Formatting helpers
  // ---------------------------------------------------------------------------

  /** Units of the relative-date rendering, with their length in days. */
  datatype Unit = Today | Yesterday | Days | Weeks | Months | Years

  /** The unit for a day count: the coarsest whose threshold has been reached. */
  function UnitOf(days: nat): Unit {
    if days == 0 then Today
    else if days == 1 then Yesterday
    else if days < 7 then Days
    else if days < 30 then Weeks
    else if days < 365 then Months
    else Years
  }

  function UnitDays(u: Unit): nat {
    match u
    case Today => 1
    case Yesterday => 1
    case Days => 1
    case Weeks => 7
    case Months => 30
    case Years => 365
  }

  function UnitSuffix(u: Unit): string
    requires u !in {Today, Yesterday}
  {
    match u
    case Days => " 天前"
    case Weeks => " 周前"
    case Months => " 个月前"
    case Years => " 年前"
  }

  /**
   * `formatDate` for a day count `days` (the ceiling of the absolute
   * millisecond difference over one day): today, yesterday, or the count in
   * the coarsest unit reached, rounded down.
   */
  function FormatDate(days: nat): (r: string)
    ensures days == 0 ==> r == "今天"
    ensures days == 1 ==> r == "昨天"
    ensures days >= 2 ==> r == NatToString(days / UnitDays(UnitOf(days))) + UnitSuffix(UnitOf(days))
  {
    if days == 0 then "今天"
    else if days == 1 then "昨天"
    else if days < 7 then NatToString(days) + " 天前"
    else if days < 30 then NatToString(days / 7) + " 周前"
    else if days < 365 then NatToString(days / 30) + " 个月前"
    else NatToString(days / 365) + " 年前"
  }

  /** Reads a relative date back into its unit and count. */
  function ParseRelative(s: string): Option<(Unit, nat)> {
    if s == "今天" then Some((Today, 0))
    else if s == "昨天" then Some((Yesterday, 1))
    else if |s| < 3 || s[|s| - 1] != '前' then None
    else
      var (u, n) :=
        if s[|s| - 2] == '天' then (Days, 3)
        else if s[|s| - 2] == '周' then (Weeks, 3)
        else if s[|s| - 2] == '年' then (Years, 3)
        else if s[|s| - 2] == '月' && |s| >= 4 && s[|s| - 3] == '个' then (Months, 4)
        else (Today, 0);
      if n == 0 || |s| <= n || s[|s| - n] != ' ' then None
      else
        var digits := s[..|s| - n];
        if forall i :: 0 <= i < |digits| ==> IsDigit(digits[i]) then Some((u, ParseNat(digits))) else None
  }

  /**
   * The rendering loses nothing beyond the rounding: its unit and count can be
   * read back, so two day counts render alike exactly when they fall in the
   * same unit with the same rounded count.
   */
  lemma {:induction false} FormatDateReadsBack(days: nat)
    ensures ParseRelative(FormatDate(days)) == Some((UnitOf(days), days / UnitDays(UnitOf(days))))
  {
    if days >= 2 {
      var u := UnitOf(days);
      var n := days / UnitDays(u);
      var digits := NatToString(n);
      var s := FormatDate(days);
      var suffix := UnitSuffix(u);
      assert s == digits + suffix;
      assert s[..|s| - |suffix|] == digits;
      assert s != "今天" && s != "昨天" by {
        assert s[|s| - 1] == '前';
      }
      ParseNatToString(n);
    }
  }

  /** Any non-negative count formats as its decimal digits below a thousand. */
  function FormatNumber(num: int, toFixed1: int -> string): (r: string)
    ensures num >= 1000 ==> |r| > 0 && r[|r| - 1] == 'k'
    ensures 0 <= num < 1000 ==> r == NatToString(num)
  {
    if num >= 1000 then toFixed1(num) + "k"
    else if num >= 0 then NatToString(num)
    else "-" + NatToString(-num)
  }

  /** The language colours of `getLanguageColor`. */
  const LanguageColors: map<string, string> := map[
    "JavaScript" := "#f1e05a", "TypeScript" := "#3178c6", "Python" := "#3572A5",
    "Java" := "#b07219", "C++" := "#f34b7d", "C" := "#555555", "Go" := "#00ADD8",
    "Rust" := "#dea584", "PHP" := "#4F5D95", "Ruby" := "#701516", "Swift" := "#ffac45",
    "Kotlin" := "#A97BFF", "Dart" := "#00B4AB", "Vue" := "#41b883", "HTML" := "#e34c26",
    "CSS" := "#563d7c", "Shell" := "#89e051"]

  const DefaultLanguageColor: string := "#8b949e"

  /** The colour of a listed language; the grey default for null, empty or unlisted. */
  function LanguageColor(language: Option<string>): (r: string)
    ensures TruthyString(language) && language.value in LanguageColors ==> r == LanguageColors[language.value]
    ensures !TruthyString(language) || language.value !in LanguageColors ==> r == DefaultLanguageColor
    ensures r in LanguageColors.Values || r == DefaultLanguageColor
  {
    if TruthyString(language) && language.value in LanguageColors then LanguageColors[language.value]
    else DefaultLanguageColor
  }
}

=== FILE: github_cache.dfy ===
/**
 * The two-tier GitHub cache store (`GitHubCache`): an in-process memory map
 * in front of a directory of JSON files, one per sanitised key. Freshness is
 * judged lazily at read time against one TTL; the clock is the `now`
 * parameter of each read or write, and the directory is a map from file name
 * to file content. Every operation returns the new store instead of mutating.
 */
module GitHubCache {
  import opened Wrappers
  import opened Strings
  import opened GitHubTypes

  /** Ten minutes, in milliseconds. */
  const DefaultTtl: int := 1000 * 60 * 10
  /** The five-minute TTL of the development-mode instance. */
  const DevTtl: int := 1000 * 60 * 5

  datatype Entry = Entry(data: Value, timestamp: int, etag: Option<string>)

  /** A cache file either parses as an entry or fails to read or parse. */
  datatype DiskFile = Stored(entry: Entry) | Corrupt

  datatype Cache = Cache(memory: map<string, Entry>, disk: map<string, DiskFile>, ttl: int)

  /** The store after a read, and the value the read returned (`Null` for `null`). */
  datatype Read = Read(cache: Cache, value: Value)

  datatype Stats = Stats(memoryEntries: nat, diskEntries: nat)

  /** Characters kept by the sanitiser: `[a-z0-9-_]`, case-insensitively. */
  predicate SafeChar(c: char) {
    ('a' <= c <= 'z') || ('A' <= c <= 'Z') || ('0' <= c <= '9') || c == '-' || c == '_'
  }

  function SafeKeyChar(c: char): (r: char)
    ensures SafeChar(r)
  {
    if SafeChar(c) then c else '_'
  }

  /** Every character outside the safe set becomes '_' (`key.replace(/[^a-z0-9-_]/gi, '_')`). */
  function SafeKey(key: string): (r: string)
    ensures |r| == |key|
    ensures forall i :: 0 <= i < |key| ==> r[i] == SafeKeyChar(key[i])
  {
    seq(|key|, i requires 0 <= i < |key| => SafeKeyChar(key[i]))
  }

  /** The cache file of a key: its sanitised form plus `.json`, inside the cache directory. */
  function FileName(key: string): string {
    SafeKey(key) + ".json"
  }

  /** An entry is fresh while no more than `ttl` milliseconds have passed since it was written. */
  predicate Fresh(e: Entry, now: int, ttl: int) {
    now - e.timestamp <= ttl
  }

  /**
   * A new store over an existing cache directory: the memory tier starts
   * empty, and a missing or zero TTL option selects the default
   * (`options.ttl || DEFAULT_TTL`).
   */
  function Open(disk: map<string, DiskFile>, ttlOption: Option<int>): (c: Cache)
    ensures c.memory == map[] && c.disk == disk
    ensures ttlOption.Some? && ttlOption.value != 0 ==> c.ttl == ttlOption.value
    ensures ttlOption.None? || ttlOption.value == 0 ==> c.ttl == DefaultTtl
  {
    Cache(map[], disk, if ttlOption.Some? && ttlOption.value != 0 then ttlOption.value else DefaultTtl)
  }

  /**
   * `getCache`: development builds open a fresh five-minute store over the
   * same directory; production builds share the ten-minute singleton.
   */
  function CacheFor(dev: bool, singleton: Cache): (c: Cache)
    ensures c.disk == singleton.disk
    ensures dev ==> c.memory == map[] && c.ttl == DevTtl
    ensures !dev ==> c == singleton
  {
    if dev then Open(singleton.disk, Some(DevTtl)) else singleton
  }

  /**
   * Memory-tier read. A fresh entry's data is returned; an expired entry is
   * deleted by the read that finds it. The disk tier is never touched.
   */
  function GetFromMemory(c: Cache, key: string, now: int): (r: Read)
    ensures r.cache.disk == c.disk && r.cache.ttl == c.ttl
    ensures r.cache.memory.Keys == if key in c.memory && !Fresh(c.memory[key], now, c.ttl)
                                   then c.memory.Keys - {key} else c.memory.Keys
    ensures forall k :: k in r.cache.memory ==> r.cache.memory[k] == c.memory[k]
    ensures r.value != Null ==> key in c.memory && Fresh(c.memory[key], now, c.ttl)
    ensures key in c.memory && Fresh(c.memory[key], now, c.ttl) ==> r.value == c.memory[key].data
  {
    if key !in c.memory then Read(c, Null)
    else if !Fresh(c.memory[key], now, c.ttl) then Read(c.(memory := c.memory - {key}), Null)
    else Read(c, c.memory[key].data)
  }

  /**
   * Disk-tier read of the key's file. A fresh entry is copied into memory under
   * `key` and its data returned; an expired file is deleted; a file that cannot
   * be read or parsed yields `Null` and is left where it is.
   */
  function GetFromDisk(c: Cache, key: string, now: int): (r: Read)
    ensures r.cache.ttl == c.ttl
    ensures FileName(key) !in c.disk ==> r == Read(c, Null)
    ensures FileName(key) in c.disk && c.disk[FileName(key)].Corrupt? ==> r == Read(c, Null)
    ensures FileName(key) in c.disk && c.disk[FileName(key)].Stored? ==>
      var e := c.disk[FileName(key)].entry;
      if Fresh(e, now, c.ttl) then r == Read(c.(memory := c.memory[key := e]), e.data)
      else r == Read(c.(disk := c.disk - {FileName(key)}), Null)
  {
    var f := FileName(key);
    if f !in c.disk then Read(c, Null)
    else match c.disk[f]
      case Corrupt => Read(c, Null)
      case Stored(e) =>
        if !Fresh(e, now, c.ttl) then Read(c.(disk := c.disk - {f}), Null)
        else Read(c.(memory := c.memory[key := e]), e.data)
  }

  /** The memory map once the memory read of `key` has dropped an expired entry. */
  function MemoryAfterRead(c: Cache, key: string, now: int): map<string, Entry> {
    if key in c.memory && !Fresh(c.memory[key], now, c.ttl) then c.memory - {key} else c.memory
  }

  /**
   * `get`: memory first; only when the memory read gives a falsy result is the
   * disk file consulted. A fresh truthy memory entry answers without any change.
   */
  function Get(c: Cache, key: string, now: int): (r: Read)
    ensures r.cache.ttl == c.ttl
    ensures key in c.memory && Fresh(c.memory[key], now, c.ttl) && Truthy(c.memory[key].data) ==>
      r == Read(c, c.memory[key].data)
    ensures !(key in c.memory && Fresh(c.memory[key], now, c.ttl) && Truthy(c.memory[key].data)) ==>
      var f := FileName(key);
      if f !in c.disk || c.disk[f].Corrupt? then
        r == Read(c.(memory := MemoryAfterRead(c, key, now)), Null)
      else if Fresh(c.disk[f].entry, now, c.ttl) then
        r == Read(c.(memory := c.memory[key := c.disk[f].entry]), c.disk[f].entry.data)
      else
        r == Read(c.(memory := MemoryAfterRead(c, key, now), disk := c.disk - {f}), Null)
    ensures forall k :: k != key && k in c.memory ==> k in r.cache.memory && r.cache.memory[k] == c.memory[k]
    ensures forall k :: k != key && k in r.cache.memory ==> k in c.memory
    ensures forall f :: f != FileName(key) && f in c.disk ==> f in r.cache.disk && r.cache.disk[f] == c.disk[f]
    ensures r.cache.disk.Keys <= c.disk.Keys
    ensures r.value != Null ==>
      (key in c.memory && Fresh(c.memory[key], now, c.ttl) && r.value == c.memory[key].data) ||
      (FileName(key) in c.disk && c.disk[FileName(key)].Stored? &&
       Fresh(c.disk[FileName(key)].entry, now, c.ttl) && r.value == c.disk[FileName(key)].entry.data)
  {
    var m := GetFromMemory(c, key, now);
    if Truthy(m.value) then m else GetFromDisk(m.cache, key, now)
  }

  /**
   * `set`: the entry `{data, timestamp: now, etag}` replaces the key's memory
   * entry unconditionally; the file write may fail (`diskOk` false), and the
   * failure is swallowed.
   */
  function Set(c: Cache, key: string, data: Value, etag: Option<string>, now: int, diskOk: bool): (r: Cache)
    ensures r.ttl == c.ttl
    ensures r.memory == c.memory[key := Entry(data, now, etag)]
    ensures diskOk ==> r.disk == c.disk[FileName(key) := Stored(Entry(data, now, etag))]
    ensures !diskOk ==> r.disk == c.disk
  {
    var e := Entry(data, now, etag);
    c.(memory := c.memory[key := e], disk := if diskOk then c.disk[FileName(key) := Stored(e)] else c.disk)
  }

  /**
   * `getETag`: a truthy etag on the memory entry wins, whatever its age;
   * otherwise the etag of the key's file, if the file parses. Nothing changes.
   */
  function GetETag(c: Cache, key: string): (r: Option<string>)
    ensures key in c.memory && TruthyString(c.memory[key].etag) ==> r == c.memory[key].etag
    ensures r.Some? ==>
      (key in c.memory && r == c.memory[key].etag) ||
      (FileName(key) in c.disk && c.disk[FileName(key)].Stored? && r == c.disk[FileName(key)].entry.etag)
    ensures (!(key in c.memory && TruthyString(c.memory[key].etag)) &&
             FileName(key) in c.disk && c.disk[FileName(key)].Stored?) ==> r == c.disk[FileName(key)].entry.etag
    ensures (!(key in c.memory && TruthyString(c.memory[key].etag)) &&
             (FileName(key) !in c.disk || c.disk[FileName(key)].Corrupt?)) ==> r.None?
  {
    if key in c.memory && TruthyString(c.memory[key].etag) then c.memory[key].etag
    else if FileName(key) !in c.disk then None
    else match c.disk[FileName(key)]
      case Corrupt => None
      case Stored(e) => e.etag
  }

  /**
   * `clear(key?)`: a truthy key is removed from memory and its file deleted;
   * no key (or the empty key) empties memory and recreates the directory
   * empty. A failing file-system call (`diskOk` false) leaves the disk tier as
   * it was.
   */
  function Clear(c: Cache, key: Option<string>, diskOk: bool): (r: Cache)
    ensures r.ttl == c.ttl
    ensures TruthyString(key) ==>
      && r.memory.Keys == c.memory.Keys - {key.value}
      && (forall k :: k in r.memory ==> r.memory[k] == c.memory[k])
      && (diskOk ==> r.disk.Keys == c.disk.Keys - {FileName(key.value)})
      && (forall f :: f in r.disk ==> f in c.disk && r.disk[f] == c.disk[f])
    ensures !TruthyString(key) ==> r.memory == map[] && (diskOk ==> r.disk == map[])
    ensures !diskOk ==> r.disk == c.disk
  {
    if TruthyString(key) then
      c.(memory := c.memory - {key.value}, disk := if diskOk then c.disk - {FileName(key.value)} else c.disk)
    else
      c.(memory := map[], disk := if diskOk then map[] else c.disk)
  }

  /** `getStats`: the number of memory entries and of files in the directory. */
  function GetStats(c: Cache): Stats {
    Stats(|c.memory|, |c.disk|)
  }

  // ---------------------------------------------------------------------------
  // Properties relating several operations
  // ---------------------------------------------------------------------------

  /**
   * Written, then read within the TTL: the written data comes back. A falsy
   * value is a memory miss, so it comes back through the file, which needs
   * the file write to have succeeded.
   */
  lemma GetAfterSet(c: Cache, key: string, data: Value, etag: Option<string>, t: int, now: int, diskOk: bool)
    requires now - t <= c.ttl
    requires diskOk || Truthy(data)
    ensures Get(Set(c, key, data, etag, t, diskOk), key, now).value == data
  {
  }

  /**
   * Written, then read after the TTL has passed: the read misses, and it
   * deletes both the memory entry and the file.
   */
  lemma GetAfterExpiry(c: Cache, key: string, data: Value, etag: Option<string>, t: int, now: int)
    requires now - t > c.ttl
    ensures var c' := Set(c, key, data, etag, t, true);
      Get(c', key, now) == Read(c'.(memory := c'.memory - {key}, disk := c'.disk - {FileName(key)}), Null)
  {
  }

  /** The etag of a write is reported whatever time has passed, until a read or clear removes it. */
  lemma ETagOutlivesFreshness(c: Cache, key: string, data: Value, etag: Option<string>, t: int, diskOk: bool)
    requires TruthyString(etag)
    ensures GetETag(Set(c, key, data, etag, t, diskOk), key) == etag
  {
  }

  /**
   * The read that finds an entry expired also deletes it, so the etag of an
   * expired entry is gone once the entry has been read.
   */
  lemma ExpiredReadDropsETag(c: Cache, key: string, data: Value, etag: Option<string>, t: int, now: int)
    requires now - t > c.ttl
    ensures GetETag(Get(Set(c, key, data, etag, t, true), key, now).cache, key) == None
  {
    GetAfterExpiry(c, key, data, etag, t, now);
  }

  /**
   * A store opened later over the same directory (a new process) reads a value
   * written by an earlier store, while it is fresh.
   */
  lemma {:induction false} SurvivesRestart(c: Cache, key: string, data: Value, etag: Option<string>, t: int,
                                           ttlOption: Option<int>, now: int)
    requires var c2 := Open(Set(c, key, data, etag, t, true).disk, ttlOption); now - t <= c2.ttl
    ensures var c2 := Open(Set(c, key, data, etag, t, true).disk, ttlOption);
      var r := Get(c2, key, now);
      r.value == data && r.cache.memory[key] == Entry(data, t, etag)
  {
    var c2 := Open(Set(c, key, data, etag, t, true).disk, ttlOption);
    assert c2.disk[FileName(key)] == Stored(Entry(data, t, etag));
    assert GetFromMemory(c2, key, now) == Read(c2, Null);
  }

  /** A corrupt file answers a miss and survives the read (it is not deleted). */
  lemma CorruptFileSurvivesRead(c: Cache, key: string, now: int)
    requires key !in c.memory
    requires FileName(key) in c.disk && c.disk[FileName(key)] == Corrupt
    ensures Get(c, key, now) == Read(c, Null)
  {
  }

  /**
   * A fresh memory entry with falsy data does not answer the read: the file is
   * consulted, and a fresh file replaces the memory entry with its own.
   */
  lemma FalsyMemoryEntryFallsThrough(c: Cache, key: string, now: int)
    requires key in c.memory && Fresh(c.memory[key], now, c.ttl) && !Truthy(c.memory[key].data)
    requires FileName(key) in c.disk && c.disk[FileName(key)].Stored?
    requires Fresh(c.disk[FileName(key)].entry, now, c.ttl)
    ensures var e := c.disk[FileName(key)].entry;
      Get(c, key, now) == Read(c.(memory := c.memory[key := e]), e.data)
  {
  }

  /** After a key is cleared, reading it misses, and no colliding key can find the deleted file either. */
  lemma GetAfterClear(c: Cache, key: string, other: string, now: int)
    requires key != "" && FileName(other) == FileName(key)
    requires other == key || other !in c.memory
    ensures var c' := Clear(c, Some(key), true);
      Get(c', other, now).value == Null && FileName(other) !in c'.disk
  {
    var c' := Clear(c, Some(key), true);
    assert other !in c'.memory;
  }

  /** After everything is cleared, every key misses and the statistics are zero. */
  lemma ClearAllEmpties(c: Cache, key: string, now: int)
    ensures Get(Clear(c, None, true), key, now) == Read(Clear(c, None, true), Null)
    ensures GetStats(Clear(c, None, true)) == Stats(0, 0)
  {
  }

  /** A write adds a memory entry, and a file when it succeeds, exactly when there was none before. */
  lemma StatsAfterSet(c: Cache, key: string, data: Value, etag: Option<string>, now: int, diskOk: bool)
    ensures var s := GetStats(Set(c, key, data, etag, now, diskOk));
      && s.memoryEntries == GetStats(c).memoryEntries + (if key in c.memory then 0 else 1)
      && s.diskEntries == GetStats(c).diskEntries + (if diskOk && FileName(key) !in c.disk then 1 else 0)
  {
    UpdateSize(c.memory, key, Entry(data, now, etag));
    UpdateSize(c.disk, FileName(key), Stored(Entry(data, now, etag)));
  }

  lemma UpdateSize<K, V>(m: map<K, V>, k: K, v: V)
    ensures |m[k := v].Keys| == |m.Keys| + (if k in m then 0 else 1)
  {
    assert m[k := v].Keys == m.Keys + {k};
  }

  /** Clearing one key removes its memory entry and its file, when present, and nothing else. */
  lemma StatsAfterClear(c: Cache, key: string)
    requires key != ""
    ensures var s := GetStats(Clear(c, Some(key), true));
      && s.memoryEntries == GetStats(c).memoryEntries - (if key in c.memory then 1 else 0)
      && s.diskEntries == GetStats(c).diskEntries - (if FileName(key) in c.disk then 1 else 0)
  {
  }

  // ---------------------------------------------------------------------------
  // File names
  // ---------------------------------------------------------------------------

  /** Keys made only of safe characters are their own file stem. */
  lemma SafeKeyOfSafe(key: string)
    requires forall i :: 0 <= i < |key| ==> SafeChar(key[i])
    ensures SafeKey(key) == key
  {
  }

  /** Sanitising twice is sanitising once. */
  lemma SafeKeyIdempotent(key: string)
    ensures SafeKey(SafeKey(key)) == SafeKey(key)
  {
    SafeKeyOfSafe(SafeKey(key));
  }

  /**
   * Two keys share a file exactly when they have the same length and agree at
   * every position where either has a safe character.
   */
  lemma SameFileIff(k1: string, k2: string)
    ensures FileName(k1) == FileName(k2) <==>
      |k1| == |k2| && forall i :: 0 <= i < |k1| ==> SafeKeyChar(k1[i]) == SafeKeyChar(k2[i])
  {
    if FileName(k1) == FileName(k2) {
      assert SafeKey(k1) == FileName(k1)[..|FileName(k1)| - 5];
      assert SafeKey(k2) == FileName(k2)[..|FileName(k2)| - 5];
    }
    if |k1| == |k2| && forall i :: 0 <= i < |k1| ==> SafeKeyChar(k1[i]) == SafeKeyChar(k2[i]) {
      assert SafeKey(k1) == SafeKey(k2);
    }
  }

  /** `repo:a/b` and `repo_a_b` are different keys with one file. */
  lemma CollidingKeys()
    ensures "repo:a/b" != "repo_a_b"
    ensures FileName("repo:a/b") == FileName("repo_a_b")
  {
    SameFileIff("repo:a/b", "repo_a_b");
  }

  /**
   * Collision is not detected: a key that shares a file with a freshly written
   * key, and has no memory entry of its own, reads the other key's data and
   * adopts the other key's entry in memory.
   */
  lemma CollisionLeaksData(c: Cache, k1: string, k2: string, data: Value, etag: Option<string>, t: int, now: int)
    requires k1 != k2 && FileName(k1) == FileName(k2)
    requires k2 !in c.memory
    requires now - t <= c.ttl
    ensures var c' := Set(c, k1, data, etag, t, true);
      var r := Get(c', k2, now);
      r.value == data && r.cache.memory[k2] == Entry(data, t, etag)
  {
    var c' := Set(c, k1, data, etag, t, true);
    assert k2 !in c'.memory;
    assert GetFromMemory(c', k2, now) == Read(c', Null);
  }
}

=== FILE: github_types.dfy ===
/**
 * Record shapes of the GitHub layer and the dynamically typed payload the
 * cache stores. The cache holds `any`, and its callers test what they read
 * with JavaScript truthiness, so the payload keeps enough shape to say which
 * values are falsy.
 */
module GitHubTypes {
  import opened Wrappers

  /** The normalised repository record (`GitHubRepo`). */
  datatype Repository = Repository(
    owner: string,
    name: string,
    description: Option<string>,
    url: string,
    homepage: Option<string>,
    stars: int,
    forks: int,
    language: Option<string>,
    topics: seq<string>,
    createdAt: string,
    updatedAt: string,
    pushedAt: string,
    isArchived: bool,
    isFork: bool,
    license: Option<string>)

  /** What the cache can hold: a repository, a list of them, README text, or a JSON scalar. */
  datatype Value =
    | Null
    | Bool(b: bool)
    | Num(n: int)
    | Str(s: string)
    | Repo(repo: Repository)
    | Repos(repos: seq<Repository>)

  /**
   * JavaScript truthiness: `null`, `false`, `0` and `''` are falsy; every
   * object and every array, including the empty array, is truthy.
   */
  predicate Truthy(v: Value) {
    match v
    case Null => false
    case Bool(b) => b
    case Num(n) => n != 0
    case Str(s) => s != ""
    case Repo(_) => true
    case Repos(_) => true
  }
}

=== FILE: i18n.dfy ===
/**
 * Label lookup for the two interface languages. Three copies of the same
 * fallback rule exist: `useTranslation` in `i18n.config.ts`, the
 * translator of `utils/i18n.ts`, and `t` of the client-side content
 * updater. The dictionaries are data, passed as two maps.
 *
 * The content updater reads the stored language without validating it and
 * then indexes the dictionaries with it; that path is modelled as written
 * (an unknown language throws) next to the corrected one, which validates
 * the stored value the way `utils/i18n.ts` does.
 */
module I18n {
  import opened Wrappers
  import opened Strings

  datatype Lang = En | Zh

  /** `translations`: one dictionary per language. */
  datatype Translations = Translations(en: map<string, string>, zh: map<string, string>)

  const DefaultLang: Lang := En

  /** The language's name as stored and as used to index `translations`. */
  function LangName(l: Lang): string {
    match l
    case En => "en"
    case Zh => "zh"
  }

  function Table(tr: Translations, l: Lang): map<string, string> {
    match l
    case En => tr.en
    case Zh => tr.zh
  }

  /** `table[key]` as an optional string: a missing key reads as `undefined`. */
  function Entry(m: map<string, string>, key: string): Option<string> {
    if key in m then Some(m[key]) else None
  }

  /**
   * `translations[lang][key] || translations[defaultLang][key] || key`: the
   * first non-empty of the language's entry, the English entry and the key.
   */
  function Translate(tr: Translations, l: Lang, key: string): (r: string)
    ensures TruthyString(Entry(Table(tr, l), key)) ==> r == Table(tr, l)[key]
    ensures !TruthyString(Entry(Table(tr, l), key)) && TruthyString(Entry(tr.en, key)) ==> r == tr.en[key]
    ensures !TruthyString(Entry(Table(tr, l), key)) && !TruthyString(Entry(tr.en, key)) ==> r == key
  {
    var own := Entry(Table(tr, l), key);
    var english := Entry(tr.en, key);
    if TruthyString(own) then own.value
    else if TruthyString(english) then english.value
    else key
  }

  /** A label is never blank unless its key is: every lookup ends in a non-empty string or the key. */
  lemma TranslateNonEmpty(tr: Translations, l: Lang, key: string)
    requires key != ""
    ensures Translate(tr, l, key) != ""
  {
  }

  /** For English the chain collapses to the English entry or the key, whatever the Chinese table holds. */
  lemma TranslateEnglish(tr: Translations, key: string)
    ensures Translate(tr, En, key) == (if key in tr.en && tr.en[key] != "" then tr.en[key] else key)
    ensures forall zh :: Translate(Translations(tr.en, zh), En, key) == Translate(tr, En, key)
  {
  }

  /** A Chinese label is the Chinese entry when it is present, the English label otherwise. */
  lemma TranslateChineseFallsBack(tr: Translations, key: string)
    ensures Translate(tr, Zh, key) == (if key in tr.zh && tr.zh[key] != "" then tr.zh[key] else Translate(tr, En, key))
  {
  }

  // ---------------------------------------------------------------------------
  // i18n.config.ts and utils/i18n.ts
  // ---------------------------------------------------------------------------

  /** `useTranslation(lang = defaultLang)(key)`. */
  function UseTranslation(tr: Translations, lang: Option<Lang>, key: string): (r: string)
    ensures lang.None? ==> r == Translate(tr, En, key)
    ensures lang.Some? ==> r == Translate(tr, lang.value, key)
  {
    Translate(tr, lang.GetOr(DefaultLang), key)
  }

  /**
   * `getCurrentLanguage` of `utils/i18n.ts`: without a window, `en`;
   * otherwise the stored value when it is exactly `en` or `zh`, and `en`
   * for anything else, including no stored value.
   */
  function CurrentLanguage(hasWindow: bool, stored: Option<string>): (r: Lang)
    ensures r == Zh <==> hasWindow && stored == Some("zh")
  {
    if !hasWindow then DefaultLang
    else if stored == Some("en") then En
    else if stored == Some("zh") then Zh
    else DefaultLang
  }

  /** Validation leaves the stored name of a language unchanged: storing a language and reading it back gives it again. */
  lemma CurrentLanguageReadsBack(l: Lang)
    ensures CurrentLanguage(true, Some(LangName(l))) == l
  {
  }

  /**
   * `getTranslator(lang)(key)`: an explicit language wins (both names are
   * truthy), otherwise the validated current language.
   */
  function Translator(tr: Translations, lang: Option<Lang>, hasWindow: bool, stored: Option<string>, key: string): (r: string)
    ensures lang.Some? ==> r == Translate(tr, lang.value, key)
    ensures lang.None? ==> r == Translate(tr, CurrentLanguage(hasWindow, stored), key)
  {
    var current := if lang.Some? then lang.value else if hasWindow then CurrentLanguage(hasWindow, stored) else DefaultLang;
    Translate(tr, current, key)
  }

  /** What `useI18n` hands a component: its `t` applied to one key, `lang` and `currentLang`. */
  datatype Handle = Handle(text: string, lang: Lang, currentLang: Lang)

  /** `useI18n`: pinned to the default language, so the page renders English at build time whatever is stored. */
  function UseI18n(tr: Translations, hasWindow: bool, stored: Option<string>, key: string): (r: Handle)
    ensures r.lang == En && r.currentLang == En
    ensures r.text == Translator(tr, Some(En), hasWindow, stored, key)
  {
    Handle(Translator(tr, Some(DefaultLang), hasWindow, stored, key), DefaultLang, DefaultLang)
  }

  /** The build-time hook ignores storage: any two environments give the same handle. */
  lemma UseI18nIgnoresStorage(tr: Translations, key: string, w1: bool, s1: Option<string>, w2: bool, s2: Option<string>)
    ensures UseI18n(tr, w1, s1, key) == UseI18n(tr, w2, s2, key)
    ensures UseI18n(tr, w1, s1, key).text == UseTranslation(tr, None, key)
  {
  }

  // ---------------------------------------------------------------------------
  // i18n-content-updater.ts
  // ---------------------------------------------------------------------------

  /**
   * `getCurrentLanguage` of the content updater, as written: any non-empty
   * stored string is returned unchecked; no window or a missing or empty
   * value gives `en`.
   */
  function StoredLanguage(hasWindow: bool, stored: Option<string>): (r: string)
    ensures !hasWindow || !TruthyString(stored) ==> r == "en"
    ensures hasWindow && TruthyString(stored) ==> r == stored.value
  {
    if !hasWindow then LangName(DefaultLang)
    else if TruthyString(stored) then stored.value
    else LangName(DefaultLang)
  }

  /** The two readers agree on every stored value the validated one accepts, and on a missing one. */
  lemma StoredLanguageAgrees(hasWindow: bool, stored: Option<string>)
    requires stored in {None, Some(""), Some("en"), Some("zh")}
    ensures StoredLanguage(hasWindow, stored) == LangName(CurrentLanguage(hasWindow, stored))
  {
  }

  /** `translations[name]`: present only for the two language names. */
  function TableNamed(tr: Translations, name: string): (r: Option<Lang>)
    ensures r.Some? <==> name == "en" || name == "zh"
    ensures r.Some? ==> LangName(r.value) == name
  {
    if name == "en" then Some(En) else if name == "zh" then Some(Zh) else None
  }

  /**
   * `t(key, lang)` of the content updater, as written, for the language name
   * it ends up with. Indexing `translations` with any other name yields
   * `undefined`, and reading `[key]` of that throws: `None` is the thrown
   * `TypeError`.
   */
  function TAsWritten(tr: Translations, name: string, key: string): (r: Option<string>)
    ensures r.None? <==> name != "en" && name != "zh"
    ensures forall l: Lang :: name == LangName(l) ==> r == Some(Translate(tr, l, key))
  {
    match TableNamed(tr, name)
    case None => None
    case Some(l) => Some(Translate(tr, l, key))
  }

  /** The language name `t` uses: an explicit non-empty one, else the stored one. */
  function EffectiveName(lang: Option<string>, hasWindow: bool, stored: Option<string>): string {
    if TruthyString(lang) then lang.value else StoredLanguage(hasWindow, stored)
  }

  /**
   * Validates a language name the way `utils/i18n.ts` does: `zh` is
   * Chinese, everything else the default.
   */
  function ParseLang(name: string): (l: Lang)
    ensures LangName(l) == name || (l == En && name != "zh")
    ensures l == Zh <==> name == "zh"
    ensures l == CurrentLanguage(true, Some(name))
  {
    if name == "zh" then Zh else DefaultLang
  }

  lemma ParseLangOfName(l: Lang)
    ensures ParseLang(LangName(l)) == l
  {
  }

  /** The corrected `t`: total, with an unknown name read as the default language. */
  function T(tr: Translations, lang: Option<string>, hasWindow: bool, stored: Option<string>, key: string): (r: string)
    ensures key != "" ==> r != ""
  {
    Translate(tr, ParseLang(EffectiveName(lang, hasWindow, stored)), key)
  }

  /** Whenever the written `t` returns, the corrected one returns the same label. */
  lemma TAgreesWhereDefined(tr: Translations, lang: Option<string>, hasWindow: bool, stored: Option<string>, key: string)
    requires TAsWritten(tr, EffectiveName(lang, hasWindow, stored), key).Some?
    ensures TAsWritten(tr, EffectiveName(lang, hasWindow, stored), key) == Some(T(tr, lang, hasWindow, stored, key))
  {
    var name := EffectiveName(lang, hasWindow, stored);
    ParseLangOfName(TableNamed(tr, name).value);
  }

  /** A stored `fr`, say, makes the written `t` throw for every key, while the corrected one answers in English. */
  lemma UnknownStoredLanguageThrows(tr: Translations, key: string)
    ensures TAsWritten(tr, EffectiveName(None, true, Some("fr")), key).None?
    ensures T(tr, None, true, Some("fr"), key) == Translate(tr, En, key)
  {
  }

  // ---------------------------------------------------------------------------
  // updatePageContent / updatePageTitle
  // ---------------------------------------------------------------------------

  /** A DOM element reduced to its attributes and its text content. */
  datatype Element = Element(attrs: map<string, string>, text: string)

  function Attr(e: Element, name: string): Option<string> {
    if name in e.attrs then Some(e.attrs[name]) else None
  }

  /**
   * Where a translation goes: the attribute named by `data-i18n-attr`, else
   * `data-text` when the element has it, else the text content.
   */
  datatype Target = InAttr(name: string) | InText

  function TargetOf(e: Element): (t: Target)
    ensures TruthyString(Attr(e, "data-i18n-attr")) ==> t == InAttr(e.attrs["data-i18n-attr"])
    ensures !TruthyString(Attr(e, "data-i18n-attr")) && "data-text" in e.attrs ==> t == InAttr("data-text")
    ensures t == InText <==> !TruthyString(Attr(e, "data-i18n-attr")) && "data-text" !in e.attrs
  {
    var attr := Attr(e, "data-i18n-attr");
    if TruthyString(attr) then InAttr(attr.value)
    else if "data-text" in e.attrs then InAttr("data-text")
    else InText
  }

  function Put(e: Element, t: Target, s: string): Element {
    match t
    case InAttr(name) => e.(attrs := e.attrs[name := s])
    case InText => e.(text := s)
  }

  /**
   * One element of the forEach in `updatePageContent`: an element with a
   * non-empty `data-i18n` key gets its translation in exactly one place.
   */
  function UpdateElement(tr: Translations, l: Lang, e: Element): (r: Element)
    ensures !TruthyString(Attr(e, "data-i18n")) ==> r == e
    ensures TruthyString(Attr(e, "data-i18n")) ==> r == Put(e, TargetOf(e), Translate(tr, l, e.attrs["data-i18n"]))
  {
    var key := Attr(e, "data-i18n");
    if TruthyString(key) then Put(e, TargetOf(e), Translate(tr, l, key.value)) else e
  }

  /** Nothing but the target changes: every other attribute, and the text unless it is the target. */
  lemma UpdateElementFrame(tr: Translations, l: Lang, e: Element)
    requires TruthyString(Attr(e, "data-i18n"))
    ensures var r := UpdateElement(tr, l, e);
      var translated := Translate(tr, l, e.attrs["data-i18n"]);
      && (forall a :: a in e.attrs && TargetOf(e) != InAttr(a) ==> a in r.attrs && r.attrs[a] == e.attrs[a])
      && r.attrs.Keys == e.attrs.Keys + (if TargetOf(e).InAttr? then {TargetOf(e).name} else {})
      && (TargetOf(e) == InText ==> r.text == translated && r.attrs == e.attrs)
      && (TargetOf(e).InAttr? ==> r.text == e.text && r.attrs[TargetOf(e).name] == translated)
  {
  }

  /**
   * `updatePageTitle`'s route table: `/` or a `/home` prefix, then the
   * first of `/blog`, `/archives`, `/projects`, `/links`, `/about` that
   * prefixes the path; any other path has no title key.
   */
  function TitleKey(path: string): Option<string> {
    if path == "/" || StartsWith(path, "/home") then Some("page.title.home")
    else if StartsWith(path, "/blog") then Some("page.title.blog")
    else if StartsWith(path, "/archives") then Some("page.title.archives")
    else if StartsWith(path, "/projects") then Some("page.title.projects")
    else if StartsWith(path, "/links") then Some("page.title.links")
    else if StartsWith(path, "/about") then Some("page.title.about")
    else None
  }

  const RoutePrefixes: seq<string> := ["/home", "/blog", "/archives", "/projects", "/links", "/about"]

  /** The route each title key belongs to: `page.title.<route>` for `/<route>`. */
  function RouteOf(key: string): string
    requires StartsWith(key, "page.title.")
  {
    "/" + key[|"page.title."|..]
  }

  /**
   * A title is set exactly for `/` and the paths under one of the six
   * routes, and the key chosen names a route that prefixes the path (the
   * home key also covers `/` itself).
   */
  lemma TitleKeySpec(path: string)
    ensures TitleKey(path).Some? <==> path == "/" || exists i :: 0 <= i < |RoutePrefixes| && StartsWith(path, RoutePrefixes[i])
    ensures TitleKey(path).Some? ==> StartsWith(TitleKey(path).value, "page.title.")
    ensures TitleKey(path).Some? && path != "/" ==> StartsWith(path, RouteOf(TitleKey(path).value))
    ensures path == "/" ==> TitleKey(path) == Some("page.title.home")
  {
    var rp := RoutePrefixes;
    if TitleKey(path).None? {
      forall i | 0 <= i < |rp| ensures !StartsWith(path, rp[i]) {
      }
    } else if path != "/" {
      var k := TitleKey(path).value;
      if k == "page.title.home" { assert StartsWith(path, rp[0]); assert RouteOf(k) == "/home"; }
      else if k == "page.title.blog" { assert StartsWith(path, rp[1]); assert RouteOf(k) == "/blog"; }
      else if k == "page.title.archives" { assert StartsWith(path, rp[2]); assert RouteOf(k) == "/archives"; }
      else if k == "page.title.projects" { assert StartsWith(path, rp[3]); assert RouteOf(k) == "/projects"; }
      else if k == "page.title.links" { assert StartsWith(path, rp[4]); assert RouteOf(k) == "/links"; }
      else { assert StartsWith(path, rp[5]); assert RouteOf(k) == "/about"; }
    }
  }

  /** The parts of the page the updater writes. */
  datatype Page = Page(elements: seq<Element>, path: string, title: string, docLang: string)

  /** `document.documentElement.lang`: `en` for English, `zh-CN` for any other name. */
  function DocLang(name: string): (r: string)
    ensures r == "en" <==> name == "en"
  {
    if name == "en" then "en" else "zh-CN"
  }

  function UpdateAll(tr: Translations, l: Lang, es: seq<Element>): (r: seq<Element>)
    ensures |r| == |es|
    ensures forall i :: 0 <= i < |es| ==> r[i] == UpdateElement(tr, l, es[i])
  {
    seq(|es|, i requires 0 <= i < |es| => UpdateElement(tr, l, es[i]))
  }

  /** The corrected `updatePageContent` for a validated language. */
  function UpdatePageContent(tr: Translations, l: Lang, p: Page): (r: Page)
    ensures r.path == p.path
    ensures r.elements == UpdateAll(tr, l, p.elements)
    ensures TitleKey(p.path).None? ==> r.title == p.title
    ensures TitleKey(p.path).Some? ==> r.title == Translate(tr, l, TitleKey(p.path).value)
    ensures r.docLang == DocLang(LangName(l))
  {
    var key := TitleKey(p.path);
    Page(UpdateAll(tr, l, p.elements), p.path,
         if key.Some? then Translate(tr, l, key.value) else p.title,
         DocLang(LangName(l)))
  }

  /**
   * The corrected `initI18n`: the stored language is validated before use,
   * so the page is rendered in the language `getCurrentLanguage` of
   * `utils/i18n.ts` reports.
   */
  function InitI18n(tr: Translations, hasWindow: bool, stored: Option<string>, p: Page): (r: Page)
    ensures r == UpdatePageContent(tr, CurrentLanguage(hasWindow, stored), p)
    ensures r.docLang == "zh-CN" <==> hasWindow && stored == Some("zh")
  {
    UpdatePageContent(tr, ParseLang(StoredLanguage(hasWindow, stored)), p)
  }

  /** Running the corrected update twice with the same language changes nothing the second time. */
  lemma UpdatePageContentIdempotent(tr: Translations, l: Lang, p: Page)
    requires forall i :: 0 <= i < |p.elements| ==>
      TruthyString(Attr(p.elements[i], "data-i18n")) && TargetOf(p.elements[i]).InAttr? ==>
        TargetOf(p.elements[i]).name != "data-i18n" && TargetOf(p.elements[i]).name != "data-i18n-attr"
    ensures UpdatePageContent(tr, l, UpdatePageContent(tr, l, p)) == UpdatePageContent(tr, l, p)
  {
    var q := UpdatePageContent(tr, l, p);
    forall i | 0 <= i < |p.elements|
      ensures UpdateElement(tr, l, q.elements[i]) == q.elements[i]
    {
      UpdateElementIdempotent(tr, l, p.elements[i]);
    }
    assert UpdateAll(tr, l, q.elements) == q.elements;
  }

  lemma UpdateElementIdempotent(tr: Translations, l: Lang, e: Element)
    requires TruthyString(Attr(e, "data-i18n")) && TargetOf(e).InAttr? ==>
      TargetOf(e).name != "data-i18n" && TargetOf(e).name != "data-i18n-attr"
    ensures UpdateElement(tr, l, UpdateElement(tr, l, e)) == UpdateElement(tr, l, e)
  {
    var r := UpdateElement(tr, l, e);
    if TruthyString(Attr(e, "data-i18n")) {
      assert Attr(r, "data-i18n") == Attr(e, "data-i18n");
      assert Attr(r, "data-i18n-attr") == Attr(e, "data-i18n-attr");
      assert TargetOf(r) == TargetOf(e);
    }
  }

  // ---------------------------------------------------------------------------
  // The content updater as written
  // ---------------------------------------------------------------------------

  /** One element with the written `t`: throws when the element has a key and the name is unknown. */
  function UpdateElementAsWritten(tr: Translations, name: string, e: Element): Option<Element> {
    var key := Attr(e, "data-i18n");
    if !TruthyString(key) then Some(e)
    else match TAsWritten(tr, name, key.value)
      case None => None
      case Some(translated) => Some(Put(e, TargetOf(e), translated))
  }

  /** The forEach as written: the first throwing element aborts the update. */
  function UpdateAllAsWritten(tr: Translations, name: string, es: seq<Element>): Option<seq<Element>>
    decreases |es|
  {
    if |es| == 0 then Some([])
    else match UpdateElementAsWritten(tr, name, es[0])
      case None => None
      case Some(e) =>
        match UpdateAllAsWritten(tr, name, es[1..])
        case None => None
        case Some(rest) => Some([e] + rest)
  }

  /**
   * `updatePageContent(name)` as written, with `None` for the thrown
   * `TypeError`. Each `t(key, name)` looks up `name || getCurrentLanguage()`,
   * so an empty name falls back to the stored language, while the document
   * language is chosen from `name` itself. When the looked-up name is `en` or
   * `zh` the page is the corrected update in that language; for any other
   * looked-up name it either throws or finds nothing to translate, leaving
   * every element and the title as they were.
   */
  function UpdatePageContentAsWritten(tr: Translations, hasWindow: bool, stored: Option<string>,
                                      name: string, p: Page): (r: Option<Page>)
    ensures name == "en" || name == "zh" ==> r == Some(UpdatePageContent(tr, ParseLang(name), p))
    ensures var used := EffectiveName(Some(name), hasWindow, stored);
      used == "en" || used == "zh" ==>
        r == Some(UpdatePageContent(tr, ParseLang(used), p).(docLang := DocLang(name)))
    ensures var used := EffectiveName(Some(name), hasWindow, stored);
      used != "en" && used != "zh" && r.Some? ==>
        && r.value.elements == p.elements && r.value.title == p.title && TitleKey(p.path).None?
    ensures r.Some? ==> r.value.path == p.path && r.value.docLang == DocLang(name)
  {
    var used := EffectiveName(Some(name), hasWindow, stored);
    if used == "en" || used == "zh" then
      UpdateAllAgrees(tr, ParseLang(used), p.elements);
      UpdatePageContentAsWrittenSteps(tr, used, name, p)
    else
      UpdateAllAsWrittenDefinedOrThrows(tr, used, p.elements);
      UpdatePageContentAsWrittenSteps(tr, used, name, p)
  }

  /**
   * The statements of `updatePageContent`: the element loop and the title,
   * both translated with the looked-up name `used`, then the document
   * language from the name passed in.
   */
  function UpdatePageContentAsWrittenSteps(tr: Translations, used: string, name: string, p: Page): Option<Page> {
    match UpdateAllAsWritten(tr, used, p.elements)
    case None => None
    case Some(es) =>
      match TitleKey(p.path)
      case None => Some(Page(es, p.path, p.title, DocLang(name)))
      case Some(key) =>
        match TAsWritten(tr, used, key)
        case None => None
        case Some(title) => Some(Page(es, p.path, title, DocLang(name)))
  }

  /**
   * An empty name with nothing stored translates in English, yet marks the
   * document `zh-CN`: the title lookup falls back, the `lang === 'en'` test
   * does not.
   */
  lemma EmptyNameFallsBackToStored(tr: Translations, hasWindow: bool, p: Page)
    requires p.path == "/blog"
    ensures var r := UpdatePageContentAsWritten(tr, hasWindow, None, "", p);
      && r.Some?
      && r.value.title == Translate(tr, En, "page.title.blog")
      && r.value.elements == UpdateAll(tr, En, p.elements)
      && r.value.docLang == "zh-CN"
  {
    assert StartsWith(p.path, "/blog");
    assert !StartsWith(p.path, "/home");
  }

  /**
   * `initI18n` as written: the stored string goes to `updatePageContent`
   * unchecked. A stored `en` or `zh` renders as the corrected version does;
   * any other stored name throws on every page with a title.
   */
  function InitI18nAsWritten(tr: Translations, hasWindow: bool, stored: Option<string>, p: Page): (r: Option<Page>)
    ensures StoredLanguage(hasWindow, stored) in {"en", "zh"} ==> r == Some(InitI18n(tr, hasWindow, stored, p))
    ensures StoredLanguage(hasWindow, stored) !in {"en", "zh"} && TitleKey(p.path).Some? ==> r.None?
  {
    UpdatePageContentAsWritten(tr, hasWindow, stored, StoredLanguage(hasWindow, stored), p)
  }

  lemma {:induction false} UpdateAllAgrees(tr: Translations, l: Lang, es: seq<Element>)
    ensures UpdateAllAsWritten(tr, LangName(l), es) == Some(UpdateAll(tr, l, es))
    decreases |es|
  {
    if |es| > 0 {
      UpdateAllAgrees(tr, l, es[1..]);
      assert UpdateAll(tr, l, es) == [UpdateElement(tr, l, es[0])] + UpdateAll(tr, l, es[1..]);
    }
  }

  /** For the two real languages the written updater and the corrected one produce the same page. */
  lemma UpdatePageContentAgrees(tr: Translations, hasWindow: bool, stored: Option<string>, l: Lang, p: Page)
    ensures UpdatePageContentAsWritten(tr, hasWindow, stored, LangName(l), p) == Some(UpdatePageContent(tr, l, p))
  {
    UpdateAllAgrees(tr, l, p.elements);
  }

  /** The fix changes nothing for a missing, empty, `en` or `zh` stored value. */
  lemma InitI18nAgrees(tr: Translations, hasWindow: bool, stored: Option<string>, p: Page)
    requires stored in {None, Some(""), Some("en"), Some("zh")}
    ensures InitI18nAsWritten(tr, hasWindow, stored, p) == Some(InitI18n(tr, hasWindow, stored, p))
  {
    StoredLanguageAgrees(hasWindow, stored);
    var l := CurrentLanguage(hasWindow, stored);
    UpdatePageContentAgrees(tr, hasWindow, stored, l, p);
  }

  /**
   * A stored `fr` on the blog index: the written page load throws before
   * touching anything, while the corrected one renders the English title.
   */
  lemma StoredFrenchBreaksPageLoad(tr: Translations, p: Page)
    requires p.path == "/blog"
    ensures InitI18nAsWritten(tr, true, Some("fr"), p).None?
    ensures InitI18n(tr, true, Some("fr"), p).title == Translate(tr, En, "page.title.blog")
  {
    assert StartsWith(p.path, "/blog");
    assert !StartsWith(p.path, "/home");
    var es := p.elements;
    UpdateAllAsWrittenDefinedOrThrows(tr, "fr", es);
  }

  lemma {:induction false} UpdateAllAsWrittenDefinedOrThrows(tr: Translations, name: string, es: seq<Element>)
    requires name != "en" && name != "zh"
    ensures UpdateAllAsWritten(tr, name, es).Some? ==> UpdateAllAsWritten(tr, name, es) == Some(es)
    decreases |es|
  {
    if |es| > 0 {
      UpdateAllAsWrittenDefinedOrThrows(tr, name, es[1..]);
      if UpdateAllAsWritten(tr, name, es).Some? {
        assert es == [es[0]] + es[1..];
      }
    }
  }
}

=== FILE: seqs.dfy ===
/**
 * Sequence algorithms the blog queries are built from: filtering, the stable
 * sort of `Array.prototype.sort` (stable since ECMAScript 2019) under a
 * numeric comparator, and the group-by-first-appearance that a `Map` filled
 * in iteration order produces.
 */
module Seqs {
  import opened Wrappers

  // ---------------------------------------------------------------------------
  // Filtering
  // ---------------------------------------------------------------------------

  /** The elements of `s` satisfying `f`, in their original order. */
  function Filter<T(==,!new)>(s: seq<T>, f: T -> bool): (r: seq<T>)
    ensures |r| <= |s|
    ensures forall x :: x in r <==> x in s && f(x)
    ensures forall i :: 0 <= i < |r| ==> f(r[i])
    decreases |s|
  {
    if |s| == 0 then []
    else (if f(s[0]) then [s[0]] else []) + Filter(s[1..], f)
  }

  lemma {:induction false} FilterAppend<T(!new)>(a: seq<T>, b: seq<T>, f: T -> bool)
    ensures Filter(a + b, f) == Filter(a, f) + Filter(b, f)
    decreases |a|
  {
    if |a| == 0 {
      assert a + b == b;
    } else {
      assert (a + b)[1..] == a[1..] + b;
      FilterAppend(a[1..], b, f);
    }
  }

  /** The positions of `s` whose element satisfies `f`. */
  ghost function Positions<T>(s: seq<T>, f: T -> bool): set<nat> {
    set i: nat | i < |s| && f(s[i])
  }

  /** `Filter` keeps one element per matching position, so duplicates count once each. */
  lemma {:induction false} FilterCount<T(!new)>(s: seq<T>, f: T -> bool)
    ensures |Filter(s, f)| == |Positions(s, f)|
    decreases |s|
  {
    if |s| > 0 {
      var s', x := s[..|s| - 1], s[|s| - 1];
      FilterCount(s', f);
      assert s == s' + [x];
      FilterAppend(s', [x], f);
      PositionsSnoc(s', x, f);
    }
  }

  lemma PositionsSnoc<T>(s: seq<T>, x: T, f: T -> bool)
    ensures |Positions(s + [x], f)| == |Positions(s, f)| + (if f(x) then 1 else 0)
  {
    var t := s + [x];
    assert forall i :: 0 <= i < |s| ==> t[i] == s[i];
    assert Positions(t, f) == Positions(s, f) + (if f(x) then {|s|} else {});
  }

  /** Filters that agree on every element keep the same elements. */
  lemma {:induction false} FilterExt<T(!new)>(s: seq<T>, f: T -> bool, g: T -> bool)
    requires forall x :: f(x) == g(x)
    ensures Filter(s, f) == Filter(s, g)
    decreases |s|
  {
    if |s| > 0 {
      FilterExt(s[1..], f, g);
    }
  }

  /** Filtering twice is filtering once by the conjunction. */
  lemma {:induction false} FilterFilter<T(!new)>(s: seq<T>, f: T -> bool, g: T -> bool, h: T -> bool)
    requires forall x :: h(x) == (f(x) && g(x))
    ensures Filter(Filter(s, f), g) == Filter(s, h)
    decreases |s|
  {
    if |s| > 0 {
      FilterFilter(s[1..], f, g, h);
      var head := if f(s[0]) then [s[0]] else [];
      FilterAppend(head, Filter(s[1..], f), g);
    }
  }

  /** `f` applied to every element, in order. */
  function Map<T, U>(s: seq<T>, f: T -> U): (r: seq<U>)
    ensures |r| == |s|
    ensures forall i :: 0 <= i < |s| ==> r[i] == f(s[i])
  {
    seq(|s|, i requires 0 <= i < |s| => f(s[i]))
  }

  lemma MapAppend<T, U>(a: seq<T>, b: seq<T>, f: T -> U)
    ensures Map(a + b, f) == Map(a, f) + Map(b, f)
  {
  }

  /** A prefix of a mapped sequence is a sub-multiset of the whole. */
  lemma PrefixSubMultiset<T, U>(s: seq<T>, n: nat, f: T -> U)
    requires n <= |s|
    ensures multiset(Map(s[..n], f)) <= multiset(Map(s, f))
  {
    assert s == s[..n] + s[n..];
    MapAppend(s[..n], s[n..], f);
  }

  /** Taking out the element at `j` takes one copy of it out of the multiset, before and after mapping. */
  lemma RemoveAt<T, U>(s: seq<T>, j: nat, f: T -> U)
    requires j < |s|
    ensures multiset(s) == multiset(s[..j] + s[j + 1..]) + multiset{s[j]}
    ensures multiset(Map(s, f)) == multiset(Map(s[..j] + s[j + 1..], f)) + multiset{f(s[j])}
  {
    assert s == s[..j] + [s[j]] + s[j + 1..];
    MapAppend(s[..j] + [s[j]], s[j + 1..], f);
    MapAppend(s[..j], [s[j]], f);
    MapAppend(s[..j], s[j + 1..], f);
  }

  lemma RemoveHead<T, U>(r: seq<T>, f: T -> U)
    requires |r| > 0
    ensures multiset(r) == multiset(r[1..]) + multiset{r[0]}
    ensures multiset(Map(r, f)) == multiset(Map(r[1..], f)) + multiset{f(r[0])}
  {
    assert r == [r[0]] + r[1..];
    assert Map(r, f) == [f(r[0])] + Map(r[1..], f);
  }

  /** Mapping two permutations of each other gives two permutations of each other. */
  lemma {:induction false} MapMultiset<T, U>(r: seq<T>, s: seq<T>, f: T -> U)
    requires multiset(r) == multiset(s)
    ensures multiset(Map(r, f)) == multiset(Map(s, f))
    decreases |r|
  {
    if |r| == 0 {
      assert |s| == |multiset(s)| == 0;
    } else {
      var x := r[0];
      assert x in multiset(s);
      var j :| 0 <= j < |s| && s[j] == x;
      var s' := s[..j] + s[j + 1..];
      var r' := r[1..];
      RemoveAt(s, j, f);
      RemoveHead(r, f);
      MultisetCancel(multiset(r'), multiset(s'), multiset{x});
      MapMultiset(r', s', f);
      var mr, ms := multiset(Map(r', f)), multiset(Map(s', f));
      assert multiset(Map(r, f)) == mr + multiset{f(x)};
      assert multiset(Map(s, f)) == ms + multiset{f(x)};
    }
  }

  lemma MultisetCancel<T>(a: multiset<T>, b: multiset<T>, c: multiset<T>)
    requires a + c == b + c
    ensures a == b
  {
    forall y ensures a[y] == b[y] {
      assert (a + c)[y] == (b + c)[y];
    }
  }


  /** The elements of `s` whose key is `k`, in their original order. */
  function KeyClass<T>(s: seq<T>, key: T -> int, k: int): (r: seq<T>)
    ensures |r| <= |s|
    ensures forall i :: 0 <= i < |r| ==> key(r[i]) == k
    decreases |s|
  {
    if |s| == 0 then []
    else (if key(s[0]) == k then [s[0]] else []) + KeyClass(s[1..], key, k)
  }

  lemma {:induction false} KeyClassAppend<T>(a: seq<T>, b: seq<T>, key: T -> int, k: int)
    ensures KeyClass(a + b, key, k) == KeyClass(a, key, k) + KeyClass(b, key, k)
    decreases |a|
  {
    if |a| == 0 {
      assert a + b == b;
    } else {
      assert (a + b)[1..] == a[1..] + b;
      KeyClassAppend(a[1..], b, key, k);
    }
  }

  // ---------------------------------------------------------------------------
  // Stable sort, descending by an integer key
  // ---------------------------------------------------------------------------

  predicate SortedDesc<T>(s: seq<T>, key: T -> int) {
    forall i, j :: 0 <= i < j < |s| ==> key(s[i]) >= key(s[j])
  }

  /** Every pair of elements with the same key keeps its relative order. */
  ghost predicate SameKeyClasses<T>(r: seq<T>, s: seq<T>, key: T -> int) {
    forall k :: KeyClass(r, key, k) == KeyClass(s, key, k)
  }

  /** `x` placed in front of the first element whose key does not exceed its own. */
  function Insert<T>(x: T, t: seq<T>, key: T -> int): (r: seq<T>)
    decreases |t|
  {
    if |t| == 0 || key(t[0]) <= key(x) then [x] + t
    else [t[0]] + Insert(x, t[1..], key)
  }

  lemma {:induction false} InsertSorted<T>(x: T, t: seq<T>, key: T -> int)
    requires SortedDesc(t, key)
    ensures SortedDesc(Insert(x, t, key), key)
    ensures |Insert(x, t, key)| == |t| + 1
    ensures Insert(x, t, key)[0] == x || (|t| > 0 && Insert(x, t, key)[0] == t[0])
    decreases |t|
  {
    if |t| > 0 && key(t[0]) > key(x) {
      var t' := t[1..];
      InsertSorted(x, t', key);
      var r' := Insert(x, t', key);
      var r := [t[0]] + r';
      assert |t'| > 0 ==> key(t[0]) >= key(t'[0]) by {
        if |t'| > 0 { assert t'[0] == t[1]; }
      }
      forall i, j | 0 <= i < j < |r| ensures key(r[i]) >= key(r[j]) {
        if i == 0 {
          assert key(r[0]) >= key(r'[0]);
          assert r[j] == r'[j - 1];
        } else {
          assert r[i] == r'[i - 1] && r[j] == r'[j - 1];
        }
      }
    }
  }

  lemma {:induction false} InsertMultiset<T>(x: T, t: seq<T>, key: T -> int)
    ensures multiset(Insert(x, t, key)) == multiset([x] + t)
    decreases |t|
  {
    if |t| > 0 && key(t[0]) > key(x) {
      InsertMultiset(x, t[1..], key);
      assert t == [t[0]] + t[1..];
    }
  }

  lemma {:induction false} InsertKeyClass<T>(x: T, t: seq<T>, key: T -> int, k: int)
    ensures KeyClass(Insert(x, t, key), key, k) == KeyClass([x] + t, key, k)
    decreases |t|
  {
    if |t| > 0 && key(t[0]) > key(x) {
      var t' := t[1..];
      InsertKeyClass(x, t', key, k);
      assert t == [t[0]] + t';
      KeyClassAppend([t[0]], Insert(x, t', key), key, k);
      KeyClassAppend([x], t, key, k);
      KeyClassAppend([t[0]], t', key, k);
      KeyClassAppend([x], t', key, k);
    }
  }

  /**
   * Insertion sort by descending key. Elements with equal keys keep their
   * input order, which is what a comparator `(a, b) => key(b) - key(a)` gives
   * under a stable sort.
   */
  function SortDesc<T(==)>(s: seq<T>, key: T -> int): (r: seq<T>)
    ensures SortedDesc(r, key)
    ensures multiset(r) == multiset(s)
    ensures |r| == |s|
    ensures SameKeyClasses(r, s, key)
    decreases |s|
  {
    if |s| == 0 then []
    else
      var rest := SortDesc(s[1..], key);
      InsertSorted(s[0], rest, key);
      InsertMultiset(s[0], rest, key);
      assert forall k :: KeyClass(Insert(s[0], rest, key), key, k) == KeyClass([s[0]] + rest, key, k) by {
        forall k ensures KeyClass(Insert(s[0], rest, key), key, k) == KeyClass([s[0]] + rest, key, k) {
          InsertKeyClass(s[0], rest, key, k);
        }
      }
      assert s == [s[0]] + s[1..];
      assert forall k :: KeyClass([s[0]] + rest, key, k) == KeyClass(s, key, k) by {
        forall k ensures KeyClass([s[0]] + rest, key, k) == KeyClass(s, key, k) {
          KeyClassAppend([s[0]], rest, key, k);
          KeyClassAppend([s[0]], s[1..], key, k);
        }
      }
      Insert(s[0], rest, key)
  }

  /** Some key occurs in a non-empty sequence, and a key is present iff its class is non-empty. */
  lemma {:induction false} KeyClassMember<T>(s: seq<T>, key: T -> int, i: nat)
    requires i < |s|
    ensures |KeyClass(s, key, key(s[i]))| > 0
    decreases i
  {
    if i > 0 {
      KeyClassMember(s[1..], key, i - 1);
    }
  }

  lemma {:induction false} KeyClassEmpty<T>(s: seq<T>, key: T -> int, k: int)
    requires forall i :: 0 <= i < |s| ==> key(s[i]) != k
    ensures KeyClass(s, key, k) == []
    decreases |s|
  {
    if |s| > 0 {
      KeyClassEmpty(s[1..], key, k);
    }
  }

  /**
   * The specification determines the result: two descending sequences with
   * the same key classes are equal, so `SortDesc` is the only stable sort.
   */
  lemma {:induction false} StableSortUnique<T>(r: seq<T>, r': seq<T>, key: T -> int)
    requires SortedDesc(r, key) && SortedDesc(r', key)
    requires SameKeyClasses(r, r', key)
    ensures r == r'
    decreases |r|
  {
    if |r'| > 0 {
      KeyClassMember(r', key, 0);
      assert |KeyClass(r, key, key(r'[0]))| > 0;
    }
    if |r| > 0 {
      KeyClassMember(r, key, 0);
      assert |KeyClass(r', key, key(r[0]))| > 0;
    }
    if |r| > 0 {
      var m, m' := key(r[0]), key(r'[0]);
      KeyClassMember(r, key, 0);
      KeyClassMember(r', key, 0);
      if m < m' {
        KeyClassEmpty(r, key, m');
        assert false;
      } else if m' < m {
        KeyClassEmpty(r', key, m);
        assert false;
      }
      assert r[0] == KeyClass(r, key, m)[0] == KeyClass(r', key, m)[0] == r'[0];
      forall k ensures KeyClass(r[1..], key, k) == KeyClass(r'[1..], key, k) {
        var head := if key(r[0]) == k then [r[0]] else [];
        assert KeyClass(r, key, k) == head + KeyClass(r[1..], key, k);
        assert KeyClass(r', key, k) == head + KeyClass(r'[1..], key, k);
        assert KeyClass(r, key, k) == KeyClass(r', key, k);
        assert KeyClass(r[1..], key, k) == KeyClass(r, key, k)[|head|..];
        assert KeyClass(r'[1..], key, k) == KeyClass(r', key, k)[|head|..];
      }
      StableSortUnique(r[1..], r'[1..], key);
      assert r == [r[0]] + r[1..] && r' == [r'[0]] + r'[1..];
    }
  }

  // ---------------------------------------------------------------------------
  // Grouping by first appearance
  // ---------------------------------------------------------------------------

  /** One entry of a `Map` from a key to a counter and the list of members. */
  datatype Group<K, T> = Group(key: K, count: nat, members: seq<T>)

  function GroupKeys<K, T>(gs: seq<Group<K, T>>): (ks: seq<K>)
    ensures |ks| == |gs|
    ensures forall i :: 0 <= i < |gs| ==> ks[i] == gs[i].key
  {
    seq(|gs|, i requires 0 <= i < |gs| => gs[i].key)
  }

  ghost predicate Distinct<K>(ks: seq<K>) {
    forall i, j :: 0 <= i < j < |ks| ==> ks[i] != ks[j]
  }

  /**
   * One step of the loop body: the entry for `k` gets its counter incremented
   * and `x` pushed, and a missing entry is created at the end of the map.
   */
  function AddTo<K(==), T>(gs: seq<Group<K, T>>, k: K, x: T): (r: seq<Group<K, T>>)
    decreases |gs|
  {
    if |gs| == 0 then [Group(k, 1, [x])]
    else if gs[0].key == k then [Group(k, gs[0].count + 1, gs[0].members + [x])] + gs[1..]
    else [gs[0]] + AddTo(gs[1..], k, x)
  }

  /** The loop over `s`: elements with no key (`None`) are skipped. */
  function GroupBy<K(==), T>(s: seq<T>, key: T -> Option<K>): seq<Group<K, T>>
    decreases |s|
  {
    if |s| == 0 then []
    else
      var gs := GroupBy(s[..|s| - 1], key);
      var x := s[|s| - 1];
      if key(x).Some? then AddTo(gs, key(x).value, x) else gs
  }

  /** The distinct keys of `s` in order of first appearance. */
  function KeysInOrder<K(==), T>(s: seq<T>, key: T -> Option<K>): seq<K>
    decreases |s|
  {
    if |s| == 0 then []
    else
      var ks := KeysInOrder(s[..|s| - 1], key);
      var x := s[|s| - 1];
      if key(x).Some? && key(x).value !in ks then ks + [key(x).value] else ks
  }

  /** The elements of `s` whose key is `Some(k)`, in their original order. */
  function WithKey<K(==), T>(s: seq<T>, key: T -> Option<K>, k: K): seq<T>
    decreases |s|
  {
    if |s| == 0 then []
    else
      var x := s[|s| - 1];
      WithKey(s[..|s| - 1], key, k) + (if key(x) == Some(k) then [x] else [])
  }

  /** The reference grouping: one group per key, holding exactly the elements with that key. */
  function GroupsRef<K(==), T>(s: seq<T>, key: T -> Option<K>): (gs: seq<Group<K, T>>)
    ensures |gs| == |KeysInOrder(s, key)|
  {
    var ks := KeysInOrder(s, key);
    seq(|ks|, i requires 0 <= i < |ks| => Group(ks[i], |WithKey(s, key, ks[i])|, WithKey(s, key, ks[i])))
  }

  lemma {:induction false} KeysInOrderDistinct<K, T>(s: seq<T>, key: T -> Option<K>)
    ensures Distinct(KeysInOrder(s, key))
    ensures forall k :: k in KeysInOrder(s, key) <==> exists i :: 0 <= i < |s| && key(s[i]) == Some(k)
    decreases |s|
  {
    if |s| > 0 {
      var s' := s[..|s| - 1];
      KeysInOrderDistinct(s', key);
      forall k ensures k in KeysInOrder(s, key) <==> exists i :: 0 <= i < |s| && key(s[i]) == Some(k) {
        if exists i :: 0 <= i < |s| && key(s[i]) == Some(k) {
          var i :| 0 <= i < |s| && key(s[i]) == Some(k);
          if i < |s| - 1 {
            assert key(s'[i]) == Some(k);
          }
        }
        if k in KeysInOrder(s', key) {
          var i :| 0 <= i < |s'| && key(s'[i]) == Some(k);
          assert s[i] == s'[i];
        }
      }
    }
  }

  /** `AddTo` on groups with distinct keys: update the matching group, or append a new one. */
  lemma {:induction false} AddToSpec<K, T>(gs: seq<Group<K, T>>, k: K, x: T)
    requires Distinct(GroupKeys(gs))
    ensures k !in GroupKeys(gs) ==> AddTo(gs, k, x) == gs + [Group(k, 1, [x])]
    ensures forall i :: 0 <= i < |gs| && gs[i].key == k ==>
      AddTo(gs, k, x) == gs[i := Group(k, gs[i].count + 1, gs[i].members + [x])]
    decreases |gs|
  {
    if |gs| > 0 && gs[0].key != k {
      assert Distinct(GroupKeys(gs[1..])) by {
        forall i, j | 0 <= i < j < |gs[1..]| ensures GroupKeys(gs[1..])[i] != GroupKeys(gs[1..])[j] {
          assert GroupKeys(gs)[i + 1] != GroupKeys(gs)[j + 1];
        }
      }
      AddToSpec(gs[1..], k, x);
      if k !in GroupKeys(gs) {
        assert k !in GroupKeys(gs[1..]) by {
          forall i | 0 <= i < |gs[1..]| ensures GroupKeys(gs[1..])[i] != k {
            assert GroupKeys(gs)[i + 1] != k;
          }
        }
      }
      forall i | 0 <= i < |gs| && gs[i].key == k
        ensures AddTo(gs, k, x) == gs[i := Group(k, gs[i].count + 1, gs[i].members + [x])]
      {
        assert i > 0;
        assert gs[1..][i - 1].key == k;
      }
    } else if |gs| > 0 {
      forall i | 0 <= i < |gs| && gs[i].key == k
        ensures AddTo(gs, k, x) == gs[i := Group(k, gs[i].count + 1, gs[i].members + [x])]
      {
        if i != 0 {
          assert false;
        }
      }
    }
  }

  /**
   * The loop computes the reference grouping: groups in order of first
   * appearance, each holding exactly the elements with its key, in order,
   * with a counter equal to the number of members.
   */
  lemma {:induction false} GroupByIsReference<K, T>(s: seq<T>, key: T -> Option<K>)
    ensures GroupBy(s, key) == GroupsRef(s, key)
    decreases |s|
  {
    if |s| > 0 {
      var s' := s[..|s| - 1];
      var x := s[|s| - 1];
      GroupByIsReference(s', key);
      var gs := GroupsRef(s', key);
      var ks := KeysInOrder(s', key);
      assert GroupKeys(gs) == ks;
      KeysInOrderDistinct(s', key);
      var ref := GroupsRef(s, key);
      var ks2 := KeysInOrder(s, key);
      if key(x).Some? {
        var k := key(x).value;
        AddToSpec(gs, k, x);
        var added := AddTo(gs, k, x);
        if k in ks {
          var i :| 0 <= i < |ks| && ks[i] == k;
          assert ks2 == ks;
          assert |added| == |ref|;
          forall j | 0 <= j < |ref| ensures added[j] == ref[j] {
            assert WithKey(s, key, ks[j]) == WithKey(s', key, ks[j]) + (if key(x) == Some(ks[j]) then [x] else []);
            if j != i {
              assert ks[j] != k;
            }
          }
        } else {
          assert ks2 == ks + [k];
          WithKeyAbsent(s', key, k);
          assert |added| == |ref|;
          forall j | 0 <= j < |ref| ensures added[j] == ref[j] {
            assert ks2[j] == if j < |ks| then ks[j] else k;
            assert WithKey(s, key, ks2[j]) == WithKey(s', key, ks2[j]) + (if key(x) == Some(ks2[j]) then [x] else []);
          }
        }
      } else {
        assert ks2 == ks;
        forall j | 0 <= j < |ref| ensures gs[j] == ref[j] {
          assert WithKey(s, key, ks[j]) == WithKey(s', key, ks[j]) + (if key(x) == Some(ks[j]) then [x] else []);
        }
      }
    }
  }

  lemma {:induction false} WithKeyAbsent<K, T>(s: seq<T>, key: T -> Option<K>, k: K)
    requires k !in KeysInOrder(s, key)
    ensures WithKey(s, key, k) == []
    decreases |s|
  {
    if |s| > 0 {
      var s' := s[..|s| - 1];
      assert k !in KeysInOrder(s', key);
      WithKeyAbsent(s', key, k);
    }
  }
}

=== FILE: strings.dfy ===
/**
 * String helpers shared by the model: decimal rendering of naturals (the
 * `${n}` template interpolation of a non-negative integer), ASCII case
 * folding, prefix/suffix tests, and the UTF-16 length JavaScript reports.
 */
module Strings {
  import opened Wrappers
  import opened Seqs

  /** An optional string is truthy exactly when it is present and non-empty. */
  predicate TruthyString(s: Option<string>) {
    s.Some? && s.value != ""
  }

  predicate IsDigit(c: char) {
    '0' <= c <= '9'
  }

  function DigitChar(d: nat): (c: char)
    requires d < 10
    ensures IsDigit(c)
  {
    ('0' as int + d) as char
  }

  function DigitValue(c: char): (d: nat)
    requires IsDigit(c)
    ensures d < 10
  {
    c as int - '0' as int
  }

  /** Decimal rendering of `n`, without leading zeros ("0" for zero). */
  function NatToString(n: nat): (s: string)
    ensures 0 < |s|
    ensures forall i :: 0 <= i < |s| ==> IsDigit(s[i])
    ensures |s| > 1 ==> s[0] != '0'
    decreases n
  {
    if n < 10 then [DigitChar(n)] else NatToString(n / 10) + [DigitChar(n % 10)]
  }

  /** The value of a non-empty run of decimal digits. */
  function ParseNat(s: string): (n: nat)
    requires 0 < |s|
    requires forall i :: 0 <= i < |s| ==> IsDigit(s[i])
    decreases |s|
  {
    if |s| == 1 then DigitValue(s[0])
    else ParseNat(s[..|s| - 1]) * 10 + DigitValue(s[|s| - 1])
  }

  /** Reading back a rendered natural yields the natural. */
  lemma {:induction false} ParseNatToString(n: nat)
    ensures ParseNat(NatToString(n)) == n
    decreases n
  {
    if n >= 10 {
      var s := NatToString(n);
      assert s[..|s| - 1] == NatToString(n / 10);
      ParseNatToString(n / 10);
    }
  }

  /** Distinct naturals render differently. */
  lemma NatToStringInjective(m: nat, n: nat)
    requires NatToString(m) == NatToString(n)
    ensures m == n
  {
    ParseNatToString(m);
    ParseNatToString(n);
  }

  /** ASCII lower-casing of one character; every other character is kept. */
  function LowerChar(c: char): char {
    if 'A' <= c <= 'Z' then (c as int + 32) as char else c
  }

  function Lower(s: string): (r: string)
    ensures |r| == |s|
    ensures forall i :: 0 <= i < |s| ==> r[i] == LowerChar(s[i])
  {
    seq(|s|, i requires 0 <= i < |s| => LowerChar(s[i]))
  }

  predicate StartsWith(s: string, prefix: string) {
    |prefix| <= |s| && s[..|prefix|] == prefix
  }

  /** `s` ends with `suffix` when both are compared lower-cased (a regex `/…$/i`). */
  predicate EndsWithIgnoreCase(s: string, suffix: string) {
    |suffix| <= |s| && Lower(s[|s| - |suffix|..]) == Lower(suffix)
  }

  predicate NotNewline(c: char) { c != '\n' }

  /** Every '\n' removed, everything else kept in order (`replace(/\n/g, '')`). */
  function StripNewlines(s: string): (r: string)
    ensures '\n' !in r
    ensures |r| <= |s|
    decreases |s|
  {
    if |s| == 0 then ""
    else if s[0] == '\n' then StripNewlines(s[1..])
    else [s[0]] + StripNewlines(s[1..])
  }

  /** Stripping newlines is filtering by "not a newline": every other character kept, in order. */
  lemma {:induction false} StripNewlinesIsFilter(s: string)
    ensures StripNewlines(s) == Filter(s, NotNewline)
    decreases |s|
  {
    if |s| > 0 {
      StripNewlinesIsFilter(s[1..]);
    }
  }

  lemma {:induction false} StripNewlinesAppend(a: string, b: string)
    ensures StripNewlines(a + b) == StripNewlines(a) + StripNewlines(b)
    decreases |a|
  {
    if |a| > 0 {
      assert (a + b)[1..] == a[1..] + b;
      StripNewlinesAppend(a[1..], b);
    } else {
      assert a + b == b;
    }
  }

  /** A string with no newline is left unchanged. */
  lemma {:induction false} StripNewlinesNoop(s: string)
    requires '\n' !in s
    ensures StripNewlines(s) == s
    decreases |s|
  {
    if |s| > 0 {
      assert s[1..] == s[1..];
      assert '\n' !in s[1..] by {
        forall i | 0 <= i < |s[1..]| ensures s[1..][i] != '\n' {
          assert s[1..][i] == s[i + 1];
        }
      }
      StripNewlinesNoop(s[1..]);
      assert s == [s[0]] + s[1..];
    }
  }

  /**
   * The `length` of a JavaScript string: it counts UTF-16 code units, so a
   * character above U+FFFF (outside the Basic Multilingual Plane) counts twice.
   */
  function Utf16Length(s: string): (n: nat)
    ensures |s| <= n <= 2 * |s|
    ensures n == |s| <==> forall i :: 0 <= i < |s| ==> s[i] as int <= 0xFFFF
    decreases |s|
  {
    if |s| == 0 then 0
    else
      var rest := Utf16Length(s[1..]);
      assert forall i :: 1 <= i < |s| ==> s[i] == s[1..][i - 1];
      (if s[0] as int > 0xFFFF then 2 else 1) + rest
  }
}

=== FILE: theme.dfy ===
/**
 * The theme configuration: the record shapes of `types.ts`, the defaults of
 * `tokens.ts`, and `createTheme`, which merges user overrides over those
 * defaults key by key. The palette generator (Material colour utilities) is
 * a parameter.
 */
module Theme {
  import opened Wrappers

  datatype Mode = Light | Dark | System

  /** The Material Design 3 colour roles; the eight optional roles may be absent. */
  datatype Palette = Palette(
    primary: string, onPrimary: string,
    primaryContainer: string, onPrimaryContainer: string,
    secondary: string, onSecondary: string,
    secondaryContainer: string, onSecondaryContainer: string,
    tertiary: string, onTertiary: string,
    tertiaryContainer: string, onTertiaryContainer: string,
    background: string, onBackground: string,
    surface: string, onSurface: string,
    surfaceVariant: string, onSurfaceVariant: string,
    surfaceDim: Option<string>,
    surfaceBright: Option<string>,
    surfaceContainerLowest: Option<string>,
    surfaceContainerLow: Option<string>,
    surfaceContainer: Option<string>,
    surfaceContainerHigh: Option<string>,
    surfaceContainerHighest: Option<string>,
    outline: string,
    outlineVariant: Option<string>,
    error: string, onError: string,
    success: string, warning: string, info: string)

  /** The type scale in rem: xs, sm, md, lg, xl, 2xl, 3xl. */
  datatype Scale = Scale(xs: real, sm: real, md: real, lg: real, xl: real, xxl: real, xxxl: real)

  datatype Typography = Typography(
    fontFamily: string,
    fontFamilyMono: string,
    baseSize: real,
    lineHeight: real,
    scale: Scale)

  datatype Shape = Shape(
    radiusSm: string, radiusMd: string, radiusLg: string,
    borderWidth: string,
    shadowSm: string, shadowMd: string, shadowLg: string)

  datatype ThemeConfig = ThemeConfig(
    mode: Mode,
    paletteLight: Palette,
    paletteDark: Palette,
    typography: Typography,
    shape: Shape)

  // ---------------------------------------------------------------------------
  // Defaults
  // ---------------------------------------------------------------------------

  const DefaultPrimary: string := "#5B8CFF"

  const DefaultScale: Scale := Scale(0.75, 0.875, 1.0, 1.125, 1.25, 1.5, 1.875)

  const DefaultTypography: Typography := Typography(
    "Inter, ui-sans-serif, system-ui, -apple-system, Segoe UI, Roboto, Helvetica Neue, Arial, \"Noto Sans\", \"Apple Color Emoji\", \"Segoe UI Emoji\", \"Segoe UI Symbol\", \"Noto Color Emoji\"",
    "ui-monospace, SFMono-Regular, Menlo, Monaco, Consolas, \"Liberation Mono\", \"Courier New\", monospace",
    16.0,
    1.7,
    DefaultScale)

  const DefaultShape: Shape := Shape(
    "8px", "16px", "24px",
    "1px",
    "0 1px 2px rgba(0,0,0,.06)", "0 8px 30px rgba(0,0,0,.08)", "0 18px 40px rgba(0,0,0,.12)")

  // ---------------------------------------------------------------------------
  // Overrides
  // ---------------------------------------------------------------------------

  /** Each key either given or absent. */
  datatype ScaleOverrides = ScaleOverrides(
    xs: Option<real>, sm: Option<real>, md: Option<real>, lg: Option<real>,
    xl: Option<real>, xxl: Option<real>, xxxl: Option<real>)

  datatype TypographyOverrides = TypographyOverrides(
    fontFamily: Option<string>,
    fontFamilyMono: Option<string>,
    baseSize: Option<real>,
    lineHeight: Option<real>,
    scale: Option<ScaleOverrides>)

  datatype ShapeOverrides = ShapeOverrides(
    radiusSm: Option<string>, radiusMd: Option<string>, radiusLg: Option<string>,
    borderWidth: Option<string>,
    shadowSm: Option<string>, shadowMd: Option<string>, shadowLg: Option<string>)

  datatype Overrides = Overrides(
    mode: Option<Mode>,
    primary: Option<string>,
    typography: Option<TypographyOverrides>,
    shape: Option<ShapeOverrides>)

  const NoOverrides: Overrides := Overrides(None, None, None, None)

  /** `{ ...base, ...o }` for the scale: a given key wins, an absent one keeps the base value. */
  function MergeScale(base: Scale, o: ScaleOverrides): Scale {
    Scale(o.xs.GetOr(base.xs), o.sm.GetOr(base.sm), o.md.GetOr(base.md), o.lg.GetOr(base.lg),
          o.xl.GetOr(base.xl), o.xxl.GetOr(base.xxl), o.xxxl.GetOr(base.xxxl))
  }

  function MergeShape(base: Shape, o: ShapeOverrides): Shape {
    Shape(o.radiusSm.GetOr(base.radiusSm), o.radiusMd.GetOr(base.radiusMd), o.radiusLg.GetOr(base.radiusLg),
          o.borderWidth.GetOr(base.borderWidth),
          o.shadowSm.GetOr(base.shadowSm), o.shadowMd.GetOr(base.shadowMd), o.shadowLg.GetOr(base.shadowLg))
  }

  const EmptyScaleOverrides: ScaleOverrides := ScaleOverrides(None, None, None, None, None, None, None)
  const EmptyShapeOverrides: ShapeOverrides := ShapeOverrides(None, None, None, None, None, None, None)

  /**
   * The typography merge: top-level keys of the override win; the scale is
   * merged one level deeper, so the scale from the override never replaces
   * the default scale wholesale.
   */
  function MergeTypography(base: Typography, o: Option<TypographyOverrides>): Typography {
    match o
    case None => base
    case Some(t) =>
      Typography(t.fontFamily.GetOr(base.fontFamily), t.fontFamilyMono.GetOr(base.fontFamilyMono),
                 t.baseSize.GetOr(base.baseSize), t.lineHeight.GetOr(base.lineHeight),
                 MergeScale(base.scale, t.scale.GetOr(EmptyScaleOverrides)))
  }

  /**
   * `createTheme`: the primary colour defaults to `#5B8CFF`, both palettes
   * come from one generator call on it, the mode defaults to `system`, and
   * typography, scale and shape are merged key by key over the defaults.
   */
  function CreateTheme(o: Overrides, generate: string -> (Palette, Palette)): (r: ThemeConfig)
    ensures var primary := if o.primary.Some? then o.primary.value else DefaultPrimary;
      r.paletteLight == generate(primary).0 && r.paletteDark == generate(primary).1
    ensures r.mode == if o.mode.Some? then o.mode.value else System
    ensures o.typography.None? ==> r.typography == DefaultTypography
    ensures o.shape.None? ==> r.shape == DefaultShape
  {
    var primary := o.primary.GetOr(DefaultPrimary);
    var palettes := generate(primary);
    ThemeConfig(
      o.mode.GetOr(System),
      palettes.0,
      palettes.1,
      MergeTypography(DefaultTypography, o.typography),
      MergeShape(DefaultShape, o.shape.GetOr(EmptyShapeOverrides)))
  }

  // ---------------------------------------------------------------------------
  // Properties of the merge
  // ---------------------------------------------------------------------------

  /** Without overrides the theme is the defaults with the default primary's palettes. */
  lemma DefaultTheme(generate: string -> (Palette, Palette))
    ensures CreateTheme(NoOverrides, generate) ==
      ThemeConfig(System, generate(DefaultPrimary).0, generate(DefaultPrimary).1, DefaultTypography, DefaultShape)
  {
  }

  /** A partial scale override changes exactly the listed keys and nothing else in typography. */
  lemma PartialScaleOverride(md: real, generate: string -> (Palette, Palette))
    ensures var o := Overrides(None, None,
        Some(TypographyOverrides(None, None, None, None, Some(EmptyScaleOverrides.(md := Some(md))))), None);
      CreateTheme(o, generate).typography == DefaultTypography.(scale := DefaultScale.(md := md))
  {
  }

  /**
   * The merge key by key, for every override: each typography, scale and
   * shape value is the override's when it gives that key, and the default
   * otherwise. A missing typography or scale section counts as giving no key.
   */
  lemma MergeKeyByKey(o: Overrides, generate: string -> (Palette, Palette))
    ensures var r := CreateTheme(o, generate).typography;
      var t := if o.typography.Some? then o.typography.value else TypographyOverrides(None, None, None, None, None);
      && r.fontFamily == (if t.fontFamily.Some? then t.fontFamily.value else DefaultTypography.fontFamily)
      && r.fontFamilyMono == (if t.fontFamilyMono.Some? then t.fontFamilyMono.value else DefaultTypography.fontFamilyMono)
      && r.baseSize == (if t.baseSize.Some? then t.baseSize.value else DefaultTypography.baseSize)
      && r.lineHeight == (if t.lineHeight.Some? then t.lineHeight.value else DefaultTypography.lineHeight)
    ensures var r := CreateTheme(o, generate).typography.scale;
      var t := if o.typography.Some? && o.typography.value.scale.Some? then o.typography.value.scale.value else EmptyScaleOverrides;
      && r.xs == (if t.xs.Some? then t.xs.value else DefaultScale.xs)
      && r.sm == (if t.sm.Some? then t.sm.value else DefaultScale.sm)
      && r.md == (if t.md.Some? then t.md.value else DefaultScale.md)
      && r.lg == (if t.lg.Some? then t.lg.value else DefaultScale.lg)
      && r.xl == (if t.xl.Some? then t.xl.value else DefaultScale.xl)
      && r.xxl == (if t.xxl.Some? then t.xxl.value else DefaultScale.xxl)
      && r.xxxl == (if t.xxxl.Some? then t.xxxl.value else DefaultScale.xxxl)
    ensures var r := CreateTheme(o, generate).shape;
      var t := if o.shape.Some? then o.shape.value else EmptyShapeOverrides;
      && r.radiusSm == (if t.radiusSm.Some? then t.radiusSm.value else DefaultShape.radiusSm)
      && r.radiusMd == (if t.radiusMd.Some? then t.radiusMd.value else DefaultShape.radiusMd)
      && r.radiusLg == (if t.radiusLg.Some? then t.radiusLg.value else DefaultShape.radiusLg)
      && r.borderWidth == (if t.borderWidth.Some? then t.borderWidth.value else DefaultShape.borderWidth)
      && r.shadowSm == (if t.shadowSm.Some? then t.shadowSm.value else DefaultShape.shadowSm)
      && r.shadowMd == (if t.shadowMd.Some? then t.shadowMd.value else DefaultShape.shadowMd)
      && r.shadowLg == (if t.shadowLg.Some? then t.shadowLg.value else DefaultShape.shadowLg)
  {
  }

  /** The overrides that would reproduce a theme exactly, given the primary it was generated from. */
  function OverridesOf(t: ThemeConfig, primary: string): Overrides {
    var ty := t.typography;
    var sc := ty.scale;
    var sh := t.shape;
    Overrides(
      Some(t.mode),
      Some(primary),
      Some(TypographyOverrides(Some(ty.fontFamily), Some(ty.fontFamilyMono), Some(ty.baseSize), Some(ty.lineHeight),
        Some(ScaleOverrides(Some(sc.xs), Some(sc.sm), Some(sc.md), Some(sc.lg), Some(sc.xl), Some(sc.xxl), Some(sc.xxxl))))),
      Some(ShapeOverrides(Some(sh.radiusSm), Some(sh.radiusMd), Some(sh.radiusLg), Some(sh.borderWidth),
        Some(sh.shadowSm), Some(sh.shadowMd), Some(sh.shadowLg))))
  }

  /**
   * Given every key, the merge returns exactly the overrides: the defaults
   * only fill gaps. In particular a theme fed back as overrides is a fixed
   * point of `createTheme`.
   */
  lemma FullOverridesWin(o: Overrides, generate: string -> (Palette, Palette))
    ensures var t := CreateTheme(o, generate);
      var primary := o.primary.GetOr(DefaultPrimary);
      CreateTheme(OverridesOf(t, primary), generate) == t
  {
  }
}

=== FILE: theme_toggle.dfy ===
/**
 * The light / dark / system switch of `theme-toggle.ts`. The page state the
 * toggle writes is a record: the root's `data-theme`, the stored mode, the
 * button's accessible label and title, and the icon class. The operating system's
 * colour-scheme preference is a parameter of every step.
 */
module ThemeToggle {
  import opened Wrappers
  import opened Strings
  import opened Theme
  import CssVars

  function ModeName(m: Mode): string {
    match m
    case Light => "light"
    case Dark => "dark"
    case System => "system"
  }

  /** `read`: a stored `light`, `dark` or `system` is taken, anything else means `system`. */
  function Read(stored: Option<string>): (m: Mode)
    ensures stored.None? ==> m == System
  {
    if stored == Some("light") then Light
    else if stored == Some("dark") then Dark
    else System
  }

  /** Storing a mode and reading it back gives the same mode. */
  lemma ReadModeName(m: Mode)
    ensures Read(Some(ModeName(m))) == m
  {
  }

  /** Exactly the three mode names are taken; anything else reads as `system`. */
  lemma ReadRejectsOthers(stored: Option<string>)
    requires forall m: Mode :: stored != Some(ModeName(m))
    ensures Read(stored) == System
  {
    assert stored != Some(ModeName(Light)) && stored != Some(ModeName(Dark));
  }

  /** `order`: the cycle a click walks. */
  const Order: seq<Mode> := [Light, Dark, System]

  function IndexOf(m: Mode): (i: nat)
    ensures i < |Order| && Order[i] == m
  {
    match m
    case Light => 0
    case Dark => 1
    case System => 2
  }

  /** `order[(order.indexOf(cur) + 1) % order.length]`. */
  function Next(m: Mode): (r: Mode)
    ensures r != m
  {
    Order[(IndexOf(m) + 1) % |Order|]
  }

  /** The cycle is light, dark, system, light: three clicks return to the start and visit every mode. */
  lemma NextCycles(m: Mode)
    ensures Next(Light) == Dark && Next(Dark) == System && Next(System) == Light
    ensures Next(Next(Next(m))) == m
    ensures {m, Next(m), Next(Next(m))} == {Light, Dark, System}
  {
  }

  function Label(m: Mode): string {
    match m
    case Dark => "暗色"
    case Light => "亮色"
    case System => "跟随系统"
  }

  const LabelPrefix: string := "切换主题（当前："

  /** The aria-label and title: `切换主题（当前：<label>）`; the mode's label reads back from between the brackets. */
  function LabelText(m: Mode): (r: string)
    ensures StartsWith(r, LabelPrefix) && r[|r| - 1] == '）'
    ensures r[|LabelPrefix|..|r| - 1] == Label(m)
  {
    var r := LabelPrefix + Label(m) + "）";
    assert r[|LabelPrefix|..|r| - 1] == Label(m);
    r
  }

  /** The label names the mode unambiguously: distinct modes get distinct labels. */
  lemma LabelTextInjective(a: Mode, b: Mode)
    requires a != b
    ensures LabelText(a) != LabelText(b)
  {
    var prefix := LabelPrefix;
    assert LabelText(a)[|prefix|] == Label(a)[0];
    assert LabelText(b)[|prefix|] == Label(b)[0];
    assert Label(Dark)[0] == '暗' && Label(Light)[0] == '亮' && Label(System)[0] == '跟';
  }

  /** The icon's class list: the mode's icon, then the shared sizing and transition classes. */
  function IconClass(m: Mode): (r: string)
    ensures ModeOfIcon(r) == Some(m)
  {
    var base := "text-[1.25rem] transition-transform duration-300 rotate-0";
    match m
    case Dark =>
      var r := "i-carbon:moon " + base;
      assert r[..14] == "i-carbon:moon ";
      r
    case Light =>
      var r := "i-carbon:sun " + base;
      assert r[9] == 's' && r[..13] == "i-carbon:sun ";
      r
    case System =>
      var r := "i-carbon:laptop " + base;
      assert r[9] == 'l' && r[..16] == "i-carbon:laptop ";
      r
  }

  /** The mode an icon class list shows, read from its first class. */
  function ModeOfIcon(cls: string): Option<Mode> {
    if StartsWith(cls, "i-carbon:moon ") then Some(Dark)
    else if StartsWith(cls, "i-carbon:sun ") then Some(Light)
    else if StartsWith(cls, "i-carbon:laptop ") then Some(System)
    else None
  }

  /** The `data-theme` a mode resolves to: the mode itself, or the OS preference for `system`. */
  function Resolved(m: Mode, prefersDark: bool): string {
    if m == Dark || (m == System && prefersDark) then "dark" else "light"
  }

  /** What the toggle reads and writes; `ready` is whether the button and icon exist. */
  datatype Ui = Ui(
    ready: bool,
    dataTheme: Option<string>,
    stored: Option<string>,
    ariaLabel: Option<string>,
    title: Option<string>,
    iconClass: Option<string>)

  /**
   * `apply(mode)`: a no-op without the button or icon; otherwise the root
   * gets the resolved theme, storage gets the mode itself (`system`
   * included), and the label and icon name the mode. The 150 ms icon
   * animation is collapsed into the step.
   */
  function Apply(u: Ui, m: Mode, prefersDark: bool): (r: Ui)
    ensures !u.ready ==> r == u
    ensures u.ready ==> r.ready && r.stored == Some(ModeName(m)) && Read(r.stored) == m
    ensures u.ready ==> r.ariaLabel == Some(LabelText(m)) && r.title == r.ariaLabel
    ensures u.ready ==> r.iconClass.Some? && ModeOfIcon(r.iconClass.value) == Some(m)
    ensures u.ready ==> r.dataTheme == Some(Resolved(m, prefersDark))
    ensures u.ready ==> r.dataTheme != Some("system")
  {
    if !u.ready then u
    else
      var text := LabelText(m);
      Ui(true, Some(Resolved(m, prefersDark)), Some(ModeName(m)), Some(text), Some(text), Some(IconClass(m)))
  }

  /**
   * The constructor: apply the stored mode once. The mode read is kept, and
   * a stored value that names no mode is replaced by `system`.
   */
  function Init(u: Ui, prefersDark: bool): (r: Ui)
    ensures !u.ready ==> r == u
    ensures u.ready ==> Read(r.stored) == Read(u.stored) && r.stored == Some(ModeName(Read(u.stored)))
    ensures u.ready ==> r.dataTheme == Some(Resolved(Read(u.stored), prefersDark))
  {
    Apply(u, Read(u.stored), prefersDark)
  }

  /** A click advances the stored mode one step round the cycle. */
  function Click(u: Ui, prefersDark: bool): (r: Ui)
    ensures u.ready ==> Read(r.stored) == Next(Read(u.stored))
  {
    Apply(u, Next(Read(u.stored)), prefersDark)
  }

  /** The OS preference changed: re-apply only when the stored mode is `system`. */
  function SystemChanged(u: Ui, prefersDark: bool): (r: Ui)
    ensures Read(u.stored) != System ==> r == u
  {
    if Read(u.stored) == System then Apply(u, System, prefersDark) else u
  }

  /** After the toggle has run once, `data-theme` follows the stored mode and the preference, and is never `system`. */
  ghost predicate Consistent(u: Ui, prefersDark: bool) {
    u.ready ==>
      && u.dataTheme == Some(Resolved(Read(u.stored), prefersDark))
      && u.ariaLabel == Some(LabelText(Read(u.stored)))
      && u.title == u.ariaLabel
  }

  lemma InitConsistent(u: Ui, prefersDark: bool)
    ensures Consistent(Init(u, prefersDark), prefersDark)
  {
  }

  /**
   * Clicks keep the page consistent, and after a preference change the page
   * is consistent with the new preference: re-applied in `system` mode, and
   * untouched otherwise because a fixed mode does not depend on it.
   */
  lemma StepsKeepConsistent(u: Ui, before: bool, after: bool)
    requires Consistent(u, before)
    ensures Consistent(Click(u, before), before)
    ensures Consistent(SystemChanged(u, after), after)
  {
  }

  /** Three clicks bring the page back to what the stored mode alone would give. */
  lemma ThreeClicks(u: Ui, prefersDark: bool)
    requires u.ready
    ensures Click(Click(Click(u, prefersDark), prefersDark), prefersDark) == Apply(u, Read(u.stored), prefersDark)
  {
    NextCycles(Read(u.stored));
  }

  /**
   * End to end with the stylesheet: once applied, the palette in force is
   * the dark one exactly when the mode is dark, or system with a dark OS
   * preference.
   */
  lemma ApplyChoosesPalette(theme: ThemeConfig, u: Ui, m: Mode, prefersDark: bool)
    requires u.ready
    ensures CssVars.Effective(CssVars.ThemeToCssVars(theme), Apply(u, m, prefersDark).dataTheme, prefersDark) ==
      Some(CssVars.PaletteDecls(if m == Dark || (m == System && prefersDark) then theme.paletteDark else theme.paletteLight))
  {
    CssVars.CascadeChoosesPalette(theme, Apply(u, m, prefersDark).dataTheme, prefersDark);
  }
}

=== FILE: wrappers.dfy ===
/** Optional values, standing in for TypeScript's `T | undefined` and `T | null`. */
module Wrappers {

  datatype Option<+T> = None | Some(value: T) {

    /** The wrapped value, or `default` when there is none (TypeScript's `??`). */
    function GetOr(default: T): T {
      match this
      case Some(v) => v
      case None => default
    }
  }
}
